=== FILE: README.md ===
# Accord browsing and player logic in Dafny

Accord is an Android music player. Under its screens sit plain list and
state rules, and this project models those rules as pure Dafny functions
and small event-driven records, then proves what the screens rely on.

- **Library shaping.** Songs are grouped into albums by their (safe album, safe artist) key and into artists by safe artist name. Groups come out in first-appearance order and are then stably sorted. The album and artist pages filter and order their tracks. The Songs, Albums and Artists screens each have a trimmed, case-insensitive search.
- **Playlists.** The Playlists screen derives its rows: the favourites row first, then row keys, titles, icon and artwork. The playlist page decides membership by song key: merge and dedup, suggestion refresh and top-up, and an idempotent append to app-private playlist files. Cover preferences use a key scheme that the writer and the reader share.
- **Queue and player.** The queue preview swap-reorders entries, drops updates asked for during a drag and lands the others later from a diff job; it also defines diff identity. The full player has the repeat-mode cycle, duration resolution, the progress texts and slider, and volume clamping.
- **UI state machines.** The sliding player panel, the popup menu layout, the navigation bar's collapse and return-button press tracking, and search mode and tabs. There are also two scroll views that report user actions, including the mapping between the fast scroller's states and those actions.
- **Lyrics.** The lyrics screen looks up the line being sung at a playback position.

Shared modules model the Kotlin library behaviour these rules depend on:

- `Wrappers`: nullable values.
- `Numbers`: `Int`/`Long` wrap-around, decimal printing and `toLongOrNull`.
- `Text`: `trim`, `isBlank`, case mapping, `contains(ignoreCase)`, `split` and string order.
- `Seqs`: `filter`, `distinct`, and grouping into a `LinkedHashMap`.
- `StableSort`: stable `sortedBy`.
- `Media`: the `MediaItem` fields the screens read.

The remaining modules follow the source files, one module per file.

## Model

| member | source | states |
|---|---|---|
| Numbers.WrapLong | app/src/main/java/uk/akane/accord/ui/fragments/browse/ArtistDetailFragment.kt:204 | the result is a Long congruent to the mathematical value modulo 2^64, and equals it when it already fits |
| Numbers.WrapInt | app/src/main/java/uk/akane/accord/ui/components/NavigationBar.kt:440 | the result is an Int congruent to the mathematical value modulo 2^32, and equals it when it already fits |
| Numbers.AbsLong | app/src/main/java/uk/akane/accord/ui/components/player/FloatingPanelLayout.kt:401 | absoluteValue is the value or its negation and non-negative, except that Long.MIN_VALUE stays negative |
| Numbers.CoerceIn | app/src/main/java/uk/akane/accord/ui/components/player/FullPlayer.kt:514 | the result lies in the range, is the value when that is in range, and the nearer bound otherwise |
| Numbers.CoerceInReal | app/src/main/java/uk/akane/accord/ui/components/NavigationBar.kt:447 | the float coerceIn lies in the range, is the value when in range, and the nearer bound otherwise |
| Numbers.Truncate | app/src/main/java/uk/akane/accord/ui/fragments/SearchFragment.kt:331-332 | converting a float to an integer drops the fraction toward zero |
| Numbers.IntToString | app/src/main/java/uk/akane/accord/ui/fragments/browse/AlbumDetailFragment.kt:157 | printing a number gives a non-empty text |
| Numbers.ParseLong | app/src/main/java/uk/akane/accord/ui/fragments/browse/PlaylistDetailFragment.kt:379 | a value comes back exactly when the text is an optional '+' or '-' followed by at least one digit and the signed number fits in a Long, and it is that signed number |
| Numbers.DigitsRoundTrip | app/src/main/java/uk/akane/accord/ui/fragments/browse/PlaylistDetailFragment.kt:375-382 | reading back the printed digits of a natural number gives that number |
| Numbers.ParseLongRoundTrip | app/src/main/java/uk/akane/accord/ui/fragments/browse/PlaylistDetailFragment.kt:375-382 | toLongOrNull gives back every Long that toString printed |
| Numbers.IntToStringInjective | app/src/main/java/uk/akane/accord/ui/adapters/browse/PlaylistAdapter.kt:200 | two numbers that print the same are equal |
| Text.TrimStart | app/src/main/java/uk/akane/accord/ui/fragments/browse/SongFragment.kt:91 | the result is a suffix of the text, what it drops is all whitespace, and it does not start with whitespace |
| Text.TrimEnd | app/src/main/java/uk/akane/accord/ui/fragments/browse/SongFragment.kt:91 | the result is a prefix of the text, what it drops is all whitespace, and it does not end with whitespace |
| Text.Trim | app/src/main/java/uk/akane/accord/ui/fragments/browse/SongFragment.kt:91 | the trimmed text neither starts nor ends with whitespace |
| Text.TrimEmptyIffBlank | app/src/main/java/uk/akane/accord/ui/fragments/browse/AddPlaylistFragment.kt:115-116 | a text trims to nothing exactly when it is blank |
| Text.TrimIgnoresPadding | app/src/main/java/uk/akane/accord/ui/fragments/browse/SongFragment.kt:91 | whitespace added around a text never changes what it trims to |
| Text.TrimOfUnpadded | app/src/main/java/uk/akane/accord/ui/fragments/browse/AlbumDetailFragment.kt:184-187 | a text that neither starts nor ends with whitespace trims to itself |
| Text.TrimIdempotent | app/src/main/java/uk/akane/accord/ui/fragments/browse/AlbumDetailFragment.kt:184-187 | trimming twice is trimming once |
| Text.Lowercase | app/src/main/java/uk/akane/accord/ui/adapters/browse/AlbumAdapter.kt:154 | lowercasing keeps the length and lowers each letter in place |
| Text.Uppercase | app/src/main/java/uk/akane/accord/ui/fragments/browse/AlbumDetailFragment.kt:159 | uppercasing keeps the length and raises each letter in place |
| Text.ContainsIgnoreCaseSpec | app/src/main/java/uk/akane/accord/ui/fragments/browse/SongFragment.kt:101-103 | the left-to-right scan reports a match exactly when the query occurs at some offset, ignoring case |
| Text.ContainsEmpty | app/src/main/java/uk/akane/accord/ui/fragments/browse/SongFragment.kt:101-103 | every text contains the empty query |
| Text.Split | app/src/main/java/uk/akane/accord/ui/adapters/browse/AlbumAdapter.kt:143 | splitting yields at least one part |
| Text.SplitJoin | app/src/main/java/uk/akane/accord/ui/adapters/browse/AlbumAdapter.kt:143 | joining the parts with the delimiter gives back the text, and no part holds the delimiter |
| Text.SplitPair | app/src/main/java/uk/akane/accord/ui/adapters/browse/AlbumAdapter.kt:137-143 | two delimiter-free texts joined by the delimiter split back into exactly those two texts |
| Text.LexLeTotal | app/src/main/java/uk/akane/accord/ui/adapters/browse/AlbumAdapter.kt:154 | any two texts are ordered one way or the other |
| Text.LexLeAntisymmetric | app/src/main/java/uk/akane/accord/ui/adapters/browse/AlbumAdapter.kt:154 | two texts ordered both ways are equal |
| Text.LexLeTransitive | app/src/main/java/uk/akane/accord/ui/adapters/browse/AlbumAdapter.kt:154 | the text order is transitive |
| Seqs.FilterBy | app/src/main/java/uk/akane/accord/ui/adapters/browse/PlaylistAdapter.kt:179 | filter keeps exactly the elements that pass, in their original order |
| Seqs.FilterByCounts | app/src/main/java/uk/akane/accord/ui/adapters/browse/PlaylistAdapter.kt:179 | filtering keeps every passing element with its full multiplicity and drops every failing one |
| Seqs.FilterByAll | app/src/main/java/uk/akane/accord/ui/adapters/browse/PlaylistAdapter.kt:179 | filtering keeps everything exactly when every element passes |
| Seqs.FirstBy | app/src/main/java/uk/akane/accord/ui/fragments/browse/PlaylistDetailFragment.kt:160 | firstOrNull finds nothing iff no element passes, and otherwise the first element that passes |
| Seqs.FilterKey | app/src/main/java/uk/akane/accord/ui/adapters/browse/AlbumAdapter.kt:138 | the elements with a given key are exactly those of the input with that key |
| Seqs.Distinct | app/src/main/java/uk/akane/accord/ui/adapters/browse/AlbumAdapter.kt:127-139 | distinct keeps every value once and adds none |
| Seqs.GroupByCharacterization | app/src/main/java/uk/akane/accord/ui/adapters/browse/AlbumAdapter.kt:127-139 | the insertion-ordered map has one group per key in order of first appearance, each holding exactly that key's elements in their original order |
| Seqs.GroupByKeys | app/src/main/java/uk/akane/accord/ui/adapters/browse/AlbumAdapter.kt:127-139 | the map's keys are the distinct keys of the input, in order of first appearance |
| Seqs.GroupByItems | app/src/main/java/uk/akane/accord/ui/adapters/browse/AlbumAdapter.kt:127-139 | each group is non-empty and holds exactly the input elements with its key, in input order |
| Seqs.GroupBySize | app/src/main/java/uk/akane/accord/ui/adapters/browse/AlbumAdapter.kt:127-139 | the groups together hold every element exactly once |
| StableSort.SortBy | app/src/main/java/uk/akane/accord/ui/adapters/browse/AlbumAdapter.kt:154 | sorting yields a permutation of the input |
| StableSort.SortByMembers | app/src/main/java/uk/akane/accord/ui/adapters/browse/AlbumAdapter.kt:154 | sorting neither adds nor drops an element |
| StableSort.SortBySorted | app/src/main/java/uk/akane/accord/ui/adapters/browse/AlbumAdapter.kt:154 | the result is in key order |
| StableSort.SortByStable | app/src/main/java/uk/akane/accord/ui/adapters/browse/AlbumAdapter.kt:154 | elements with equal keys keep their input order, as sortedBy promises |
| StableSort.SortByNoDuplicates | app/src/main/java/uk/akane/accord/ui/adapters/browse/ArtistAdapter.kt:98 | sorting a duplicate-free list keeps it duplicate-free |
| StableSort.StringOrderIsTotal | app/src/main/java/uk/akane/accord/ui/adapters/browse/AlbumAdapter.kt:154 | string comparison is a total order, so sorting by a text key is well defined |
| StableSort.SortByKeepsDistinct | app/src/main/java/uk/akane/accord/ui/adapters/browse/ArtistAdapter.kt:98 | sorting a list whose elements have pairwise different images keeps them pairwise different |
| Media.SafeName | app/src/main/java/uk/akane/accord/ui/adapters/browse/AlbumAdapter.kt:130-135 | the trimmed name, or the fallback when the name is missing or blank; never empty |
| Media.SafeAlbum | app/src/main/java/uk/akane/accord/ui/adapters/browse/AlbumAdapter.kt:130-134 | a song's safe album name is never empty |
| Media.SafeArtist | app/src/main/java/uk/akane/accord/ui/adapters/browse/ArtistAdapter.kt:85-86 | a song's safe artist name is never empty |
| Media.SafeNameIgnoresPadding | app/src/main/java/uk/akane/accord/ui/adapters/browse/AlbumAdapter.kt:130-131 | whitespace around a tag never changes its safe name |
| AlbumAdapter.SubmitFromSongs | app/src/main/java/uk/akane/accord/ui/adapters/browse/AlbumAdapter.kt:124-158 | the control row is first and alone; one album row follows per distinct (safe album, safe artist) key |
| AlbumAdapter.ViewType | app/src/main/java/uk/akane/accord/ui/adapters/browse/AlbumAdapter.kt:60-65 | the control view type iff the control row, the album view type iff an album row |
| AlbumAdapter.GroupAlbumAt | app/src/main/java/uk/akane/accord/ui/adapters/browse/AlbumAdapter.kt:127-153 | an album of the map holds exactly the songs sharing its first track's key, in library order, with that track's artwork |
| AlbumAdapter.GroupAlbumsDisjoint | app/src/main/java/uk/akane/accord/ui/adapters/browse/AlbumAdapter.kt:127-139 | no song is in two albums of the map |
| AlbumAdapter.GroupAlbumsNoDuplicates | app/src/main/java/uk/akane/accord/ui/adapters/browse/AlbumAdapter.kt:127-153 | the map yields no album twice |
| AlbumAdapter.SongHasGroupAlbum | app/src/main/java/uk/akane/accord/ui/adapters/browse/AlbumAdapter.kt:129-139 | every song is in some album of the map |
| AlbumAdapter.SortedAlbumsSameElements | app/src/main/java/uk/akane/accord/ui/adapters/browse/AlbumAdapter.kt:154 | sorting keeps exactly the albums of the map |
| AlbumAdapter.SortedAlbumTracks | app/src/main/java/uk/akane/accord/ui/adapters/browse/AlbumAdapter.kt:141-154 | every sorted album holds exactly the songs of its key, in library order, with the first track's artwork |
| AlbumAdapter.SongInSortedAlbum | app/src/main/java/uk/akane/accord/ui/adapters/browse/AlbumAdapter.kt:129-154 | every song is in some album of the sorted list |
| AlbumAdapter.SortedAlbumsDisjoint | app/src/main/java/uk/akane/accord/ui/adapters/browse/AlbumAdapter.kt:127-154 | no song is in two albums of the sorted list |
| AlbumAdapter.AlbumsPartitionSongs | app/src/main/java/uk/akane/accord/ui/adapters/browse/AlbumAdapter.kt:127-154 | the albums partition the songs: each song is in exactly one album, which holds the songs of its key in library order, with the first track's artwork |
| AlbumAdapter.AlbumNamesOf | app/src/main/java/uk/akane/accord/ui/adapters/browse/AlbumAdapter.kt:137-145 | an album's title and artist are its songs' safe names when those contain no NUL |
| AlbumAdapter.AlbumsSortedByTitle | app/src/main/java/uk/akane/accord/ui/adapters/browse/AlbumAdapter.kt:154 | albums are ordered by lower-cased title, and albums with equal lower-cased titles keep their first-appearance order |
| AlbumAdapter.SubmitRowAt | app/src/main/java/uk/akane/accord/ui/adapters/browse/AlbumAdapter.kt:156-158 | row i (from 1) is the (i-1)-th sorted album |
| AlbumAdapter.AlbumRowsDistinct | app/src/main/java/uk/akane/accord/ui/adapters/browse/AlbumAdapter.kt:137-154 | with NUL-free names (AllSeparatorFree), two different albums differ in title or artist |
| AlbumAdapter.AlbumNamesDistinct | app/src/main/java/uk/akane/accord/ui/adapters/browse/AlbumAdapter.kt:137-154 | with NUL-free names (AllSeparatorFree), any two sorted albums differ in title or artist |
| AlbumAdapter.RowsOfDistinctAlbums | app/src/main/java/uk/akane/accord/ui/adapters/browse/AlbumAdapter.kt:156-187 | a control row followed by rows of albums that pairwise differ in a name has no two rows that are the same diff item |
| AlbumAdapter.RowsOfAlbumsDiffer | app/src/main/java/uk/akane/accord/ui/adapters/browse/AlbumAdapter.kt:178-187 | the control row never matches an album row, and album rows match only when title and artist both agree |
| AlbumAdapter.DiffIdentityUnambiguous | app/src/main/java/uk/akane/accord/ui/adapters/browse/AlbumAdapter.kt:178-187 | with NUL-free names (AllSeparatorFree), no two rows of a submitted list are the same diff item |
| AlbumAdapter.SeparatorInNameMergesAlbums | app/src/main/java/uk/akane/accord/ui/adapters/browse/AlbumAdapter.kt:137-145 | album "a NUL b" by "c" and album "a" by "b NUL c" get the same key and are shown as one album titled "a" by "b" |
| AlbumAdapter.SplitKeyNames | app/src/main/java/uk/akane/accord/ui/adapters/browse/AlbumAdapter.kt:137 | songs with the same NUL-free key have the same safe names |
| AlbumAdapter.KeyOfNames | app/src/main/java/uk/akane/accord/ui/adapters/browse/AlbumAdapter.kt:130-137 | a song with unpadded, non-empty album and artist is keyed by those names joined by NUL |
| AlbumAdapter.SafeNameOfUnpadded | app/src/main/java/uk/akane/accord/ui/adapters/browse/AlbumAdapter.kt:130-135 | an unpadded, non-empty name is its own safe name |
| AlbumAdapter.MergedKeys | app/src/main/java/uk/akane/accord/ui/adapters/browse/AlbumAdapter.kt:130-137 | an album name "a NUL b" by "c" and an album "a" by "b NUL c" produce the same grouping key |
| ArtistAdapter.SubmitFromSongs | app/src/main/java/uk/akane/accord/ui/adapters/browse/ArtistAdapter.kt:80-98 | one artist row per distinct safe artist name |
| ArtistAdapter.GroupArtistAt | app/src/main/java/uk/akane/accord/ui/adapters/browse/ArtistAdapter.kt:82-97 | an artist of the map is named by its first track's safe artist and holds exactly the songs with that name, in library order, with the first track's artwork |
| ArtistAdapter.GroupArtistNamesDistinct | app/src/main/java/uk/akane/accord/ui/adapters/browse/ArtistAdapter.kt:82-88 | two positions of the map never share a name |
| ArtistAdapter.GroupArtistsNoDuplicates | app/src/main/java/uk/akane/accord/ui/adapters/browse/ArtistAdapter.kt:82-97 | the map yields no artist twice |
| ArtistAdapter.ArtistOf | app/src/main/java/uk/akane/accord/ui/adapters/browse/ArtistAdapter.kt:90-98 | every listed artist holds exactly the songs with its name, in library order, with the first track's artwork |
| ArtistAdapter.SongHasArtist | app/src/main/java/uk/akane/accord/ui/adapters/browse/ArtistAdapter.kt:84-88 | every song is listed under the artist named by its safe artist name |
| ArtistAdapter.ArtistNamesDistinct | app/src/main/java/uk/akane/accord/ui/adapters/browse/ArtistAdapter.kt:87-98 | artist names in the result are unique |
| ArtistAdapter.ArtistsPartitionSongs | app/src/main/java/uk/akane/accord/ui/adapters/browse/ArtistAdapter.kt:82-98 | every song is under exactly one artist, each artist holds exactly its songs in library order with the first track's artwork, and no two rows are the same diff item |
| ArtistAdapter.ArtistsSortedByName | app/src/main/java/uk/akane/accord/ui/adapters/browse/ArtistAdapter.kt:98 | artists are ordered by lower-cased name, and names that lower-case alike keep first-appearance order |
| AlbumDetail.TrackOrderIsTotal | app/src/main/java/uk/akane/accord/ui/fragments/browse/AlbumDetailFragment.kt:128-131 | (track number, title) ordering is a total preorder, so the sort is well defined |
| AlbumDetail.AlbumTracks | app/src/main/java/uk/akane/accord/ui/fragments/browse/AlbumDetailFragment.kt:124-131 | a song is on the page iff it is in the library and its safe album and safe artist equal the arguments |
| AlbumDetail.AlbumTracksOrdered | app/src/main/java/uk/akane/accord/ui/fragments/browse/AlbumDetailFragment.kt:128-131 | tracks are ordered by track number, missing as Int.MAX_VALUE, ties by title; they are a permutation of the matching songs, and tracks with equal keys keep their library order (the sort is stable) |
| AlbumDetail.OpenedAlbumShowsItsTracks | app/src/main/java/uk/akane/accord/ui/fragments/browse/AlbumDetailFragment.kt:124-127 | for NUL-free names, the page for an album row of the grid selects exactly the songs the grid grouped under that row, in library order |
| AlbumDetail.DisplayedTrackNumber | app/src/main/java/uk/akane/accord/ui/fragments/browse/AlbumDetailFragment.kt:207-209 | the tag's number when positive, else the 1-based row; always positive |
| AlbumDetail.MetaLine | app/src/main/java/uk/akane/accord/ui/fragments/browse/AlbumDetailFragment.kt:156-167 | hidden iff the trimmed genre is empty and there is no positive year; otherwise the upper-cased genre and/or the year, joined by " · " |
| AlbumDetail.JoinMetaTwo | app/src/main/java/uk/akane/accord/ui/fragments/browse/AlbumDetailFragment.kt:166 | joining two parts puts " · " between them |
| AlbumDetail.Quote | app/src/main/java/uk/akane/accord/ui/fragments/browse/AlbumDetailFragment.kt:169-175 | hidden iff the trimmed description is blank or missing; otherwise the trimmed description |
| AlbumDetail.TrimmedBlankIsEmpty | app/src/main/java/uk/akane/accord/ui/fragments/browse/AlbumDetailFragment.kt:156-159 | a trimmed field is blank iff it is empty |
| AlbumDetail.NumberIsNotBlank | app/src/main/java/uk/akane/accord/ui/fragments/browse/AlbumDetailFragment.kt:157-160 | a year's decimal text is never blank |
| AlbumDetail.OpenedAlbumHeaderArt | app/src/main/java/uk/akane/accord/ui/fragments/browse/AlbumDetailFragment.kt:123-154 | a page opened from an album grid row shows in its header the artwork of a track of that row that no other track of the row precedes in track order; it is the row's own artwork whenever the row's tracks share one |
| ArtistDetail.DateOrderIsTotal | app/src/main/java/uk/akane/accord/ui/fragments/browse/ArtistDetailFragment.kt:132-135 | (add date descending, title) ordering is a total preorder |
| ArtistDetail.ArtistTracks | app/src/main/java/uk/akane/accord/ui/fragments/browse/ArtistDetailFragment.kt:129-131 | a song is on the page iff it is in the library and its safe artist equals the argument |
| ArtistDetail.ArtistTracksOrdered | app/src/main/java/uk/akane/accord/ui/fragments/browse/ArtistDetailFragment.kt:132-135 | tracks are newest first, missing dates as 0, ties by title ascending; they are a permutation of the artist's songs, and songs with equal keys keep their library order (the sort is stable) |
| ArtistDetail.OpenedArtistShowsItsTracks | app/src/main/java/uk/akane/accord/ui/fragments/browse/ArtistDetailFragment.kt:129-131 | the page for an artist row selects exactly the songs the list grouped under it |
| ArtistDetail.AddDateMillis | app/src/main/java/uk/akane/accord/ui/fragments/browse/ArtistDetailFragment.kt:201-205 | null iff the date is missing or not positive; otherwise seconds times 1000, positive when no Long overflow |
| ArtistDetail.UpdateArtistDetails | app/src/main/java/uk/akane/accord/ui/fragments/browse/ArtistDetailFragment.kt:149-199 | no tracks hide the card; otherwise the card shows the first track's safe album and artwork, and the latest-album list is the in-order tracks of that album, non-empty and headed by the first track, with its size as the count |
| ArtistDetail.LatestAdd | app/src/main/java/uk/akane/accord/ui/fragments/browse/ArtistDetailFragment.kt:120-124 | the latest-release button queues the latest-album tracks iff a controller exists and the list is not empty |
| Playback.PlayAll | app/src/main/java/uk/akane/accord/ui/fragments/browse/AlbumDetailFragment.kt:104-110 | a play command is sent iff a controller is connected and the list is not empty, and it plays the whole list from the first track |
| Playback.PlayFrom | app/src/main/java/uk/akane/accord/ui/fragments/browse/AlbumDetailFragment.kt:212-215 | a row click plays the whole list from the clicked row iff a controller is connected and the list is not empty |
| Playback.Shuffled | app/src/main/java/uk/akane/accord/ui/fragments/browse/AlbumDetailFragment.kt:115 | the shuffled list is a permutation of the tracks |
| Playback.ShuffleAll | app/src/main/java/uk/akane/accord/ui/fragments/browse/AlbumDetailFragment.kt:112-119 | shuffle sends a command iff a controller is connected and there are tracks, and it plays a permutation of them from its start |
| LibrarySearch.Search | app/src/main/java/uk/akane/accord/ui/fragments/browse/SongFragment.kt:90-105 | a query that trims to empty returns the list unchanged; otherwise exactly the songs with a searched field containing the trimmed query, ignoring case, as an in-order subsequence that keeps every copy of a matching song and no copy of any other |
| LibrarySearch.SongFieldsMatch | app/src/main/java/uk/akane/accord/ui/fragments/browse/SongFragment.kt:96-104 | the song screen tests title, artist and album, a missing field reading as "" |
| LibrarySearch.AlbumFieldsMatch | app/src/main/java/uk/akane/accord/ui/fragments/browse/AlbumsFragment.kt:138-146 | the album screen tests album, artist and title, a missing field reading as "" |
| LibrarySearch.ArtistFieldsMatch | app/src/main/java/uk/akane/accord/ui/fragments/browse/ArtistsFragment.kt:120-126 | the artist screen tests artist and title only |
| LibrarySearch.SongSearch | app/src/main/java/uk/akane/accord/ui/fragments/browse/SongFragment.kt:90-105 | a blank query returns every song; otherwise the in-order subsequence of songs whose title, artist or album contains the trimmed query ignoring case, with every copy of such a song kept |
| LibrarySearch.AlbumSearch | app/src/main/java/uk/akane/accord/ui/fragments/browse/AlbumsFragment.kt:132-149 | a blank query passes every song; otherwise the in-order subsequence matching album, artist or title ignoring case, with every copy of such a song kept |
| LibrarySearch.ArtistSearch | app/src/main/java/uk/akane/accord/ui/fragments/browse/ArtistsFragment.kt:114-129 | a blank query passes every song; otherwise the in-order subsequence matching artist or title ignoring case, with every copy of such a song kept; the album is never searched |
| LibrarySearch.SearchIgnoresPadding | app/src/main/java/uk/akane/accord/ui/fragments/browse/SongFragment.kt:91 | whitespace around the query never changes the result |
| LibrarySearch.SongAndAlbumSearchAgree | app/src/main/java/uk/akane/accord/ui/fragments/browse/AlbumsFragment.kt:138-146 | the song and album screens keep exactly the same songs for every query |
| LibrarySearch.ArtistSearchWithinSongSearch | app/src/main/java/uk/akane/accord/ui/fragments/browse/ArtistsFragment.kt:120-126 | the artist screen never shows a song the song screen would hide |
| ItemOffsets.DpToPx | app/src/main/java/uk/akane/accord/ui/fragments/browse/AlbumsFragment.kt:103-106 | pixels are dp times density truncated: the largest whole number not above the product, for non-negative inputs |
| ItemOffsets.DpToPxMonotone | app/src/main/java/uk/akane/accord/ui/fragments/browse/AlbumsFragment.kt:103-106 | a larger dp value never gives fewer pixels |
| ItemOffsets.SpanSize | app/src/main/java/uk/akane/accord/ui/fragments/browse/AlbumsFragment.kt:59-64 | the control row spans both columns and any other row one |
| ItemOffsets.SubmittedSpans | app/src/main/java/uk/akane/accord/ui/fragments/browse/AlbumsFragment.kt:59-64 | in a submitted album list only the first row spans both columns |
| ItemOffsets.AlbumOffsets | app/src/main/java/uk/akane/accord/ui/fragments/browse/AlbumsFragment.kt:76-101 | a detached view keeps its rectangle, the control row gets zero offsets, an album gets 12dp top and 4dp bottom and 22dp plus 8dp across its two sides |
| ItemOffsets.AlbumColumnsMirror | app/src/main/java/uk/akane/accord/ui/fragments/browse/AlbumsFragment.kt:92-96 | column 0 and column 1 mirror each other, the outer edge is not narrower than the inner one, and the gap between columns is twice the inner offset |
| ItemOffsets.ArtistOffsets | app/src/main/java/uk/akane/accord/ui/fragments/browse/ArtistsFragment.kt:74-85 | a detached view keeps its rectangle; any other gets 24dp on the left and 0 on the right, top and bottom untouched |
| PlaylistAdapter.CoverKey | app/src/main/java/uk/akane/accord/ui/adapters/browse/PlaylistAdapter.kt:191 | the cover key is "playlist_cover_" followed by the name, which can be read back from it |
| PlaylistAdapter.CoverKeyInjective | app/src/main/java/uk/akane/accord/ui/adapters/browse/PlaylistAdapter.kt:191 | two names with the same cover key are the same name |
| PlaylistAdapter.FavoriteSongs | app/src/main/java/uk/akane/accord/ui/adapters/browse/PlaylistAdapter.kt:117-119 | the Favorite playlist's songs if one exists, else exactly the heart-rated library songs in library order |
| PlaylistAdapter.StoredCover | app/src/main/java/uk/akane/accord/ui/adapters/browse/PlaylistAdapter.kt:138-142 | a cover is found iff the title is non-blank and its cover key is stored, and it is the stored value |
| PlaylistAdapter.RowTitle | app/src/main/java/uk/akane/accord/ui/adapters/browse/PlaylistAdapter.kt:143-148 | a stored playlist shows its title when non-blank and "(Untitled Playlist)" otherwise; a row title is never blank |
| PlaylistAdapter.ToRow | app/src/main/java/uk/akane/accord/ui/adapters/browse/PlaylistAdapter.kt:135-177 | the row's favourite and recently-added flags follow the playlist's kind |
| PlaylistAdapter.MapRows | app/src/main/java/uk/akane/accord/ui/adapters/browse/PlaylistAdapter.kt:135 | one row per playlist, position for position |
| PlaylistAdapter.BasePlaylists | app/src/main/java/uk/akane/accord/ui/adapters/browse/PlaylistAdapter.kt:133 | exactly the playlists that are neither Favorite nor RecentlyAdded, in library order |
| PlaylistAdapter.SubmitPlaylists | app/src/main/java/uk/akane/accord/ui/adapters/browse/PlaylistAdapter.kt:113-182 | the list starts with the favourites row and no later row is a favourites or recently-added row |
| PlaylistAdapter.StoredRowsAreRegular | app/src/main/java/uk/akane/accord/ui/adapters/browse/PlaylistAdapter.kt:179 | the regular-row filter keeps every row of a stored playlist |
| PlaylistAdapter.RegularRowsFollowLibrary | app/src/main/java/uk/akane/accord/ui/adapters/browse/PlaylistAdapter.kt:133-180 | the rows are the favourites row followed by one row per stored playlist in library order |
| PlaylistAdapter.StoredRowShape | app/src/main/java/uk/akane/accord/ui/adapters/browse/PlaylistAdapter.kt:149-175 | key "id:<id>" or "title:<title>"; the placeholder icon iff no songs and no stored cover; artwork is the stored cover, else the first song's artwork, and none with the icon |
| PlaylistAdapter.StoredKey | app/src/main/java/uk/akane/accord/ui/adapters/browse/PlaylistAdapter.kt:193-205 | a stored playlist's key is "id:" with the id's digits, or "title:" with the display title |
| PlaylistAdapter.RowAt | app/src/main/java/uk/akane/accord/ui/adapters/browse/PlaylistAdapter.kt:179-180 | row i (from 1) is the row of the (i-1)-th stored playlist |
| PlaylistAdapter.FavoriteKeyUnique | app/src/main/java/uk/akane/accord/ui/adapters/browse/PlaylistAdapter.kt:121-131 | no regular row has the key "favorite", so the diff never confuses a row with the favourites row |
| PlaylistAdapter.RegularKeysDistinct | app/src/main/java/uk/akane/accord/ui/adapters/browse/PlaylistAdapter.kt:214-216 | regular rows are different diff items when ids are distinct and id-less playlists have distinct display titles |
| PlaylistAdapter.UntitledRowsShareKey | app/src/main/java/uk/akane/accord/ui/adapters/browse/PlaylistAdapter.kt:199-204 | two untitled id-less playlists get the same key and so count as the same diff item |
| PlaylistDetail.SongKey | app/src/main/java/uk/akane/accord/ui/fragments/browse/PlaylistDetailFragment.kt:407-411 | the key is the media id when it is not blank, else the local URI, else a decimal text that reads back as the hash code |
| PlaylistDetail.Keys | app/src/main/java/uk/akane/accord/ui/fragments/browse/PlaylistDetailFragment.kt:189 | the key set holds the key of every listed song and nothing else |
| PlaylistDetail.KeysAppend | app/src/main/java/uk/akane/accord/ui/fragments/browse/PlaylistDetailFragment.kt:417-419 | appending a song adds exactly its key to the key set |
| PlaylistDetail.KeysConcat | app/src/main/java/uk/akane/accord/ui/fragments/browse/PlaylistDetailFragment.kt:413-423 | the keys of a concatenation are the union of the keys of its parts |
| PlaylistDetail.ParseMediaStoreId | app/src/main/java/uk/akane/accord/ui/fragments/browse/PlaylistDetailFragment.kt:375-382 | a number comes back exactly when the id starts with "MediaStore:" and the rest is signed decimal text of a Long, and it is the number that text denotes; any other id gives null |
| PlaylistDetail.MediaStoreIdRoundTrip | app/src/main/java/uk/akane/accord/ui/fragments/browse/PlaylistDetailFragment.kt:375-382 | "MediaStore:" followed by the decimal text of a Long parses back to that Long |
| PlaylistDetail.TailAppend | app/src/main/java/uk/akane/accord/ui/fragments/browse/PlaylistDetailFragment.kt:417-420 | appending a song with a fresh key keeps the appended part an in-order, key-distinct subsequence of the songs seen, disjoint from the library list |
| PlaylistDetail.TailSkip | app/src/main/java/uk/akane/accord/ui/fragments/browse/PlaylistDetailFragment.kt:417-420 | skipping a song keeps that invariant |
| PlaylistDetail.MergePlaylistSongs | app/src/main/java/uk/akane/accord/ui/fragments/browse/PlaylistDetailFragment.kt:413-423 | the library list is an exact prefix; after it come only old playlist songs whose key is new, in their old order, each key once and each the first old song with its key; the key set is the union of both lists' keys |
| PlaylistDetail.MergeAppendStep | app/src/main/java/uk/akane/accord/ui/fragments/browse/PlaylistDetailFragment.kt:416-420 | appending an old song with a new key keeps the tail well formed and adds exactly its key to the merged key set |
| PlaylistDetail.MergeSkipStep | app/src/main/java/uk/akane/accord/ui/fragments/browse/PlaylistDetailFragment.kt:416-420 | skipping an old song whose key is already merged keeps the tail and the merged key set unchanged |
| PlaylistDetail.MergeStep | app/src/main/java/uk/akane/accord/ui/fragments/browse/PlaylistDetailFragment.kt:416-420 | one turn of the merge loop appends an old song exactly when its key is new, keeping the tail well formed, the merged keys exact and every kept song the first of its key |
| PlaylistDetail.Candidates | app/src/main/java/uk/akane/accord/ui/fragments/browse/PlaylistDetailFragment.kt:211-214 | a song is a candidate iff it is in the library and its key is not in the playlist |
| PlaylistDetail.TakeIsSubMultiset | app/src/main/java/uk/akane/accord/ui/fragments/browse/PlaylistDetailFragment.kt:218 | taking a prefix takes no element more often than the list has it |
| PlaylistDetail.RefreshSuggestions | app/src/main/java/uk/akane/accord/ui/fragments/browse/PlaylistDetailFragment.kt:203-223 | unforced, unflagged and non-empty: no change; otherwise min(5, #candidates) suggestions drawn from the candidates, none in the playlist, empty for an empty library, and the flag cleared |
| PlaylistDetail.ApplyPlaylistSongs | app/src/main/java/uk/akane/accord/ui/fragments/browse/PlaylistDetailFragment.kt:182-201 | the new songs are a prefix of the playlist, its keys are the union of new and old keys, no suggestion shares a key with the playlist, and the refresh flag ends cleared |
| PlaylistDetail.AppendIfNew | app/src/main/java/uk/akane/accord/ui/fragments/browse/PlaylistDetailFragment.kt:343-345 | a song whose key is present leaves the playlist unchanged; otherwise it is appended once; either way its key is in the result |
| PlaylistDetail.PickReplacement | app/src/main/java/uk/akane/accord/ui/fragments/browse/PlaylistDetailFragment.kt:357-364 | nothing is picked iff every library song's key is excluded; a pick is a library song with a non-excluded key |
| PlaylistDetail.UpdateAfterSuggestionAdded | app/src/main/java/uk/akane/accord/ui/fragments/browse/PlaylistDetailFragment.kt:342-373 | the song is appended unless its key is present; it leaves the suggestions, which keep their other entries in order and gain at most one replacement, only below five, from the library and in neither list; disjointness is preserved |
| PlaylistDetail.TopUp | app/src/main/java/uk/akane/accord/ui/fragments/browse/PlaylistDetailFragment.kt:358-369 | below five suggestions and with a non-empty library, one library song whose key is in neither list is appended, and none exactly when there are five or more or every library key is taken; the kept suggestions stay a prefix |
| PlaylistDetail.TopUpDisjoint | app/src/main/java/uk/akane/accord/ui/fragments/browse/PlaylistDetailFragment.kt:354-369 | after the added song joins the playlist, the kept suggestions and the replacement all avoid the playlist keys |
| PlaylistDetail.AddSuggestedRoute | app/src/main/java/uk/akane/accord/ui/fragments/browse/PlaylistDetailFragment.kt:225-247 | a song already in the playlist does nothing; favourites targets go through favourites; otherwise the write goes to the chosen id (`TargetId`) and to the page's own path, else the looked-up one when an id was chosen; nothing is written exactly when there is neither an id nor an own path |
| PlaylistDetail.TargetId | app/src/main/java/uk/akane/accord/ui/fragments/browse/PlaylistDetailFragment.kt:233-235 | the page's own playlist id when it has one, else the id the page was opened with; a negative id, NO_ID included, is no id |
| PlaylistDetail.OwnPathSkipsLookup | app/src/main/java/uk/akane/accord/ui/fragments/browse/PlaylistDetailFragment.kt:236 | when the page's playlist has a path, the MediaStore lookup cannot change the route |
| PlaylistDetail.OwnIdWins | app/src/main/java/uk/akane/accord/ui/fragments/browse/PlaylistDetailFragment.kt:234 | when the page's playlist has an id, the id the page was opened with cannot change the route |
| PlaylistDetail.RegularPageWritesToItself | app/src/main/java/uk/akane/accord/ui/fragments/browse/PlaylistDetailFragment.kt:225-247 | a new song on a regular page whose playlist has an id and a path is written through exactly that id and path |
| PlaylistDetail.SongWriteRoute | app/src/main/java/uk/akane/accord/ui/fragments/browse/PlaylistDetailFragment.kt:267-298 | an existing private file takes a MediaStore entry, another existing file takes the song file, no file takes a member row by id; the write is refused exactly when the needed id or file is missing |
| PlaylistDetail.AddToPrivatePlaylist | app/src/main/java/uk/akane/accord/ui/fragments/browse/PlaylistDetailFragment.kt:300-308 | the entry is present afterwards, the old entries are a prefix, an entry already present is not written again, and no other entry's count changes |
| PlaylistDetail.AddToPrivatePlaylistIdempotent | app/src/main/java/uk/akane/accord/ui/fragments/browse/PlaylistDetailFragment.kt:300-308 | adding the same id twice equals adding it once |
| PlaylistDetail.AddToPrivatePlaylistNoDuplicates | app/src/main/java/uk/akane/accord/ui/fragments/browse/PlaylistDetailFragment.kt:300-308 | a file without repeated entries keeps that property |
| PlaylistDetail.PrivateEntriesDistinct | app/src/main/java/uk/akane/accord/ui/fragments/browse/PlaylistDetailFragment.kt:303 | different ids give different entries, so the membership test cannot confuse two songs |
| PlaylistDetail.NextPlayOrder | app/src/main/java/uk/akane/accord/ui/fragments/browse/PlaylistDetailFragment.kt:384-405 | one past the largest play order, wrapping to Int.MIN_VALUE past Int.MAX_VALUE, or the fallback without rows |
| PlaylistDetail.NewInstance | app/src/main/java/uk/akane/accord/ui/fragments/browse/PlaylistDetailFragment.kt:584-592 | a missing id is stored as -1; title and count are stored as given |
| PlaylistDetail.ResolvePlaylist | app/src/main/java/uk/akane/accord/ui/fragments/browse/PlaylistDetailFragment.kt:156-165 | null iff no playlist matches by id (id given), by title (no id) or as the Favorite playlist in favourites mode; otherwise a matching playlist of the list |
| PlaylistDetail.HeaderTitle | app/src/main/java/uk/akane/accord/ui/fragments/browse/PlaylistDetailFragment.kt:167-171 | the playlist's own title when it is not blank, else the title argument |
| PlaylistDetail.FavoriteRowOpensFavorites | app/src/main/java/uk/akane/accord/ui/fragments/browse/PlaylistDetailFragment.kt:156-159 | the favourites row, with no Favorite playlist id, opens the page in favourites mode |
| PlaylistDetail.FavoriteRowResolves | app/src/main/java/uk/akane/accord/ui/fragments/browse/PlaylistDetailFragment.kt:156-165 | with a Favorite playlist in the library, the favourites row always resolves to a playlist |
| PlaylistDetail.UntitledRowDoesNotResolve | app/src/main/java/uk/akane/accord/ui/fragments/browse/PlaylistDetailFragment.kt:156-165 | as written, the row of an untitled playlist without an id resolves to nothing |
| PlaylistDetail.ResolvePlaylistDisplayed | app/src/main/java/uk/akane/accord/ui/fragments/browse/PlaylistDetailFragment.kt:156-165 | the corrected lookup: null iff no playlist matches, where an id-less request also matches a stored playlist by its displayed title |
| PlaylistDetail.RegularRowResolves | app/src/main/java/uk/akane/accord/ui/fragments/browse/PlaylistDetailFragment.kt:156-165 | with the corrected lookup every regular row opens a playlist, the one with its id when it has one |
| AddPlaylist.CoverKey | app/src/main/java/uk/akane/accord/ui/fragments/browse/AddPlaylistFragment.kt:154 | this screen's cover key is "playlist_cover_" followed by the name, readable back from it |
| AddPlaylist.CoverKeysAgree | app/src/main/java/uk/akane/accord/ui/fragments/browse/AddPlaylistFragment.kt:154-159 | the writer uses the same preferences file and the same key for every name as the playlist list reads |
| AddPlaylist.Open | app/src/main/java/uk/akane/accord/ui/fragments/browse/AddPlaylistFragment.kt:67 | the sheet opens with create disabled and nothing being created |
| AddPlaylist.Step | app/src/main/java/uk/akane/accord/ui/fragments/browse/AddPlaylistFragment.kt:40-146 | typing enables create iff the text is not blank; a dismissed picker changes nothing; a disabled click does nothing; a click creates under the trimmed, non-empty name and disables the button; a failure re-enables it; a success stores the chosen cover under the name's cover key |
| AddPlaylist.StepKeepsValid | app/src/main/java/uk/akane/accord/ui/fragments/browse/AddPlaylistFragment.kt:79-81 | every event keeps "enabled only with a non-blank title", unless a creation fails after the title was blanked |
| AddPlaylist.ClearedTitleThenFailure | app/src/main/java/uk/akane/accord/ui/fragments/browse/AddPlaylistFragment.kt:114-127 | a failure after the title was cleared leaves the button enabled for a blank title, and clicking it then creates nothing |
| AddPlaylist.EnabledClickCreates | app/src/main/java/uk/akane/accord/ui/fragments/browse/AddPlaylistFragment.kt:74-77 | in a valid sheet an enabled click always starts a creation under a non-empty trimmed name |
| AddPlaylist.CreatedCoverIsFound | app/src/main/java/uk/akane/accord/ui/fragments/browse/AddPlaylistFragment.kt:136-139 | after a successful creation the playlist list finds the chosen cover for a playlist with the created title |
| PopupHelper.HeightOf | app/src/main/java/uk/akane/accord/ui/components/PopupHelper.kt:441-451 | a spacer is 10 high and a menu entry 48 |
| PopupHelper.Stack | app/src/main/java/uk/akane/accord/ui/components/PopupHelper.kt:34-35 | a column of entries is between 10 and 48 times its length high |
| PopupHelper.StackAppend | app/src/main/java/uk/akane/accord/ui/components/PopupHelper.kt:34-35 | the height of two columns put together is the sum of their heights |
| PopupHelper.PopupHeight | app/src/main/java/uk/akane/accord/ui/components/PopupHelper.kt:34-35 | the popup is 0 high without entries, and 0 high with entries iff the list is empty; otherwise between 10 and 48 per entry |
| PopupHelper.AddMenuEntry | app/src/main/java/uk/akane/accord/ui/components/PopupHelper.kt:413-421 | the builder appends one plain menu entry, adding 48 to the height |
| PopupHelper.AddDestructiveMenuEntry | app/src/main/java/uk/akane/accord/ui/components/PopupHelper.kt:423-432 | the builder appends one destructive menu entry, adding 48 to the height |
| PopupHelper.AddSpacer | app/src/main/java/uk/akane/accord/ui/components/PopupHelper.kt:434-437 | the builder appends one spacer, adding 10 to the height |
| PopupHelper.EntryTop | app/src/main/java/uk/akane/accord/ui/components/PopupHelper.kt:310-321 | each entry's top lies between the popup's top and its bottom |
| PopupHelper.EntriesTile | app/src/main/java/uk/akane/accord/ui/components/PopupHelper.kt:310-321 | each entry starts where the one before it ends |
| PopupHelper.ColumnEnds | app/src/main/java/uk/akane/accord/ui/components/PopupHelper.kt:310-321 | the first entry starts at the popup's top and the column ends at its bottom |
| PopupHelper.EntriesDoNotOverlap | app/src/main/java/uk/akane/accord/ui/components/PopupHelper.kt:310-321 | an earlier entry ends at or before a later one starts |
| PopupHelper.SeparatorsBetweenMenuEntries | app/src/main/java/uk/akane/accord/ui/components/PopupHelper.kt:366-368 | a separator is drawn below an entry iff it and the next entry are both menu entries |
| PopupHelper.RenderBox | app/src/main/java/uk/akane/accord/ui/components/PopupHelper.kt:164-181 | the popup is 270 wide to the left of its anchor and exactly as high as its entries, hanging down from the anchor or standing up on it |
| PopupHelper.CallUpPopup | app/src/main/java/uk/akane/accord/ui/components/PopupHelper.kt:120-196 | mid-animation a call only runs the dismiss action it was given; otherwise an open anchors the popup beside the touch and keeps the background, a retract drops it and runs the stored dismiss action, given entries and actions replace the stored ones, and the fraction animates toward 1 or 0 |
| PopupHelper.OpenThenRetractDismissesOnce | app/src/main/java/uk/akane/accord/ui/components/PopupHelper.kt:120-196 | a popup opened with a dismiss action and then retracted with none runs that action exactly once, on the retract |
| PopupHelper.CallUpDrawing | app/src/main/java/uk/akane/accord/ui/components/PopupHelper.kt:109-196 | a call-up mid-animation leaves the popup drawn and unchanged; any other call leaves it drawn iff it was fully open, and once its animation ends the popup is drawn after an open and not drawn after a retract |
| PopupHelper.CornersAreInside | app/src/main/java/uk/akane/accord/ui/components/PopupHelper.kt:105-107 | the popup's corners count as inside it |
| QueuePreview.Swap | app/src/main/java/uk/akane/accord/ui/adapters/QueuePreviewAdapter.kt:104 | the two positions trade entries, every other position keeps its entry, and the list is a permutation of the old one |
| QueuePreview.SwapTwice | app/src/main/java/uk/akane/accord/ui/adapters/QueuePreviewAdapter.kt:104 | swapping the same two positions twice, in either order, restores the list |
| QueuePreview.OnItemMove | app/src/main/java/uk/akane/accord/ui/adapters/QueuePreviewAdapter.kt:100-108 | a move with NO_POSITION on either side is refused and changes nothing; otherwise the two entries trade places, nothing else moves, and the move is reported to the listener |
| QueuePreview.MoveBackRestores | app/src/main/java/uk/akane/accord/ui/adapters/QueuePreviewAdapter.kt:100-108 | dragging an entry back to where it came from restores the list |
| QueuePreview.UpdateItems | app/src/main/java/uk/akane/accord/ui/adapters/QueuePreviewAdapter.kt:39-55 | an update during a drag is dropped; otherwise the list is left as it is and the new items replace the job in flight |
| QueuePreview.Land | app/src/main/java/uk/akane/accord/ui/adapters/QueuePreviewAdapter.kt:47-52 | a landing job replaces the list with its new items whatever the drag state; with no job in flight nothing changes |
| QueuePreview.UpdateThenLand | app/src/main/java/uk/akane/accord/ui/adapters/QueuePreviewAdapter.kt:39-55 | outside a drag an update that lands leaves exactly its items, and of two updates only the later one lands |
| QueuePreview.OnDragStart | app/src/main/java/uk/akane/accord/ui/adapters/QueuePreviewAdapter.kt:57-59 | a drag start sets the dragging flag and keeps the list |
| QueuePreview.OnDragEnd | app/src/main/java/uk/akane/accord/ui/adapters/QueuePreviewAdapter.kt:61-63 | a drag end clears the dragging flag and keeps the list |
| QueuePreview.OnSelectedChanged | app/src/main/java/uk/akane/accord/ui/adapters/QueuePreviewAdapter.kt:146-170 | selecting for a drag sets the dragging flag; any other state leaves the adapter alone |
| QueuePreview.ClearView | app/src/main/java/uk/akane/accord/ui/adapters/QueuePreviewAdapter.kt:172-175 | releasing a row ends the drag and keeps the list |
| QueuePreview.UpdatesDuringDragDropped | app/src/main/java/uk/akane/accord/ui/adapters/QueuePreviewAdapter.kt:39-63 | a drag that starts with no diff job in flight keeps its list and state through any updates, landings and selections until the row is released |
| QueuePreview.UpdateLandsDuringDrag | app/src/main/java/uk/akane/accord/ui/adapters/QueuePreviewAdapter.kt:39-59 | an update asked for just before a drag starts still replaces the list while the row is held |
| QueuePreview.UpdateAfterDragApplies | app/src/main/java/uk/akane/accord/ui/adapters/QueuePreviewAdapter.kt:39-175 | an update dropped during a drag is applied when sent again after the row is released and its job lands |
| QueuePreview.MakeMovementFlags | app/src/main/java/uk/akane/accord/ui/adapters/QueuePreviewAdapter.kt:133 | the drag flags sit in the third byte, the swipe flags in the second, and both in the low byte |
| QueuePreview.MovementFlags | app/src/main/java/uk/akane/accord/ui/adapters/QueuePreviewAdapter.kt:128-134 | rows drag up and down and never swipe |
| QueuePreview.AreItemsTheSame | app/src/main/java/uk/akane/accord/ui/adapters/QueuePreviewAdapter.kt:197-199 | two entries are the same item iff their uids are equal |
| QueuePreview.AreContentsTheSame | app/src/main/java/uk/akane/accord/ui/adapters/QueuePreviewAdapter.kt:201-207 | two entries have the same contents iff title, artist and artwork are all equal |
| QueuePreview.ContentsIgnoreOtherFields | app/src/main/java/uk/akane/accord/ui/adapters/QueuePreviewAdapter.kt:197-207 | an entry with a new uid and equal title, artist and artwork has the same contents, and is the same item iff its uid is unchanged |
| QueuePreview.RowTexts | app/src/main/java/uk/akane/accord/ui/adapters/QueuePreviewAdapter.kt:71-74 | the row shows the title and artist, or "Unknown" and "Unknown Artist" when they are missing |
| FullPlayer.NextRepeatMode | app/src/main/java/uk/akane/accord/ui/components/player/FullPlayer.kt:343-351 | the repeat button cycles off, all, one, back to off, and an unknown mode goes to off |
| FullPlayer.RepeatCycle | app/src/main/java/uk/akane/accord/ui/components/player/FullPlayer.kt:345-350 | from any known mode three presses come back to it, and one or two presses never do |
| FullPlayer.UnknownModeJoinsCycle | app/src/main/java/uk/akane/accord/ui/components/player/FullPlayer.kt:349 | from an unknown mode four presses land on off |
| FullPlayer.ShowRepeatMode | app/src/main/java/uk/akane/accord/ui/components/player/FullPlayer.kt:466-474 | the button is checked iff repeat is not off, and shows the repeat-one icon iff the mode is one |
| FullPlayer.RepeatButtonDistinguishesModes | app/src/main/java/uk/akane/accord/ui/components/player/FullPlayer.kt:466-474 | two known modes that look the same on the button are the same mode |
| FullPlayer.ResolveDurationMs | app/src/main/java/uk/akane/accord/ui/components/player/FullPlayer.kt:476-482 | the content duration wins unless it is unset; otherwise the item's tagged duration when it is positive, else none; the result is never the unset marker |
| FullPlayer.ProgressTexts | app/src/main/java/uk/akane/accord/ui/components/player/FullPlayer.kt:538-546 | with the duration taken as at least 1 ms, elapsed and remaining add up to it; a position inside it is shown as is, one at or below 0 as 0 with everything remaining, and one at or past its end as the whole duration with nothing remaining |
| FullPlayer.UpdateProgressDisplay | app/src/main/java/uk/akane/accord/ui/components/player/FullPlayer.kt:548-570 | with no duration or an empty queue the placeholder shows and the slider rests at 0 of 1; while scrubbing nothing changes; otherwise slider and texts show the same clamped position |
| FullPlayer.ScrubSeek | app/src/main/java/uk/akane/accord/ui/components/player/FullPlayer.kt:300-306 | without a duration nothing is sought; a negative duration makes the clamp throw; otherwise the seek lands within the duration, at the truncated slider value when that is in range |
| FullPlayer.StartPositionUpdates | app/src/main/java/uk/akane/accord/ui/components/player/FullPlayer.kt:572-577 | starting a running loop changes nothing; starting a stopped one runs it with exactly one refresh queued |
| FullPlayer.StopPositionUpdates | app/src/main/java/uk/akane/accord/ui/components/player/FullPlayer.kt:579-582 | stopping leaves the loop stopped with nothing queued |
| FullPlayer.Tick | app/src/main/java/uk/akane/accord/ui/components/player/FullPlayer.kt:146-153 | a refresh re-queues itself iff the loop is still running |
| FullPlayer.StartIdempotent | app/src/main/java/uk/akane/accord/ui/components/player/FullPlayer.kt:572-574 | starting twice is starting once |
| FullPlayer.OnStartTracking | app/src/main/java/uk/akane/accord/ui/components/player/FullPlayer.kt:289-292 | grabbing the progress slider marks a scrub and stops the loop with nothing queued |
| FullPlayer.OnStopTracking | app/src/main/java/uk/akane/accord/ui/components/player/FullPlayer.kt:300-312 | letting go ends the scrub, and restarts the loop iff the player is playing |
| FullPlayer.TickerStaysSingle | app/src/main/java/uk/akane/accord/ui/components/player/FullPlayer.kt:146-582 | however starts, stops, refreshes, redraws and scrubs interleave, at most one refresh is ever queued, and none while stopped |
| FullPlayer.ScrubbingSilencesRefresh | app/src/main/java/uk/akane/accord/ui/components/player/FullPlayer.kt:289-582 | from the start of a scrub until it is let go, absent a playback-state start, no refresh is queued |
| FullPlayer.StartDuringScrubQueues | app/src/main/java/uk/akane/accord/ui/components/player/FullPlayer.kt:867-876 | playback starting while the user holds the slider queues a refresh mid-scrub |
| FullPlayer.ScrubbingFreezesSlider | app/src/main/java/uk/akane/accord/ui/components/player/FullPlayer.kt:548-561 | from the start of a scrub until it is let go, whatever starts, stops, refreshes and redraws happen, the scrub flag stays set and the view is either unchanged or the placeholder reset; while the player has media it is unchanged |
| FullPlayer.ResolveMaxDeviceVolume | app/src/main/java/uk/akane/accord/ui/components/player/FullPlayer.kt:484-489 | a positive cached maximum is kept; otherwise the system's answer is used |
| FullPlayer.SetDeviceVolume | app/src/main/java/uk/akane/accord/ui/components/player/FullPlayer.kt:511-521 | nothing is set without a positive maximum; otherwise the volume is clamped into [0, max], unchanged when already there |
| FullPlayer.VolumeSliderTarget | app/src/main/java/uk/akane/accord/ui/components/player/FullPlayer.kt:500-509 | while the user drags the volume slider it is not moved; otherwise it targets the same clamped volume as setting it would |
| FullPlayer.VolumeClampIdempotent | app/src/main/java/uk/akane/accord/ui/components/player/FullPlayer.kt:500-521 | a clamped volume clamps to itself, and the slider shows exactly the volume that was set |
| FloatingPanel.StatusOf | app/src/main/java/uk/akane/accord/ui/components/player/FloatingPanelLayout.kt:506-519 | a fraction of 1 is expanded, 0 is collapsed, anything else is sliding, each iff |
| FloatingPanel.Initial | app/src/main/java/uk/akane/accord/ui/components/player/FloatingPanelLayout.kt:60-104 | the panel starts collapsed at fraction 0, its status matching its fraction |
| FloatingPanel.TriggerSlide | app/src/main/java/uk/akane/accord/ui/components/player/FloatingPanelLayout.kt:502-524 | every call reports the progress first, and the status change is reported second iff the status moved |
| FloatingPanel.TriggerSlideSettles | app/src/main/java/uk/akane/accord/ui/components/player/FloatingPanelLayout.kt:502-524 | reporting the same progress twice reports no status change the second time |
| FloatingPanel.UpdateTransform | app/src/main/java/uk/akane/accord/ui/components/player/FloatingPanelLayout.kt:255-307 | the same fraction strictly between 0 and 1 is skipped silently; any other fraction moves the panel and is reported; the status keeps matching the fraction |
| FloatingPanel.StatusChangesAlternate | app/src/main/java/uk/akane/accord/ui/components/player/FloatingPanelLayout.kt:518-520 | a status listener never hears the same status twice in a row |
| FloatingPanel.DragDelta | app/src/main/java/uk/akane/accord/ui/components/player/FloatingPanelLayout.kt:440 | the fraction changes by the finger's movement over the track length, against the direction of travel |
| FloatingPanel.OnScroll | app/src/main/java/uk/akane/accord/ui/components/player/FloatingPanelLayout.kt:429-451 | a drag step marks a drag and stops any animation; a step that would leave [0, 1], or one on a zero-length track, is dropped; otherwise the fraction moves by the step and the finger's last two positions shift |
| FloatingPanel.DragKeepsRange | app/src/main/java/uk/akane/accord/ui/components/player/FloatingPanelLayout.kt:429-451 | however the finger moves, the fraction stays in [0, 1] and the status keeps matching it |
| FloatingPanel.FlingDuration | app/src/main/java/uk/akane/accord/ui/components/player/FloatingPanelLayout.kt:398-402 | the fling lasts between 220 and 320 ms, the travel time itself when that is in range, and 220 ms when the travel time is Long.MIN_VALUE |
| FloatingPanel.OnFling | app/src/main/java/uk/akane/accord/ui/components/player/FloatingPanelLayout.kt:389-424 | a fling ends the drag; only a sliding panel is animated, to expanded iff the finger last moved up, for 220 to 320 ms |
| FloatingPanel.OnSingleTapUp | app/src/main/java/uk/akane/accord/ui/components/player/FloatingPanelLayout.kt:455-476 | a tap opens a collapsed panel over the settle duration and leaves any other panel alone |
| FloatingPanel.OnUp | app/src/main/java/uk/akane/accord/ui/components/player/FloatingPanelLayout.kt:478-500 | a release ends the drag; a panel that was being dragged settles toward the finger's last direction |
| FloatingPanel.AnimationsEndAtRest | app/src/main/java/uk/akane/accord/ui/components/player/FloatingPanelLayout.kt:389-500 | every animation a gesture starts ends fully collapsed or fully expanded, and a tap always expands |
| FloatingPanel.RouteTouch | app/src/main/java/uk/akane/accord/ui/components/player/FloatingPanelLayout.kt:331-362 | with the popup open a touch outside it dismisses it; a popup in motion swallows touches; otherwise the panel handles a touch iff it lands in its bounds or a drag is in progress |
| FloatingPanel.InterceptTouch | app/src/main/java/uk/akane/accord/ui/components/player/FloatingPanelLayout.kt:326-328 | the panel takes touches from its children iff the popup is fully open |
| FloatingPanel.OpenPopupOwnsTouches | app/src/main/java/uk/akane/accord/ui/components/player/FloatingPanelLayout.kt:326-348 | with the popup fully open, no touch reaches the panel's children or its gestures |
| NavigationBar.MeasuredHeight | app/src/main/java/uk/akane/accord/ui/components/NavigationBar.kt:158-162 | an exact spec gives the offered height, at-most gives the smaller of offered and desired, unspecified gives the desired height |
| NavigationBar.OnLayout | app/src/main/java/uk/akane/accord/ui/components/NavigationBar.kt:547-565 | nothing is laid out unless there is exactly one child; that child spans the width inside padding and margins, starts below the header (top padding, expanded title area and the collapsed child's top padding) plus its top margin, and keeps its measured height |
| NavigationBar.Unit | app/src/main/java/uk/akane/accord/ui/components/NavigationBar.kt:447 | clamping to [0, 1] lands in [0, 1] and leaves values already there unchanged |
| NavigationBar.OnScrolled | app/src/main/java/uk/akane/accord/ui/components/NavigationBar.kt:435-469 | the offset adds the step and stops at 0, the bar moves up with it but no further than the collapsible height, the collapse progress is recomputed only when the bar moves (0 when there is no collapsible height), and a clamped state stays clamped |
| NavigationBar.TranslationBounded | app/src/main/java/uk/akane/accord/ui/components/NavigationBar.kt:442-443 | the bar's translation stays between minus the collapsible height and 0 |
| NavigationBar.ScrollKeepsClamped | app/src/main/java/uk/akane/accord/ui/components/NavigationBar.kt:440-458 | over any sequence of scroll steps the offset stays non-negative and both progresses stay in [0, 1] |
| NavigationBar.ReturnButtonBounds | app/src/main/java/uk/akane/accord/ui/components/NavigationBar.kt:485-506 | each edge is the chevron or text edge moved out by the hit padding, and is clamped to 0 on the left and top and to the bar's width and height on the right and bottom exactly when it would cross them |
| NavigationBar.HitsLieOnBar | app/src/main/java/uk/akane/accord/ui/components/NavigationBar.kt:499-504 | every point that hits the return button lies inside the bar |
| NavigationBar.OnTouchEvent | app/src/main/java/uk/akane/accord/ui/components/NavigationBar.kt:519-540 | without a return button touches get default handling; a DOWN presses iff inside, an UP always releases and clicks iff it was pressed and is still inside, a CANCEL releases |
| NavigationBar.OnInterceptTouchEvent | app/src/main/java/uk/akane/accord/ui/components/NavigationBar.kt:508-517 | only a DOWN on a drawn return button is taken from the child, and it presses the button |
| NavigationBar.ClicksNeedPresses | app/src/main/java/uk/akane/accord/ui/components/NavigationBar.kt:519-540 | over any gesture the number of clicks is at most the number of DOWNs that landed on the button, plus one if it started pressed |
| SearchFragment.Initial | app/src/main/java/uk/akane/accord/ui/fragments/SearchFragment.kt:43-46 | the page opens collapsed with the first tab selected |
| SearchFragment.EnterSearchMode | app/src/main/java/uk/akane/accord/ui/fragments/SearchFragment.kt:137-156 | entering an expanded page changes nothing; otherwise the page expands, remembers which indicator texts showed, keeps the selected tab, and the detail field takes the bar's query |
| SearchFragment.ExitSearchMode | app/src/main/java/uk/akane/accord/ui/fragments/SearchFragment.kt:214-229 | leaving a collapsed page changes nothing; otherwise the page collapses and the bar's field takes the detail field's query; the tab is kept |
| SearchFragment.TypeDetail | app/src/main/java/uk/akane/accord/ui/fragments/SearchFragment.kt:164 | typing replaces the detail query and leaves the expansion alone |
| SearchFragment.QueryRoundTrip | app/src/main/java/uk/akane/accord/ui/fragments/SearchFragment.kt:164-222 | opening and closing search gives back the bar's query, and what was typed in the detail field is in the bar's field after closing |
| SearchFragment.FocusThenBack | app/src/main/java/uk/akane/accord/ui/fragments/SearchFragment.kt:110-125 | focusing the bar's field leaves search open and losing focus never changes it; the next back press closes search rather than leaving the page, with the typed query in the bar's field, or the bar's own query when nothing was typed |
| SearchFragment.HandleBack | app/src/main/java/uk/akane/accord/ui/fragments/SearchFragment.kt:117-125 | back closes an open search and is consumed; on a collapsed page it is handed on and nothing changes |
| SearchFragment.SecondBackLeaves | app/src/main/java/uk/akane/accord/ui/fragments/SearchFragment.kt:117-125 | after back closes search, the next back is handed on |
| SearchFragment.SelectTab | app/src/main/java/uk/akane/accord/ui/fragments/SearchFragment.kt:310-315 | afterwards the chosen tab is selected; re-selecting the current tab changes nothing; the query and expansion are untouched |
| SearchFragment.TabHighlight | app/src/main/java/uk/akane/accord/ui/fragments/SearchFragment.kt:317-322 | exactly one of the two tab titles is highlighted, the selected one |
| SearchFragment.SelectedTabHighlighted | app/src/main/java/uk/akane/accord/ui/fragments/SearchFragment.kt:310-322 | after a selection, exactly the chosen tab is highlighted |
| SearchFragment.TabIndicator | app/src/main/java/uk/akane/accord/ui/fragments/SearchFragment.kt:324-350 | nothing happens at zero container width; otherwise the indicator is half the width inside the margins, at 0 for the first tab and flush right for the second |
| SearchFragment.IndicatorPositionsFit | app/src/main/java/uk/akane/accord/ui/fragments/SearchFragment.kt:331-341 | the two indicator positions do not overlap, and the second ends at the container's right margin |
| SearchFragment.MainPageViews | app/src/main/java/uk/akane/accord/ui/fragments/SearchFragment.kt:293-308 | the bar and the list come first, each indicator text is included iff it was showing, and no view appears twice |
| ListenableScroll.InterceptTouch | app/src/main/java/uk/akane/accord/ui/components/scroll/ListenableNestedScrollView.kt:62-81 | a DOWN remembers its y and emits NoAction; a MOVE emits Drag iff the y differs from the remembered one; UP and CANCEL emit NoAction; other actions emit nothing |
| ListenableScroll.OnFling | app/src/main/java/uk/akane/accord/ui/components/scroll/ListenableNestedScrollView.kt:83-86 | a fling emits Fling |
| ListenableScroll.Emit | app/src/main/java/uk/akane/accord/ui/components/scroll/ListenableNestedScrollView.kt:15-22 | the flow takes the new value, and the collector hears it only if it differs from the old one |
| ListenableScroll.Collect | app/src/main/java/uk/akane/accord/ui/components/scroll/ListenableNestedScrollView.kt:28-57 | Drag and Fling start an action only when none is under way; NoAction always ends the action and re-arms the start |
| ListenableScroll.WaitForScrollEnd | app/src/main/java/uk/akane/accord/ui/components/scroll/ListenableNestedScrollView.kt:43-50 | the polling stops at the first sample equal to the one before it, and reports none when no such sample exists |
| ListenableScroll.Offer | app/src/main/java/uk/akane/accord/ui/components/scroll/ListenableNestedScrollView.kt:20-22 | an emission sets the flow's value and yields at most one callback; no emission changes nothing |
| ListenableScroll.Step | app/src/main/java/uk/akane/accord/ui/components/scroll/ListenableNestedScrollView.kt:43-86 | one touch, fling or stopped fling yields at most one callback |
| ListenableScroll.StepTracks | app/src/main/java/uk/akane/accord/ui/components/scroll/ListenableNestedScrollView.kt:28-86 | one event keeps the collector's started flag in step with the flow's value, and never repeats a start |
| ListenableScroll.StartsNeverRepeat | app/src/main/java/uk/akane/accord/ui/components/scroll/ListenableNestedScrollView.kt:24-60 | over any run of events the start callback never fires twice without an end between them |
| ListenableScroll.StartCollecting | app/src/main/java/uk/akane/accord/ui/components/scroll/ListenableNestedScrollView.kt:15-57 | the collector first hears the flow's initial NoAction: it ends an action that never started and leaves the flag clear |
| ListenableScroll.TapNeverStarts | app/src/main/java/uk/akane/accord/ui/components/scroll/ListenableNestedScrollView.kt:62-81 | a touch that lands and lifts without moving never starts an action |
| FastScrollerScroll.ViewScrollState | app/src/main/java/uk/akane/accord/ui/components/scroll/FastScrollerNestedScrollView.kt:21-26 | Drag reads as Dragging, Fling as Settling, NoAction as Idle, each iff |
| FastScrollerScroll.ActionFor | app/src/main/java/uk/akane/accord/ui/components/scroll/FastScrollerNestedScrollView.kt:88-93 | Idle, Dragging and Settling map to NoAction, Drag and Fling, each iff |
| FastScrollerScroll.ScrollStateBijection | app/src/main/java/uk/akane/accord/ui/components/scroll/FastScrollerNestedScrollView.kt:21-93 | the two maps are mutually inverse |
| FastScrollerScroll.SetScrollState | app/src/main/java/uk/akane/accord/ui/components/scroll/FastScrollerNestedScrollView.kt:88-95 | afterwards the view reports the state that was set; setting the current state changes nothing and fires no callback |
| FastScrollerScroll.ScrollBy | app/src/main/java/uk/akane/accord/ui/components/scroll/FastScrollerNestedScrollView.kt:84-86 | scrolling stays within the scroll range and moves by exactly the step whenever that stays in range |
| FastScrollerScroll.NestedScrollBy | app/src/main/java/uk/akane/accord/ui/components/scroll/FastScrollerNestedScrollView.kt:84-86 | the fast scroller's drag leaves the position inside the scroll range on both axes, moved by exactly the drag on each axis where that stays in range |
| FastScrollerScroll.NestedScrollUndo | app/src/main/java/uk/akane/accord/ui/components/scroll/FastScrollerNestedScrollView.kt:84-86 | dragging back undoes a drag that stayed in range; a drag past the far edge is pinned there, so dragging back lands on 0 instead |
| FastScrollerScroll.OnLayout | app/src/main/java/uk/akane/accord/ui/components/scroll/FastScrollerNestedScrollView.kt:46-54 | after layout the scroller is hidden at once iff there is no room to scroll down, otherwise a hide is scheduled |
| FastScrollerScroll.OnCallback | app/src/main/java/uk/akane/accord/ui/components/scroll/FastScrollerNestedScrollView.kt:28-44 | an end hides the scroller; a start shows it iff the view can scroll further down and never hides it |
| FastScrollerScroll.ShownOnlyWithRoom | app/src/main/java/uk/akane/accord/ui/components/scroll/FastScrollerNestedScrollView.kt:28-54 | the scroller is shown only by a start on a view with room below, and layout never shows it |
| FastScrollerScroll.FirstRefusal | app/src/main/java/uk/akane/accord/ui/components/scroll/FastScrollerNestedScrollView.kt:62-77 | when the scroller takes a touch the answer is true and the base view is not consulted; otherwise the base view's answer is returned |
| FastScrollerScroll.InterceptTouchEvent | app/src/main/java/uk/akane/accord/ui/components/scroll/FastScrollerNestedScrollView.kt:62-68 | a touch the scroller takes leaves the base view's state alone; otherwise the base view's handling runs and its answer is returned |
| FastScrollerScroll.ScrollerGesturesLeaveActionAlone | app/src/main/java/uk/akane/accord/ui/components/scroll/FastScrollerNestedScrollView.kt:21-68 | while the fast scroller holds a gesture the reported scroll state does not change |
| Lyrics.LastReached | app/src/main/java/uk/akane/accord/ui/components/lyrics/LyricsViewModel.kt:166 | the result is the last index below the bound whose line is reached, or -1 exactly when no line there is reached |
| Lyrics.CurrentLyricsLineIndex | app/src/main/java/uk/akane/accord/ui/components/lyrics/LyricsViewModel.kt:164-168 | when some line is reached, the result is reached and no later line is; when none is (empty lyrics included) it is 0 |
| Lyrics.FindCurrentLine | app/src/main/java/uk/akane/accord/ui/components/lyrics/LyricsViewModel.kt:164-168 | a scan from the last line backwards finds the same line as the lookup |
| Lyrics.LastIsUnique | app/src/main/java/uk/akane/accord/ui/components/lyrics/LyricsViewModel.kt:166 | a reached index after which no line is reached is the one the lookup returns |
| Lyrics.CurrentIndexMonotone | app/src/main/java/uk/akane/accord/ui/components/lyrics/LyricsViewModel.kt:164-168 | a later position never moves the current line back, whatever order the timestamps are in |
| Lyrics.SampleTimestamps | app/src/main/java/uk/akane/accord/ui/components/lyrics/LyricsViewModel.kt:29-44 | the sample has twelve lines, line i at 5000 i ms |
| Lyrics.SampleCurrentLine | app/src/main/java/uk/akane/accord/ui/components/lyrics/LyricsViewModel.kt:29-168 | on the sample a negative position gives line 0; otherwise the line is the position's five-second slot, held at the last line |

## Left out

- Android I/O is outside the model. The parts left out are MediaStore queries and writes, SharedPreferences, playlist files, coroutines and dispatchers, Glide, toasts and haptics. Where a decision depends on their answer, that answer is a parameter. `PlaylistDetail.AddSuggestedRoute` takes the looked-up playlist path, `PlaylistDetail.SongWriteRoute` takes what the file system reports, preferences are a `map`, and a private playlist file is its list of entries.
- Randomness is not modelled. `shuffled(Random(System.currentTimeMillis()))` becomes an arbitrary permutation (`Playback.Shuffled`) or an arbitrary candidate (`PlaylistDetail.PickReplacement`), chosen with `:|`. The clock seed itself is left out.
- DiffUtil's difference algorithm, RecyclerView layout and all drawing are left out. Only the diff callbacks and the values that views are given are modelled.
- Animations are left out, except for their start fraction, target and duration. ValueAnimator timing, interpolators and per-frame transforms beyond the early-return guard of `updateTransform` are not modelled.
- Floating point is modelled with Dafny `real`, so `Float` rounding is left out. `Float.toInt()` and `toLong()` are modelled as truncation toward zero (`Numbers.Truncate`).
- Lengths in PopupHelper, NavigationBar, SearchFragment and FloatingPanelLayout are in dp, with one pixel per dp. Only the two local `dpToPx` item decorations take a density parameter (`ItemOffsets.DpToPx`).
- Numbers.ParseLong: reads only the ASCII digits `0`–`9`. Kotlin's `toLongOrNull` reads a digit with `Character.digit`, which also accepts the decimal digits of other scripts, so such text parses in Kotlin but gives null here.
- PlaylistDetail.ParseMediaStoreId: inherits that ASCII-only digit reading.
- QueuePreview.UpdateItems: the diff job is one pending list that lands in a single `Landed` step. A newer update cancels it at once, and the diff's snapshot of the old list is not modelled, since only the new items reach the list.
- QueuePreview.UpdatesDuringDragDropped: the event runs have no move case. Moves are stated on their own by `QueuePreview.OnItemMove` and `QueuePreview.MoveBackRestores`.
- FullPlayer.ScrubbingSilencesRefresh: holds only for runs without a `Start`. `onPlaybackStateChanged` starts the loop whenever the player is playing, scrub or not (`FullPlayer.StartDuringScrubQueues`), so a refresh can be queued mid-scrub. `FullPlayer.ScrubbingFreezesSlider` states what does hold for every run.
- FullPlayer.ScrubbingFreezesSlider: the progress view follows only what the refreshes and redraws write. The texts that `onValueChanged` writes while the user drags, and the slider's own movement under the finger, are not part of it.
- `onMeasure`'s width (`NavigationBar.kt:165-169`) is the offered width in every mode. It is a pass-through with nothing to state, so no member models it.
- QueuePreview.OnItemMove: requires both positions to be NO_POSITION or inside the queue. `Collections.swap` throws for any other position, and that exception is not modelled.
- Text.Lowercase: maps only `A`–`Z` to `a`–`z`, while Kotlin's `lowercase()` uses full Unicode case mapping.
- Text.Uppercase: maps only `a`–`z` to `A`–`Z`, while Kotlin's `uppercase()` uses full Unicode case mapping.
- Case-insensitive `contains` compares characters with the ASCII case mapping above. Non-ASCII letters that differ only in case therefore do not match, though Kotlin would match them.
- String order compares Dafny characters, which are Unicode scalar values. Kotlin compares UTF-16 code units, so the two orders agree only on text inside the Basic Multilingual Plane.
- `MediaItem.hashCode()` is taken as a given integer field of the record. How Media3 computes it is not part of this model.
- `formatAddDate` is modelled only up to the guard and the seconds-to-milliseconds conversion (`ArtistDetail.AddDateMillis`). The locale date text is left out.
- Several call sites in the snapshot do not match the signatures they call, for example `AlbumsFragment.kt:149` and `SongFragment.kt:62`. Each function is modelled as written, and the wiring between them is not.

## Findings

| source | as written | input that shows it | evidently intended | confidence | as-written member | corrected member |
|---|---|---|---|---|---|---|
| app/src/main/java/uk/akane/accord/ui/fragments/browse/PlaylistDetailFragment.kt:156-165 | With no id, `resolvePlaylist` matches a playlist only when the playlist's own `title` equals the title argument. The Playlists row for a stored playlist with no title displays, and passes on, "(Untitled Playlist)" (PlaylistAdapter.kt:143-148). | One stored playlist with no id and no title: its row opens the page with id -1 and title "(Untitled Playlist)", and no playlist matches. | Every row opens the playlist it shows, so an id-less request also matches a stored playlist by its displayed title. | not executed | PlaylistDetail.UntitledRowDoesNotResolve | PlaylistDetail.RegularRowResolves |

=== FILE: add_playlist.dfy ===
/**
 * The "new playlist" sheet: a title field, an optional cover, and a create
 * button that is enabled only for a non-blank title.
 */
module AddPlaylist {
  import opened Wrappers
  import opened Text
  import opened Media
  import PlaylistAdapter

  const PREFS_NAME: string := "playlist_covers"
  const COVER_KEY_PREFIX: string := "playlist_cover_"

  /** This screen's own `coverKey`. */
  function CoverKey(name: string): (k: string)
    ensures |k| == |COVER_KEY_PREFIX| + |name|
    ensures k[..|COVER_KEY_PREFIX|] == COVER_KEY_PREFIX && k[|COVER_KEY_PREFIX|..] == name
  {
    COVER_KEY_PREFIX + name
  }

  /** The writer and the reader of a cover agree on the preferences file and on every key. */
  lemma CoverKeysAgree(name: string)
    ensures PREFS_NAME == PlaylistAdapter.PREFS_NAME
    ensures CoverKey(name) == PlaylistAdapter.CoverKey(name)
  {
  }

  /** Where a creation is. */
  datatype Creation = Idle | Creating(name: string) | Done

  datatype Sheet = Sheet(
    text: string,
    createEnabled: bool,
    cover: Option<string>,
    creation: Creation,
    prefs: map<string, string>)

  datatype Event =
    | TextChanged(text: string)
    | CoverPicked(uri: Option<string>)
    | CreateClicked
    | CreationFinished(success: bool)

  /** The sheet as it opens: create disabled. */
  function Open(prefs: map<string, string>): (s: Sheet)
    ensures !s.createEnabled && s.creation == Idle
  {
    Sheet([], false, None, Idle, prefs)
  }

  /**
   * One event. A finished creation stores the chosen cover under the trimmed
   * name and closes the sheet; a failed one re-enables the button.
   */
  function Step(s: Sheet, e: Event): (t: Sheet)
    ensures e.TextChanged? ==> t.createEnabled == !IsBlank(e.text) && t.text == e.text
    ensures e.CoverPicked? && e.uri.None? ==> t == s
    ensures e.CreateClicked? && !s.createEnabled ==> t == s
    ensures e.CreateClicked? && s.createEnabled && !IsBlank(s.text) ==>
      !t.createEnabled && t.creation == Creating(Trim(s.text))
    ensures e.CreateClicked? && t != s ==> t.creation == Creating(Trim(s.text)) && Trim(s.text) != []
    ensures e.CreationFinished? && s.creation.Creating? && !e.success ==>
      t.createEnabled && t.prefs == s.prefs && t.creation == Idle
    ensures e.CreationFinished? && s.creation.Creating? && e.success ==>
      t.creation == Done
      && (s.cover.Some? ==> t.prefs == s.prefs[CoverKey(s.creation.name) := s.cover.value])
      && (s.cover.None? ==> t.prefs == s.prefs)
  {
    match e
    case TextChanged(text) => s.(text := text, createEnabled := !IsBlank(text))
    case CoverPicked(uri) => if uri.None? then s else s.(cover := uri)
    case CreateClicked =>
      if !s.createEnabled then s
      else
        var name := Trim(s.text);
        assert !IsBlank(s.text) ==> name != [] by { TrimEmptyIffBlank(s.text); }
        if name == [] then s
        else s.(createEnabled := false, creation := Creating(name))
    case CreationFinished(success) =>
      if !s.creation.Creating? then s
      else if !success then s.(createEnabled := true, creation := Idle)
      else
        var prefs := if s.cover.Some? then s.prefs[CoverKey(s.creation.name) := s.cover.value] else s.prefs;
        s.(prefs := prefs, creation := Done)
  }

  /** The button is enabled only for a non-blank title. */
  predicate Valid(s: Sheet) {
    s.createEnabled ==> !IsBlank(s.text)
  }

  /**
   * Every event keeps the button honest, except a failed creation: it
   * re-enables the button even if the title was cleared meanwhile, which is
   * what the empty-name guard in the click handler is there for.
   */
  lemma StepKeepsValid(s: Sheet, e: Event)
    requires Valid(s)
    requires e.CreationFinished? && !e.success && s.creation.Creating? ==> !IsBlank(s.text)
    ensures Valid(Step(s, e))
  {
  }

  /** A creation that fails after the title was cleared leaves an enabled button that creates nothing. */
  lemma ClearedTitleThenFailure(prefs: map<string, string>)
    ensures var s := Sheet([], false, None, Creating("a"), prefs);
      var t := Step(s, CreationFinished(false));
      t.createEnabled && !Valid(t) && Step(t, CreateClicked) == t
  {
  }

  /** In a valid sheet an enabled click always starts a creation: the empty-name guard is never reached. */
  lemma EnabledClickCreates(s: Sheet)
    requires Valid(s) && s.createEnabled
    ensures Step(s, CreateClicked).creation == Creating(Trim(s.text)) && Trim(s.text) != []
  {
    TrimEmptyIffBlank(s.text);
  }

  /**
   * After a successful creation with a cover, the playlist list finds that
   * cover for a playlist titled with the created name.
   */
  lemma CreatedCoverIsFound(s: Sheet, p: Playlist)
    requires s.creation.Creating? && s.cover.Some?
    requires p.title == Some(s.creation.name)
    requires !IsBlank(s.creation.name)
    ensures PlaylistAdapter.StoredCover(p, Step(s, CreationFinished(true)).prefs) == s.cover
  {
  }
}

=== FILE: album_adapter.dfy ===
/**
 * The album grid's list: songs grouped by (safe album, safe artist) in a
 * `LinkedHashMap` under a NUL-joined text key, turned back into albums by
 * splitting the key, sorted by lower-cased title, behind one leading
 * control row.
 */
module AlbumAdapter {
  import opened Wrappers
  import opened Text
  import opened Seqs
  import opened StableSort
  import opened Media

  const VIEW_TYPE_ALBUM: int := 0
  const VIEW_TYPE_CONTROL: int := 1

  /** The character joining album and artist in the grouping key. */
  const KEY_SEPARATOR: char := '\U{0000}'

  datatype Album = Album(title: string, artist: string, artworkUri: Option<string>, tracks: seq<MediaItem>)

  datatype AlbumListItem = Control | AlbumRow(album: Album)

  /** `"$safeAlbum\u0000$safeArtist"` */
  function AlbumKey(song: MediaItem): string {
    SafeAlbum(song) + [KEY_SEPARATOR] + SafeArtist(song)
  }

  /** Neither safe name contains the key separator. */
  predicate SeparatorFree(song: MediaItem) {
    KEY_SEPARATOR !in SafeAlbum(song) && KEY_SEPARATOR !in SafeArtist(song)
  }

  /** Every song of the list is `SeparatorFree`. */
  predicate AllSeparatorFree(songs: seq<MediaItem>)
    decreases |songs|
  {
    |songs| == 0 || (SeparatorFree(songs[0]) && AllSeparatorFree(songs[1..]))
  }

  lemma {:induction false} AllSeparatorFreeMember(songs: seq<MediaItem>, x: MediaItem)
    requires AllSeparatorFree(songs) && x in songs
    ensures SeparatorFree(x)
    decreases |songs|
  {
    if songs[0] != x {
      assert x in songs[1..];
      AllSeparatorFreeMember(songs[1..], x);
    }
  }

  /** One map entry to an album: the key split on NUL, artwork of the first track. */
  function ToAlbum(g: Group<string, MediaItem>): Album {
    var parts := Split(g.key, KEY_SEPARATOR);
    Album(
      parts[0],
      if |parts| > 1 then parts[1] else [],
      if |g.items| > 0 then g.items[0].artworkUri else None,
      g.items)
  }

  /** The albums in map order (first appearance of each key). */
  function GroupAlbums(songs: seq<MediaItem>): seq<Album> {
    var gs := GroupBy(songs, AlbumKey);
    seq(|gs|, i requires 0 <= i < |gs| => ToAlbum(gs[i]))
  }

  /** `sortedBy { it.title.lowercase() }` */
  function TitleSortKey(a: Album): string {
    Lowercase(a.title)
  }

  function SortedAlbums(songs: seq<MediaItem>): seq<Album> {
    SortBy(GroupAlbums(songs), TitleSortKey, LexLe)
  }

  /** `submitFromSongs`: the control row, then one row per distinct (album, artist). */
  function SubmitFromSongs(songs: seq<MediaItem>): (items: seq<AlbumListItem>)
    ensures |items| == |Distinct(KeyList(songs, AlbumKey))| + 1
    ensures items[0] == Control
    ensures forall i :: 1 <= i < |items| ==> items[i].AlbumRow?
  {
    GroupByCount(songs, AlbumKey);
    [Control] + AlbumRows(SortedAlbums(songs))
  }

  /** One album row per album, in order. */
  function AlbumRows(albums: seq<Album>): (rows: seq<AlbumListItem>)
    ensures |rows| == |albums|
    ensures forall i :: 0 <= i < |albums| ==> rows[i] == AlbumRow(albums[i])
  {
    seq(|albums|, i requires 0 <= i < |albums| => AlbumRow(albums[i]))
  }

  function ViewType(item: AlbumListItem): (t: int)
    ensures t == VIEW_TYPE_CONTROL <==> item.Control?
    ensures t == VIEW_TYPE_ALBUM <==> item.AlbumRow?
  {
    if item.Control? then VIEW_TYPE_CONTROL else VIEW_TYPE_ALBUM
  }

  /** `areItemsTheSame`: the control row matches itself, albums match on title and artist. */
  predicate AreItemsTheSame(a: AlbumListItem, b: AlbumListItem) {
    match (a, b)
    case (Control, Control) => true
    case (AlbumRow(x), AlbumRow(y)) => x.title == y.title && x.artist == y.artist
    case _ => false
  }

  /** Two albums that `areItemsTheSame` tells apart. */
  predicate NamesDiffer(a: Album, b: Album) {
    a.title != b.title || a.artist != b.artist
  }

  /** The album at map position `i` holds exactly the songs sharing its first track's key. */
  lemma GroupAlbumAt(songs: seq<MediaItem>, i: nat)
    requires i < |GroupAlbums(songs)|
    ensures var a := GroupAlbums(songs)[i];
      a.tracks != [] && a.tracks == FilterKey(songs, AlbumKey, AlbumKey(a.tracks[0]))
      && a.artworkUri == a.tracks[0].artworkUri
      && AlbumKey(a.tracks[0]) == GroupBy(songs, AlbumKey)[i].key
  {
    var gs := GroupBy(songs, AlbumKey);
    GroupByCharacterization(songs, AlbumKey);
    assert GroupAlbums(songs)[i] == ToAlbum(gs[i]);
    assert gs[i].items[0] in FilterKey(songs, AlbumKey, gs[i].key);
  }

  /** Two map positions never share a song. */
  lemma GroupAlbumsDisjoint(songs: seq<MediaItem>, p: nat, q: nat, x: MediaItem)
    requires p < |GroupAlbums(songs)| && q < |GroupAlbums(songs)|
    requires x in GroupAlbums(songs)[p].tracks && x in GroupAlbums(songs)[q].tracks
    ensures p == q
  {
    var gs := GroupBy(songs, AlbumKey);
    GroupByCharacterization(songs, AlbumKey);
    assert GroupAlbums(songs)[p] == ToAlbum(gs[p]);
    assert GroupAlbums(songs)[q] == ToAlbum(gs[q]);
    assert GroupKeys(gs)[p] == AlbumKey(x) == GroupKeys(gs)[q];
  }

  lemma GroupAlbumsNoDuplicates(songs: seq<MediaItem>)
    ensures NoDuplicates(GroupAlbums(songs))
  {
    var us := GroupAlbums(songs);
    forall i, j | 0 <= i < j < |us| ensures us[i] != us[j] {
      GroupAlbumAt(songs, i);
      if us[i] == us[j] {
        GroupAlbumsDisjoint(songs, i, j, us[i].tracks[0]);
      }
    }
  }

  /** Every song is in some album of the map. */
  lemma SongHasGroupAlbum(songs: seq<MediaItem>, x: MediaItem) returns (i: nat)
    requires x in songs
    ensures i < |GroupAlbums(songs)| && x in GroupAlbums(songs)[i].tracks
  {
    var gs := GroupBy(songs, AlbumKey);
    GroupByCharacterization(songs, AlbumKey);
    var n :| 0 <= n < |songs| && songs[n] == x;
    assert KeyList(songs, AlbumKey)[n] == AlbumKey(x);
    assert AlbumKey(x) in GroupKeys(gs);
    i :| 0 <= i < |gs| && GroupKeys(gs)[i] == AlbumKey(x);
    assert GroupAlbums(songs)[i] == ToAlbum(gs[i]);
  }

  lemma SortedAlbumsSameElements(songs: seq<MediaItem>)
    ensures forall a :: a in SortedAlbums(songs) <==> a in GroupAlbums(songs)
  {
    forall a ensures a in SortedAlbums(songs) <==> a in GroupAlbums(songs) {
      SortByMembers(GroupAlbums(songs), TitleSortKey, LexLe, a);
    }
  }

  lemma SortedAlbumTracks(songs: seq<MediaItem>, a: Album)
    requires a in SortedAlbums(songs)
    ensures a.tracks != [] && a.tracks == FilterKey(songs, AlbumKey, AlbumKey(a.tracks[0]))
    ensures a.artworkUri == a.tracks[0].artworkUri
  {
    var us := GroupAlbums(songs);
    SortByMembers(us, TitleSortKey, LexLe, a);
    var p :| 0 <= p < |us| && us[p] == a;
    GroupAlbumAt(songs, p);
  }

  lemma SongInSortedAlbum(songs: seq<MediaItem>, x: MediaItem) returns (a: Album)
    requires x in songs
    ensures a in SortedAlbums(songs) && x in a.tracks
  {
    var i := SongHasGroupAlbum(songs, x);
    a := GroupAlbums(songs)[i];
    SortByMembers(GroupAlbums(songs), TitleSortKey, LexLe, a);
  }

  lemma SortedAlbumsDisjoint(songs: seq<MediaItem>, i: nat, j: nat, x: MediaItem)
    requires i < j < |SortedAlbums(songs)|
    requires x in SortedAlbums(songs)[i].tracks
    ensures x !in SortedAlbums(songs)[j].tracks
  {
    var us := GroupAlbums(songs);
    var albums := SortedAlbums(songs);
    if x in albums[j].tracks {
      GroupAlbumsNoDuplicates(songs);
      SortByNoDuplicates(us, TitleSortKey, LexLe);
      SortByMembers(us, TitleSortKey, LexLe, albums[i]);
      SortByMembers(us, TitleSortKey, LexLe, albums[j]);
      var p :| 0 <= p < |us| && us[p] == albums[i];
      var q :| 0 <= q < |us| && us[q] == albums[j];
      GroupAlbumsDisjoint(songs, p, q, x);
    }
  }

  /**
   * Every song lands in exactly one album, and an album holds exactly the
   * songs sharing its (safe album, safe artist) pair, in library order, with
   * the first track's artwork.
   */
  lemma AlbumsPartitionSongs(songs: seq<MediaItem>)
    ensures forall a :: a in SortedAlbums(songs) ==>
      a.tracks != [] && a.tracks == FilterKey(songs, AlbumKey, AlbumKey(a.tracks[0]))
      && a.artworkUri == a.tracks[0].artworkUri
    ensures forall x :: x in songs ==> exists a :: a in SortedAlbums(songs) && x in a.tracks
    ensures forall i, j, x :: 0 <= i < j < |SortedAlbums(songs)| && x in SortedAlbums(songs)[i].tracks ==>
      x !in SortedAlbums(songs)[j].tracks
  {
    forall a | a in SortedAlbums(songs)
      ensures a.tracks != [] && a.tracks == FilterKey(songs, AlbumKey, AlbumKey(a.tracks[0]))
        && a.artworkUri == a.tracks[0].artworkUri
    {
      SortedAlbumTracks(songs, a);
    }
    forall x | x in songs ensures exists a :: a in SortedAlbums(songs) && x in a.tracks {
      var a := SongInSortedAlbum(songs, x);
    }
    forall i, j, x | 0 <= i < j < |SortedAlbums(songs)| && x in SortedAlbums(songs)[i].tracks
      ensures x !in SortedAlbums(songs)[j].tracks
    {
      SortedAlbumsDisjoint(songs, i, j, x);
    }
  }

  lemma AlbumNamesOf(songs: seq<MediaItem>, a: Album, x: MediaItem)
    requires a in SortedAlbums(songs) && x in a.tracks && SeparatorFree(x)
    ensures a.title == SafeAlbum(x) && a.artist == SafeArtist(x)
  {
    var gs := GroupBy(songs, AlbumKey);
    var us := GroupAlbums(songs);
    SortByMembers(us, TitleSortKey, LexLe, a);
    var p :| 0 <= p < |us| && us[p] == a;
    GroupAlbumAt(songs, p);
    assert us[p] == ToAlbum(gs[p]);
    assert gs[p].key == AlbumKey(x) by {
      assert x in FilterKey(songs, AlbumKey, AlbumKey(a.tracks[0]));
    }
    SplitPair(SafeAlbum(x), SafeArtist(x), KEY_SEPARATOR);
  }

  /** Albums are in lower-cased title order, and albums with equal lower-cased titles keep map order. */
  lemma AlbumsSortedByTitle(songs: seq<MediaItem>, k: string)
    ensures Sorted(SortedAlbums(songs), TitleSortKey, LexLe)
    ensures FilterKey(SortedAlbums(songs), TitleSortKey, k) == FilterKey(GroupAlbums(songs), TitleSortKey, k)
  {
    StringOrderIsTotal();
    SortBySorted(GroupAlbums(songs), TitleSortKey, LexLe);
    SortByStable(GroupAlbums(songs), TitleSortKey, LexLe, k);
  }

  lemma SubmitRowAt(songs: seq<MediaItem>, i: nat)
    requires 1 <= i < |SubmitFromSongs(songs)|
    ensures |SubmitFromSongs(songs)| == |SortedAlbums(songs)| + 1
    ensures SubmitFromSongs(songs)[i] == AlbumRow(SortedAlbums(songs)[i - 1])
  {
    var rows := AlbumRows(SortedAlbums(songs));
    assert SubmitFromSongs(songs) == [Control] + rows;
    ConsIndex(Control, rows, i);
  }

  lemma AlbumRowsDistinct(songs: seq<MediaItem>, i: nat, j: nat)
    requires AllSeparatorFree(songs)
    requires i < j < |SortedAlbums(songs)|
    ensures NamesDiffer(SortedAlbums(songs)[i], SortedAlbums(songs)[j])
  {
    var albums := SortedAlbums(songs);
    var a, b := albums[i], albums[j];
    SortedAlbumTracks(songs, a);
    SortedAlbumTracks(songs, b);
    var x, y := a.tracks[0], b.tracks[0];
    assert x in songs && y in songs by {
      assert x in FilterKey(songs, AlbumKey, AlbumKey(x));
      assert y in FilterKey(songs, AlbumKey, AlbumKey(y));
    }
    AllSeparatorFreeMember(songs, x);
    AllSeparatorFreeMember(songs, y);
    AlbumNamesOf(songs, a, x);
    AlbumNamesOf(songs, b, y);
    if a.title == b.title && a.artist == b.artist {
      assert AlbumKey(x) == AlbumKey(y);
      assert y in a.tracks;
      SortedAlbumsDisjoint(songs, i, j, y);
    }
  }

  /**
   * With NUL-free names, no two rows of a submitted list are "the same item"
   * to the diff callback, so DiffUtil can match old and new rows unambiguously.
   */
  lemma DiffIdentityUnambiguous(songs: seq<MediaItem>)
    requires AllSeparatorFree(songs)
    ensures var items := SubmitFromSongs(songs);
      forall i, j :: 0 <= i < j < |items| ==> !AreItemsTheSame(items[i], items[j])
  {
    AlbumNamesDistinct(songs);
    SubmitShape(songs);
    RowsOfDistinctAlbums(SubmitFromSongs(songs), SortedAlbums(songs));
  }

  /** With NUL-free names, no two sorted albums agree on both title and artist. */
  lemma AlbumNamesDistinct(songs: seq<MediaItem>)
    requires AllSeparatorFree(songs)
    ensures forall p, q :: 0 <= p < q < |SortedAlbums(songs)| ==>
      NamesDiffer(SortedAlbums(songs)[p], SortedAlbums(songs)[q])
  {
    forall p, q | 0 <= p < q < |SortedAlbums(songs)|
      ensures NamesDiffer(SortedAlbums(songs)[p], SortedAlbums(songs)[q])
    {
      AlbumRowsDistinct(songs, p, q);
    }
  }

  lemma SubmitShape(songs: seq<MediaItem>)
    ensures SubmitFromSongs(songs) == [Control] + AlbumRows(SortedAlbums(songs))
  {
  }

  /**
   * A control row followed by the rows of albums that pairwise differ in a
   * name holds no two rows that are the same item.
   */
  lemma RowsOfDistinctAlbums(items: seq<AlbumListItem>, albums: seq<Album>)
    requires items == [Control] + AlbumRows(albums)
    requires forall p, q :: 0 <= p < q < |albums| ==> NamesDiffer(albums[p], albums[q])
    ensures forall i, j :: 0 <= i < j < |items| ==> !AreItemsTheSame(items[i], items[j])
  {
    forall i, j | 0 <= i < j < |items|
      ensures !AreItemsTheSame(items[i], items[j])
    {
      RowsOfAlbumsDiffer(items, albums, i, j);
    }
  }

  /**
   * In a control row followed by album rows, two rows are different items
   * when one is the control row or their albums differ in a name.
   */
  lemma RowsOfAlbumsDiffer(items: seq<AlbumListItem>, albums: seq<Album>, i: nat, j: nat)
    requires items == [Control] + AlbumRows(albums)
    requires i < j < |items|
    requires i > 0 ==> NamesDiffer(albums[i - 1], albums[j - 1])
    ensures !AreItemsTheSame(items[i], items[j])
  {
    var rows := AlbumRows(albums);
    ConsIndex(Control, rows, j);
    if i > 0 {
      ConsIndex(Control, rows, i);
    }
  }

  /** Neither empty nor starting or ending with whitespace: `trim()` leaves it alone. */
  predicate Unpadded(t: string) {
    t != [] && !IsWhitespace(t[0]) && !IsWhitespace(t[|t| - 1])
  }

  /**
   * A NUL inside a tag confuses the text key: album "a\0b" by "c" and album
   * "a" by "b\0c" are grouped into one album titled "a" by "b".
   */
  lemma SeparatorInNameMergesAlbums(s1: MediaItem, s2: MediaItem, a: string, b: string, c: string)
    requires Unpadded(a) && Unpadded(b) && Unpadded(c)
    requires KEY_SEPARATOR !in a && KEY_SEPARATOR !in b && KEY_SEPARATOR !in c
    requires s1.albumTitle == Some(a + [KEY_SEPARATOR] + b) && s1.artist == Some(c)
    requires s2.albumTitle == Some(a) && s2.artist == Some(b + [KEY_SEPARATOR] + c)
    ensures AlbumKey(s1) == AlbumKey(s2)
    ensures var g := ToAlbum(Group(AlbumKey(s1), [s1, s2])); g.title == a && g.artist == b
  {
    var nul := KEY_SEPARATOR;
    var tail := b + [nul] + c;
    MergedKeys(s1, s2, a, b, c);
    var parts := Split(a + [nul] + tail, nul);
    SplitPair(b, c, nul);
    SplitPrefix(a, tail, nul);
    assert parts == [a] + [b, c];
    assert parts[0] == a && |parts| == 3 && parts[1] == b;
    assert AlbumKey(s1) == a + [nul] + tail;
    var g := ToAlbum(Group(AlbumKey(s1), [s1, s2]));
    assert g.title == parts[0] && g.artist == parts[1];
  }

  /** Both songs of the merge get the key `a NUL b NUL c`. */
  lemma MergedKeys(s1: MediaItem, s2: MediaItem, a: string, b: string, c: string)
    requires Unpadded(a) && Unpadded(b) && Unpadded(c)
    requires s1.albumTitle == Some(a + [KEY_SEPARATOR] + b) && s1.artist == Some(c)
    requires s2.albumTitle == Some(a) && s2.artist == Some(b + [KEY_SEPARATOR] + c)
    ensures AlbumKey(s1) == AlbumKey(s2) == a + [KEY_SEPARATOR] + (b + [KEY_SEPARATOR] + c)
  {
    var nul := KEY_SEPARATOR;
    var head := a + [nul] + b;
    var tail := b + [nul] + c;
    assert head[0] == a[0] && head[|head| - 1] == b[|b| - 1];
    assert tail[0] == b[0] && tail[|tail| - 1] == c[|c| - 1];
    KeyOfNames(s1, head, c);
    KeyOfNames(s2, a, tail);
    ThreePartsRegroup(a, b, c, nul);
  }

  /** Songs with the same NUL-free key have the same safe names. */
  lemma SplitKeyNames(x: MediaItem, y: MediaItem)
    requires SeparatorFree(x) && SeparatorFree(y) && AlbumKey(x) == AlbumKey(y)
    ensures SafeAlbum(x) == SafeAlbum(y) && SafeArtist(x) == SafeArtist(y)
  {
    SplitPair(SafeAlbum(x), SafeArtist(x), KEY_SEPARATOR);
    SplitPair(SafeAlbum(y), SafeArtist(y), KEY_SEPARATOR);
  }

  lemma KeyOfNames(song: MediaItem, album: string, artist: string)
    requires song.albumTitle == Some(album) && song.artist == Some(artist)
    requires album != [] && !IsWhitespace(album[0]) && !IsWhitespace(album[|album| - 1])
    requires artist != [] && !IsWhitespace(artist[0]) && !IsWhitespace(artist[|artist| - 1])
    ensures AlbumKey(song) == album + [KEY_SEPARATOR] + artist
  {
    SafeNameOfUnpadded(album, UNKNOWN_ALBUM);
    SafeNameOfUnpadded(artist, UNKNOWN_ARTIST);
  }

  lemma SafeNameOfUnpadded(v: string, fallback: string)
    requires fallback != [] && v != [] && !IsWhitespace(v[0]) && !IsWhitespace(v[|v| - 1])
    ensures SafeName(Some(v), fallback) == v
  {
    TrimOfUnpadded(v);
  }

}

=== FILE: album_detail.dfy ===
/**
 * The album page: the library filtered to one (album, artist) pair, ordered
 * by track number then title, with the header's meta line and quote derived
 * from the first track.
 */
module AlbumDetail {
  import opened Wrappers
  import opened Numbers
  import opened Text
  import opened Seqs
  import opened StableSort
  import opened Media
  import AlbumAdapter

  /** Separator of the meta line: space, middle dot, space. */
  const META_SEPARATOR: string := " \U{00B7} "

  /** The sort key of `compareBy { trackNumber ?: Int.MAX_VALUE }.thenBy { title.orEmpty() }`. */
  datatype TrackKey = TrackKey(number: int, title: string)

  function TrackSortKey(song: MediaItem): TrackKey {
    TrackKey(song.trackNumber.GetOr(INT_MAX), OrEmpty(song.title))
  }

  /** Track number first; equal numbers fall back to the title. */
  predicate TrackKeyLe(a: TrackKey, b: TrackKey) {
    a.number < b.number || (a.number == b.number && LexLe(a.title, b.title))
  }

  lemma TrackOrderIsTotal()
    ensures TotalOrder(TrackKeyLe)
  {
    StringOrderIsTotal();
  }

  /** The song belongs to the page opened for `(title, artist)`. */
  predicate OnPage(song: MediaItem, page: (string, string)) {
    SafeAlbum(song) == page.0 && SafeArtist(song) == page.1
  }

  /** The page's track list: the matching songs in track order. */
  function AlbumTracks(songs: seq<MediaItem>, albumTitle: string, albumArtist: string): (tracks: seq<MediaItem>)
    ensures forall x :: x in tracks <==> x in songs && SafeAlbum(x) == albumTitle && SafeArtist(x) == albumArtist
  {
    var filtered := FilterBy(songs, OnPage, (albumTitle, albumArtist));
    var r := SortBy(filtered, TrackSortKey, TrackKeyLe);
    assert forall x :: x in r <==> x in filtered by {
      forall x ensures x in r <==> x in filtered { SortByMembers(filtered, TrackSortKey, TrackKeyLe, x); }
    }
    r
  }

  /**
   * The tracks come out in (track number, title) order and are a permutation
   * of the matching songs; `sortedBy` is stable, so tracks with equal keys `k`
   * keep their library order.
   */
  lemma AlbumTracksOrdered(songs: seq<MediaItem>, albumTitle: string, albumArtist: string, k: TrackKey)
    ensures Sorted(AlbumTracks(songs, albumTitle, albumArtist), TrackSortKey, TrackKeyLe)
    ensures multiset(AlbumTracks(songs, albumTitle, albumArtist))
      == multiset(FilterBy(songs, OnPage, (albumTitle, albumArtist)))
    ensures FilterKey(AlbumTracks(songs, albumTitle, albumArtist), TrackSortKey, k)
      == FilterKey(FilterBy(songs, OnPage, (albumTitle, albumArtist)), TrackSortKey, k)
  {
    TrackOrderIsTotal();
    SortBySorted(FilterBy(songs, OnPage, (albumTitle, albumArtist)), TrackSortKey, TrackKeyLe);
    SortByStable(FilterBy(songs, OnPage, (albumTitle, albumArtist)), TrackSortKey, TrackKeyLe, k);
  }

  /**
   * Opening an album row of the album grid shows exactly that album's
   * tracks: the page's filter selects the same songs, in the same library
   * order, that the grid grouped under the row (for NUL-free names).
   */
  lemma OpenedAlbumShowsItsTracks(songs: seq<MediaItem>, a: AlbumAdapter.Album)
    requires forall x :: x in songs ==> AlbumAdapter.SeparatorFree(x)
    requires a in AlbumAdapter.SortedAlbums(songs)
    ensures FilterBy(songs, OnPage, (a.title, a.artist)) == a.tracks
    ensures multiset(AlbumTracks(songs, a.title, a.artist)) == multiset(a.tracks)
  {
    AlbumAdapter.SortedAlbumTracks(songs, a);
    var first := a.tracks[0];
    var k := AlbumAdapter.AlbumKey(first);
    assert first in songs by {
      assert first in FilterKey(songs, AlbumAdapter.AlbumKey, k);
    }
    AlbumAdapter.AlbumNamesOf(songs, a, first);
    forall x | x in songs ensures OnPage(x, (a.title, a.artist)) <==> AlbumAdapter.AlbumKey(x) == k {
      if AlbumAdapter.AlbumKey(x) == k {
        AlbumAdapter.SplitKeyNames(x, first);
      }
    }
    FilterByIsFilterKey(songs, OnPage, (a.title, a.artist), AlbumAdapter.AlbumKey, k);
    AlbumTracksOrdered(songs, a.title, a.artist, TrackSortKey(first));
  }

  /** The number shown beside a track: its tag when positive, else its 1-based row. */
  function DisplayedTrackNumber(song: MediaItem, position: nat): (n: int)
    ensures n > 0
    ensures song.trackNumber.Some? && song.trackNumber.value > 0 ==> n == song.trackNumber.value
    ensures (song.trackNumber.None? || song.trackNumber.value <= 0) ==> n == position + 1
  {
    if song.trackNumber.Some? && song.trackNumber.value > 0 then song.trackNumber.value else position + 1
  }

  /** `listOfNotNull(...)`.joinToString(" · ") */
  function JoinMeta(parts: seq<string>): string
    decreases |parts|
  {
    if |parts| == 0 then [] else if |parts| == 1 then parts[0] else parts[0] + META_SEPARATOR + JoinMeta(parts[1..])
  }

  /** The header's meta line, or None when the view is hidden. */
  function MetaLine(first: Option<MediaItem>): (r: Option<string>)
    ensures var genre := if first.Some? then TrimmedOrEmpty(first.value.genre) else [];
      var hasYear := first.Some? && first.value.releaseYear.Some? && first.value.releaseYear.value > 0;
      (r.None? <==> genre == [] && !hasYear)
      && (genre != [] && !hasYear ==> r == Some(Uppercase(genre)))
      && (genre == [] && hasYear ==> r == Some(IntToString(first.value.releaseYear.value)))
      && (genre != [] && hasYear ==>
            r == Some(Uppercase(genre) + META_SEPARATOR + IntToString(first.value.releaseYear.value)))
  {
    var genre := if first.Some? then TrimmedOrEmpty(first.value.genre) else [];
    var year := if first.Some? && first.value.releaseYear.Some? && first.value.releaseYear.value > 0
      then IntToString(first.value.releaseYear.value) else [];
    TrimmedBlankIsEmpty(if first.Some? then first.value.genre else None);
    NumberIsNotBlank(if first.Some? && first.value.releaseYear.Some? then first.value.releaseYear.value else 0);
    var parts := (if !IsBlank(genre) then [Uppercase(genre)] else []) + (if !IsBlank(year) then [year] else []);
    assert |parts| == 2 ==> JoinMeta(parts) == parts[0] + META_SEPARATOR + parts[1] by {
      if |parts| == 2 { JoinMetaTwo(parts[0], parts[1]); assert parts == [parts[0], parts[1]]; }
    }
    if parts == [] then None else Some(JoinMeta(parts))
  }

  lemma JoinMetaTwo(a: string, b: string)
    ensures JoinMeta([a, b]) == a + META_SEPARATOR + b
  {
    assert [a, b][1..] == [b];
  }

  /** The quote under the header, or None when the view is hidden. */
  function Quote(first: Option<MediaItem>): (r: Option<string>)
    ensures first.None? || first.value.description.None? ==> r.None?
    ensures first.Some? && first.value.description.Some? ==>
      (r.None? <==> IsBlank(first.value.description.value))
      && (r.Some? ==> r.value == Trim(first.value.description.value))
  {
    var description := if first.Some? then TrimmedOrEmpty(first.value.description) else [];
    TrimmedBlankIsEmpty(if first.Some? then first.value.description else None);
    assert first.Some? && first.value.description.Some? ==>
      (description == [] <==> IsBlank(first.value.description.value)) by {
      if first.Some? && first.value.description.Some? { TrimEmptyIffBlank(first.value.description.value); }
    }
    if IsBlank(description) then None else Some(description)
  }

  lemma TrimmedBlankIsEmpty(v: Option<string>)
    ensures IsBlank(TrimmedOrEmpty(v)) <==> TrimmedOrEmpty(v) == []
  {
    if v.Some? {
      var t := Trim(v.value);
      if t != [] { assert !IsWhitespace(t[0]); }
    }
  }

  lemma NumberIsNotBlank(n: int)
    ensures !IsBlank(IntToString(n))
  {
    var s := IntToString(n);
    if n >= 0 { assert IsDigit(NatDigits(n)[0]); } else { assert s[0] == '-'; }
  }

  /** Header artwork: the first track's artwork, None meaning the default cover. */
  function HeaderArt(tracks: seq<MediaItem>): (r: Option<string>)
    ensures tracks == [] ==> r.None?
    ensures tracks != [] ==> r == tracks[0].artworkUri
  {
    if tracks == [] then None else tracks[0].artworkUri
  }

  /**
   * The header of a page opened from the album grid shows the artwork of a
   * track of the grid row that no other track of the row precedes in track
   * order. The grid row shows its first track in library order instead, so
   * the header and the row agree whenever the row's tracks share one
   * artwork (for NUL-free names).
   */
  lemma OpenedAlbumHeaderArt(songs: seq<MediaItem>, a: AlbumAdapter.Album)
    requires forall x :: x in songs ==> AlbumAdapter.SeparatorFree(x)
    requires a in AlbumAdapter.SortedAlbums(songs)
    ensures exists j ::
      && 0 <= j < |a.tracks|
      && HeaderArt(AlbumTracks(songs, a.title, a.artist)) == a.tracks[j].artworkUri
      && (forall x :: x in a.tracks ==> TrackKeyLe(TrackSortKey(a.tracks[j]), TrackSortKey(x)))
    ensures (forall x :: x in a.tracks ==> x.artworkUri == a.artworkUri) ==>
      HeaderArt(AlbumTracks(songs, a.title, a.artist)) == a.artworkUri
  {
    var tracks := AlbumTracks(songs, a.title, a.artist);
    HeaderTrackFacts(songs, a);
    var head := tracks[0];
    assert head in a.tracks;
    var j :| 0 <= j < |a.tracks| && a.tracks[j] == head;
  }

  /** The page's list holds the grid row's tracks, and its head is at or before every one of them. */
  lemma HeaderTrackFacts(songs: seq<MediaItem>, a: AlbumAdapter.Album)
    requires forall x :: x in songs ==> AlbumAdapter.SeparatorFree(x)
    requires a in AlbumAdapter.SortedAlbums(songs)
    ensures var tracks := AlbumTracks(songs, a.title, a.artist);
      && tracks != [] && a.tracks != [] && a.artworkUri == a.tracks[0].artworkUri
      && (forall x :: x in tracks <==> x in a.tracks)
      && (forall x :: x in tracks ==> TrackKeyLe(TrackSortKey(tracks[0]), TrackSortKey(x)))
  {
    var tracks := AlbumTracks(songs, a.title, a.artist);
    OpenedAlbumShowsItsTracks(songs, a);
    AlbumAdapter.SortedAlbumTracks(songs, a);
    SameTracks(tracks, a.tracks);
    AlbumTracksOrdered(songs, a.title, a.artist, TrackSortKey(a.tracks[0]));
    HeadIsLeast(tracks);
  }

  /** Two lists with the same multiset hold the same tracks, and one is empty iff the other is. */
  lemma SameTracks(s: seq<MediaItem>, t: seq<MediaItem>)
    requires multiset(s) == multiset(t)
    ensures s == [] <==> t == []
    ensures forall x :: x in s <==> x in t
  {
    forall x ensures x in s <==> x in t {
      assert x in s <==> x in multiset(s);
      assert x in t <==> x in multiset(t);
    }
    if s != [] { assert s[0] in t; }
  }

  /** The head of a list in track order is at or before every track in it. */
  lemma HeadIsLeast(tracks: seq<MediaItem>)
    requires tracks != [] && Sorted(tracks, TrackSortKey, TrackKeyLe)
    ensures forall x :: x in tracks ==> TrackKeyLe(TrackSortKey(tracks[0]), TrackSortKey(x))
  {
    forall x | x in tracks
      ensures TrackKeyLe(TrackSortKey(tracks[0]), TrackSortKey(x))
    {
      var k :| 0 <= k < |tracks| && tracks[k] == x;
      if k == 0 { LexLeTotal(OrEmpty(x.title), OrEmpty(x.title)); }
    }
  }

}

=== FILE: artist_adapter.dfy ===
/**
 * The artist list: songs grouped by safe artist name in first-appearance
 * order, each artist carrying its tracks and first track's artwork, sorted
 * by lower-cased name.
 */
module ArtistAdapter {
  import opened Wrappers
  import opened Text
  import opened Seqs
  import opened StableSort
  import opened Media

  datatype Artist = Artist(name: string, artworkUri: Option<string>, tracks: seq<MediaItem>)

  function ToArtist(g: Group<string, MediaItem>): Artist {
    Artist(g.key, if |g.items| > 0 then g.items[0].artworkUri else None, g.items)
  }

  function GroupArtists(songs: seq<MediaItem>): seq<Artist> {
    var gs := GroupBy(songs, SafeArtist);
    seq(|gs|, i requires 0 <= i < |gs| => ToArtist(gs[i]))
  }

  /** `sortedBy { it.name.lowercase() }` */
  function NameSortKey(a: Artist): string {
    Lowercase(a.name)
  }

  /** `submitFromSongs`: the artist rows, one per distinct safe artist name. */
  function SubmitFromSongs(songs: seq<MediaItem>): (artists: seq<Artist>)
    ensures |artists| == |Distinct(KeyList(songs, SafeArtist))|
  {
    GroupByCount(songs, SafeArtist);
    SortBy(GroupArtists(songs), NameSortKey, LexLe)
  }

  /** `areItemsTheSame`: artists are identified by name. */
  predicate AreItemsTheSame(a: Artist, b: Artist) {
    a.name == b.name
  }

  lemma GroupArtistAt(songs: seq<MediaItem>, i: nat)
    requires i < |GroupArtists(songs)|
    ensures var a := GroupArtists(songs)[i];
      a.tracks != [] && a.tracks == FilterKey(songs, SafeArtist, a.name)
      && a.name == SafeArtist(a.tracks[0]) && a.artworkUri == a.tracks[0].artworkUri
      && a.name == GroupBy(songs, SafeArtist)[i].key
  {
    var gs := GroupBy(songs, SafeArtist);
    GroupByCharacterization(songs, SafeArtist);
    assert GroupArtists(songs)[i] == ToArtist(gs[i]);
    assert gs[i].items[0] in FilterKey(songs, SafeArtist, gs[i].key);
  }

  lemma GroupArtistNamesDistinct(songs: seq<MediaItem>, p: nat, q: nat)
    requires p < q < |GroupArtists(songs)|
    ensures GroupArtists(songs)[p].name != GroupArtists(songs)[q].name
  {
    var gs := GroupBy(songs, SafeArtist);
    GroupByCharacterization(songs, SafeArtist);
    GroupArtistAt(songs, p);
    GroupArtistAt(songs, q);
    assert GroupKeys(gs)[p] != GroupKeys(gs)[q];
  }

  lemma GroupArtistsNoDuplicates(songs: seq<MediaItem>)
    ensures NoDuplicates(GroupArtists(songs))
  {
    var us := GroupArtists(songs);
    forall i, j | 0 <= i < j < |us| ensures us[i] != us[j] {
      GroupArtistNamesDistinct(songs, i, j);
    }
  }

  lemma ArtistOf(songs: seq<MediaItem>, a: Artist)
    requires a in SubmitFromSongs(songs)
    ensures a.tracks != [] && a.tracks == FilterKey(songs, SafeArtist, a.name)
    ensures a.artworkUri == a.tracks[0].artworkUri
  {
    var us := GroupArtists(songs);
    SortByMembers(us, NameSortKey, LexLe, a);
    var p :| 0 <= p < |us| && us[p] == a;
    GroupArtistAt(songs, p);
  }

  lemma SongHasArtist(songs: seq<MediaItem>, x: MediaItem) returns (a: Artist)
    requires x in songs
    ensures a in SubmitFromSongs(songs) && x in a.tracks && a.name == SafeArtist(x)
  {
    var gs := GroupBy(songs, SafeArtist);
    GroupByCharacterization(songs, SafeArtist);
    var n :| 0 <= n < |songs| && songs[n] == x;
    assert KeyList(songs, SafeArtist)[n] == SafeArtist(x);
    assert SafeArtist(x) in GroupKeys(gs);
    var i :| 0 <= i < |gs| && GroupKeys(gs)[i] == SafeArtist(x);
    a := GroupArtists(songs)[i];
    GroupArtistAt(songs, i);
    SortByMembers(GroupArtists(songs), NameSortKey, LexLe, a);
  }

  lemma ArtistNamesDistinct(songs: seq<MediaItem>, i: nat, j: nat)
    requires i < j < |SubmitFromSongs(songs)|
    ensures SubmitFromSongs(songs)[i].name != SubmitFromSongs(songs)[j].name
  {
    var us := GroupArtists(songs);
    forall p, q | 0 <= p < q < |us| ensures us[p].name != us[q].name {
      GroupArtistNamesDistinct(songs, p, q);
    }
    SortByKeepsDistinct(us, NameSortKey, LexLe, (a: Artist) => a.name);
  }

  /**
   * Every song appears under exactly the artist named by its safe artist
   * name; an artist holds exactly those songs, in library order; and no
   * two rows share a name, so the diff callback's identity is unambiguous.
   */
  lemma ArtistsPartitionSongs(songs: seq<MediaItem>)
    ensures forall a :: a in SubmitFromSongs(songs) ==>
      a.tracks != [] && a.tracks == FilterKey(songs, SafeArtist, a.name)
      && a.artworkUri == a.tracks[0].artworkUri
    ensures forall x :: x in songs ==> exists a :: a in SubmitFromSongs(songs) && x in a.tracks
    ensures forall i, j :: 0 <= i < j < |SubmitFromSongs(songs)| ==>
      !AreItemsTheSame(SubmitFromSongs(songs)[i], SubmitFromSongs(songs)[j])
  {
    forall a | a in SubmitFromSongs(songs)
      ensures a.tracks != [] && a.tracks == FilterKey(songs, SafeArtist, a.name)
        && a.artworkUri == a.tracks[0].artworkUri
    {
      ArtistOf(songs, a);
    }
    forall x | x in songs ensures exists a :: a in SubmitFromSongs(songs) && x in a.tracks {
      var a := SongHasArtist(songs, x);
    }
    forall i, j | 0 <= i < j < |SubmitFromSongs(songs)|
      ensures !AreItemsTheSame(SubmitFromSongs(songs)[i], SubmitFromSongs(songs)[j])
    {
      ArtistNamesDistinct(songs, i, j);
    }
  }

  /** Artists are in lower-cased name order; names that lower-case alike keep first-appearance order. */
  lemma ArtistsSortedByName(songs: seq<MediaItem>, k: string)
    ensures Sorted(SubmitFromSongs(songs), NameSortKey, LexLe)
    ensures FilterKey(SubmitFromSongs(songs), NameSortKey, k) == FilterKey(GroupArtists(songs), NameSortKey, k)
  {
    StringOrderIsTotal();
    SortBySorted(GroupArtists(songs), NameSortKey, LexLe);
    SortByStable(GroupArtists(songs), NameSortKey, LexLe, k);
  }
}

=== FILE: artist_detail.dfy ===
/**
 * The artist page: the library filtered to one safe artist name, newest
 * first (ties by title), with a "latest release" card for the album of the
 * newest track.
 */
module ArtistDetail {
  import opened Wrappers
  import opened Numbers
  import opened Text
  import opened Seqs
  import opened StableSort
  import opened Media
  import opened Playback
  import ArtistAdapter

  /** The sort key of `compareByDescending { addDate ?: 0 }.thenBy { title.orEmpty() }`. */
  datatype DateKey = DateKey(addDate: int, title: string)

  function DateSortKey(song: MediaItem): DateKey {
    DateKey(song.addDate.GetOr(0), OrEmpty(song.title))
  }

  /** Later additions first; equal dates fall back to the title, ascending. */
  predicate DateKeyLe(a: DateKey, b: DateKey) {
    a.addDate > b.addDate || (a.addDate == b.addDate && LexLe(a.title, b.title))
  }

  lemma DateOrderIsTotal()
    ensures TotalOrder(DateKeyLe)
  {
    StringOrderIsTotal();
  }

  predicate ByArtist(song: MediaItem, name: string) {
    SafeArtist(song) == name
  }

  /** The page's track list. */
  function ArtistTracks(songs: seq<MediaItem>, artistName: string): (tracks: seq<MediaItem>)
    ensures forall x :: x in tracks <==> x in songs && SafeArtist(x) == artistName
  {
    var filtered := FilterBy(songs, ByArtist, artistName);
    var r := SortBy(filtered, DateSortKey, DateKeyLe);
    assert forall x :: x in r <==> x in filtered by {
      forall x ensures x in r <==> x in filtered { SortByMembers(filtered, DateSortKey, DateKeyLe, x); }
    }
    r
  }

  /**
   * Newest first, ties by title, and a permutation of the artist's songs;
   * songs with equal keys `k` keep their library order.
   */
  lemma ArtistTracksOrdered(songs: seq<MediaItem>, artistName: string, k: DateKey)
    ensures Sorted(ArtistTracks(songs, artistName), DateSortKey, DateKeyLe)
    ensures multiset(ArtistTracks(songs, artistName)) == multiset(FilterBy(songs, ByArtist, artistName))
    ensures FilterKey(ArtistTracks(songs, artistName), DateSortKey, k)
      == FilterKey(FilterBy(songs, ByArtist, artistName), DateSortKey, k)
  {
    DateOrderIsTotal();
    SortBySorted(FilterBy(songs, ByArtist, artistName), DateSortKey, DateKeyLe);
    SortByStable(FilterBy(songs, ByArtist, artistName), DateSortKey, DateKeyLe, k);
  }

  /** Opening an artist row of the artist list shows exactly the songs the list grouped under it. */
  lemma OpenedArtistShowsItsTracks(songs: seq<MediaItem>, a: ArtistAdapter.Artist)
    requires a in ArtistAdapter.SubmitFromSongs(songs)
    ensures FilterBy(songs, ByArtist, a.name) == a.tracks
    ensures multiset(ArtistTracks(songs, a.name)) == multiset(a.tracks)
  {
    ArtistAdapter.ArtistOf(songs, a);
    FilterByIsFilterKey(songs, ByArtist, a.name, SafeArtist, a.name);
    ArtistTracksOrdered(songs, a.name, DateKey(0, ""));
  }

  predicate InAlbum(song: MediaItem, albumTitle: string) {
    SafeAlbum(song) == albumTitle
  }

  /** The "latest release" card; `Hidden` is the GONE card. */
  datatype LatestCard =
    | Hidden
    | Shown(albumTitle: string, artworkUri: Option<string>, trackCount: nat, addedAtMillis: Option<int>)

  /** What the page keeps between list updates. */
  datatype Page = Page(currentTracks: seq<MediaItem>, latestAlbumTracks: seq<MediaItem>, card: LatestCard)

  /**
   * `formatAddDate` before formatting: null for a missing or non-positive
   * date, otherwise seconds times 1000 as a `Long` (which wraps for huge values).
   */
  function AddDateMillis(addDate: Option<int>): (r: Option<int>)
    requires addDate.Some? ==> IsLong(addDate.value)
    ensures r.None? <==> addDate.None? || addDate.value <= 0
    ensures r.Some? && addDate.value <= LONG_MAX / 1000 ==> r.value == addDate.value * 1000 && r.value > 0
  {
    if addDate.None? || addDate.value <= 0 then None else Some(WrapLong(addDate.value * 1000))
  }

  /**
   * `updateArtistDetails`: with no tracks the card hides and the previous
   * latest-album list is left as it was; otherwise the card shows the album
   * of the first (newest) track and the tracks of that album.
   */
  function UpdateArtistDetails(page: Page, tracks: seq<MediaItem>): (p: Page)
    requires forall x :: x in tracks && x.addDate.Some? ==> IsLong(x.addDate.value)
    ensures p.currentTracks == tracks
    ensures tracks == [] ==> p.card == Hidden && p.latestAlbumTracks == page.latestAlbumTracks
    ensures tracks != [] ==>
      p.card.Shown? && p.card.albumTitle == SafeAlbum(tracks[0])
      && p.card.artworkUri == tracks[0].artworkUri
      && p.card.trackCount == |p.latestAlbumTracks|
      && (forall x :: x in p.latestAlbumTracks <==> x in tracks && SafeAlbum(x) == SafeAlbum(tracks[0]))
      && IsSubsequence(p.latestAlbumTracks, tracks)
      && p.latestAlbumTracks != [] && p.latestAlbumTracks[0] == tracks[0]
  {
    if tracks == [] then Page(tracks, page.latestAlbumTracks, Hidden)
    else
      var latest := tracks[0];
      var albumTitle := SafeAlbum(latest);
      var albumTracks := FilterBy(tracks, InAlbum, albumTitle);
      assert InAlbum(latest, albumTitle);
      assert albumTracks == [latest] + FilterBy(tracks[1..], InAlbum, albumTitle);
      Page(tracks, albumTracks, Shown(albumTitle, latest.artworkUri, |albumTracks|, AddDateMillis(latest.addDate)))
  }

  /** The latest-release button queues that album's tracks when a controller is there. */
  function LatestAdd(hasController: bool, page: Page): (r: Option<Command>)
    ensures r.Some? <==> hasController && page.latestAlbumTracks != []
    ensures r.Some? ==> r.value == AddMediaItems(page.latestAlbumTracks)
  {
    if !hasController || page.latestAlbumTracks == [] then None else Some(AddMediaItems(page.latestAlbumTracks))
  }
}

=== FILE: fast_scroller_scroll.dfy ===
/**
 * The scroll view with a fast scroller: it speaks the fast scroller's
 * `ScrollState` language on top of the user actions of its base view.
 */
module FastScrollerScroll {
  import opened Wrappers
  import opened ListenableScroll

  datatype ScrollState = Idle | Dragging | Settling

  /** `viewScrollState`: the current user action as a scroll state. */
  function ViewScrollState(a: UserAction): (s: ScrollState)
    ensures a == Drag <==> s == Dragging
    ensures a == Fling <==> s == Settling
    ensures a == NoAction <==> s == Idle
  {
    match a
    case Drag => Dragging
    case Fling => Settling
    case NoAction => Idle
  }

  /** The action `setScrollState` emits for a state. */
  function ActionFor(s: ScrollState): (a: UserAction)
    ensures s == Dragging <==> a == Drag
    ensures s == Settling <==> a == Fling
    ensures s == Idle <==> a == NoAction
  {
    match s
    case Idle => NoAction
    case Dragging => Drag
    case Settling => Fling
  }

  /** The two maps are inverse bijections. */
  lemma ScrollStateBijection(s: ScrollState, a: UserAction)
    ensures ViewScrollState(ActionFor(s)) == s
    ensures ActionFor(ViewScrollState(a)) == a
  {
  }

  /** `setScrollState`: the flow holds the state's action afterwards, whether or not the collector hears it. */
  function SetScrollState(v: Sys, s: ScrollState): (r: (Sys, seq<Callback>))
    ensures ViewScrollState(r.0.value) == s
    ensures v.value == ActionFor(s) ==> r == (v, [])
  {
    ScrollStateBijection(s, v.value);
    Offer(v, Some(ActionFor(s)))
  }

  /** A scroll position and the range it is kept in. */
  datatype Scroll = Scroll(x: int, y: int, maxX: int, maxY: int)

  /** `scrollBy`: moves by the step, kept within `[0, max]` on each axis. */
  function ScrollBy(v: Scroll, dx: int, dy: int): (r: Scroll)
    requires 0 <= v.maxX && 0 <= v.maxY
    ensures 0 <= r.x <= v.maxX && 0 <= r.y <= v.maxY
    ensures 0 <= v.x + dx <= v.maxX ==> r.x == v.x + dx
    ensures 0 <= v.y + dy <= v.maxY ==> r.y == v.y + dy
    ensures r.maxX == v.maxX && r.maxY == v.maxY
  {
    var nx := if v.x + dx < 0 then 0 else if v.x + dx > v.maxX then v.maxX else v.x + dx;
    var ny := if v.y + dy < 0 then 0 else if v.y + dy > v.maxY then v.maxY else v.y + dy;
    v.(x := nx, y := ny)
  }

  /**
   * `nestedScrollBy`: the fast scroller's drag scrolls the view as `scrollBy`
   * does, so the position it leaves is always in range and follows the drag
   * exactly while the drag stays in range.
   */
  function NestedScrollBy(v: Scroll, dx: int, dy: int): (r: Scroll)
    requires 0 <= v.maxX && 0 <= v.maxY
    ensures 0 <= r.x <= v.maxX && 0 <= r.y <= v.maxY
    ensures 0 <= v.x + dx <= v.maxX ==> r.x == v.x + dx
    ensures 0 <= v.y + dy <= v.maxY ==> r.y == v.y + dy
    ensures r.maxX == v.maxX && r.maxY == v.maxY
  {
    ScrollBy(v, dx, dy)
  }

  /**
   * Dragging the thumb back undoes a drag that stayed in range; a drag past
   * an edge is not undone, since the position was pinned at that edge.
   */
  lemma NestedScrollUndo(v: Scroll, dx: int, dy: int)
    requires 0 <= v.x <= v.maxX && 0 <= v.y <= v.maxY
    ensures 0 <= v.x + dx <= v.maxX && 0 <= v.y + dy <= v.maxY ==>
      NestedScrollBy(NestedScrollBy(v, dx, dy), -dx, -dy) == v
    ensures dx > v.maxX ==>
      NestedScrollBy(NestedScrollBy(v, dx, dy), -dx, -dy).x == 0
  {
  }

  /** What the fast scroller is told to do. */
  datatype ScrollerCommand = Show | Hide | HideImmediately | Nothing

  /** After layout: hide at once if there is nothing further down to scroll to, otherwise schedule a hide. */
  function OnLayout(canScrollDown: bool): (c: ScrollerCommand)
    ensures c == HideImmediately <==> !canScrollDown
    ensures c == Hide <==> canScrollDown
  {
    if !canScrollDown then HideImmediately else Hide
  }

  /** The collector's callbacks: a start shows the scroller only if the view can scroll further down; an end hides it. */
  function OnCallback(cb: Callback, canScrollDown: bool): (c: ScrollerCommand)
    ensures cb == ActionEnd ==> c == Hide
    ensures cb == ActionStart ==> (c == Show <==> canScrollDown) && c != Hide
  {
    match cb
    case ActionStart => if canScrollDown then Show else Nothing
    case ActionEnd => Hide
  }

  /** The scroller is never shown by anything but a started action on a view with room below. */
  lemma ShownOnlyWithRoom(cb: Callback, canScrollDown: bool)
    ensures OnCallback(cb, canScrollDown) == Show ==> cb == ActionStart && canScrollDown
    ensures OnLayout(canScrollDown) != Show
  {
  }

  /** Who answered a touch, and with what: the fast scroller first, the base view only if it declined. */
  datatype Touched = Touched(result: bool, baseConsulted: bool)

  function FirstRefusal(scrollerTakes: bool, baseResult: bool): (r: Touched)
    ensures scrollerTakes ==> r == Touched(true, false)
    ensures !scrollerTakes ==> r == Touched(baseResult, true)
  {
    if scrollerTakes then Touched(true, false) else Touched(baseResult, true)
  }

  /**
   * `onInterceptTouchEvent`: when the fast scroller declines, the base view's
   * handling runs, with its bookkeeping of the touch, and its answer
   * (`baseResult`) is returned; when the scroller takes the touch, the base
   * view never sees it.
   */
  function InterceptTouchEvent(v: Sys, scrollerTakes: bool, baseResult: bool, action: TouchAction, y: real): (r: (Sys, seq<Callback>, Touched))
    ensures scrollerTakes ==> r.0 == v && r.1 == [] && r.2 == Touched(true, false)
    ensures !scrollerTakes ==> (r.0, r.1) == Step(v, Touch(action, y)) && r.2 == Touched(baseResult, true)
  {
    if scrollerTakes then (v, [], FirstRefusal(true, baseResult))
    else
      var s := Step(v, Touch(action, y));
      (s.0, s.1, FirstRefusal(false, baseResult))
  }

  /** While the fast scroller holds the gesture, the base view's action does not change. */
  lemma ScrollerGesturesLeaveActionAlone(v: Sys, baseResult: bool, action: TouchAction, y: real)
    ensures ViewScrollState(InterceptTouchEvent(v, true, baseResult, action, y).0.value) == ViewScrollState(v.value)
  {
  }
}

=== FILE: floating_panel.dfy ===
/**
 * The sliding player panel: a fraction in `[0, 1]` between the mini player
 * (0) and the full player (1), a three-way status derived from it, and the
 * drag, fling, tap and release gestures that move it.
 */
module FloatingPanel {
  import opened Wrappers
  import opened Numbers

  const MINIMUM_ANIMATION_TIME: int := 220
  const MAXIMUM_ANIMATION_TIME: int := 320

  /** The duration of tap and release animations: halfway between the two bounds. */
  const SETTLE_DURATION: int := (MAXIMUM_ANIMATION_TIME + MINIMUM_ANIMATION_TIME) / 2

  datatype SlideStatus = COLLAPSED | EXPANDED | SLIDING

  /** The status a fraction stands for. */
  function StatusOf(progress: real): (s: SlideStatus)
    ensures s == EXPANDED <==> progress == 1.0
    ensures s == COLLAPSED <==> progress == 0.0
    ensures s == SLIDING <==> progress != 0.0 && progress != 1.0
  {
    if progress == 1.0 then EXPANDED else if progress == 0.0 then COLLAPSED else SLIDING
  }

  /** What the slide listeners hear. */
  datatype Notification = OnSlide(progress: real) | OnStatusChanged(status: SlideStatus)

  /** A running value animation of the fraction. */
  datatype Animation = Animation(from: real, to: real, duration: int)

  /** The finger's last two vertical positions and their times. */
  datatype Motion = Motion(penultimateY: real, penultimateTime: int, lastY: real, lastTime: int)

  datatype Panel = Panel(
    fraction: real,
    status: SlideStatus,
    isDragging: bool,
    motion: Motion,
    animation: Option<Animation>)

  /** The panel as it starts: collapsed and idle. */
  function Initial(): (p: Panel)
    ensures Consistent(p) && InRange(p)
  {
    Panel(0.0, COLLAPSED, false, Motion(0.0, 0, 0.0, 0), None)
  }

  /** The status always matches the fraction. */
  predicate Consistent(p: Panel) { p.status == StatusOf(p.fraction) }

  predicate InRange(p: Panel) { 0.0 <= p.fraction <= 1.0 }

  /**
   * `triggerSlide`: every call reports the progress; a status change is
   * reported only when the status actually moved.
   */
  function TriggerSlide(status: SlideStatus, progress: real): (r: (SlideStatus, seq<Notification>))
    ensures r.0 == StatusOf(progress)
    ensures |r.1| >= 1 && r.1[0] == OnSlide(progress)
    ensures |r.1| == 2 <==> r.0 != status
    ensures |r.1| <= 2
    ensures |r.1| == 2 ==> r.1[1] == OnStatusChanged(r.0)
  {
    var next := StatusOf(progress);
    (next, [OnSlide(progress)] + if next != status then [OnStatusChanged(next)] else [])
  }

  /** Reporting the same progress twice announces the status at most once. */
  lemma TriggerSlideSettles(status: SlideStatus, progress: real)
    ensures var r := TriggerSlide(status, progress);
      |TriggerSlide(r.0, progress).1| == 1
  {
  }

  /**
   * `updateTransform`: the same fraction strictly inside `(0, 1)` again is
   * skipped; anything else moves the panel and reports it.
   */
  function UpdateTransform(p: Panel, newFraction: real): (r: (Panel, seq<Notification>))
    ensures newFraction == p.fraction && p.fraction != 0.0 && p.fraction != 1.0 ==> r.0 == p && r.1 == []
    ensures !(newFraction == p.fraction && p.fraction != 0.0 && p.fraction != 1.0) ==>
      r.0 == p.(fraction := newFraction, status := StatusOf(newFraction))
      && r.1 == TriggerSlide(p.status, newFraction).1
    ensures Consistent(p) ==> Consistent(r.0)
  {
    if newFraction == p.fraction && p.fraction != 0.0 && p.fraction != 1.0 then (p, [])
    else
      var t := TriggerSlide(p.status, newFraction);
      (p.(fraction := newFraction, status := t.0), t.1)
  }

  /** A status listener never hears a status twice in a row from one panel. */
  lemma StatusChangesAlternate(p: Panel, f1: real, f2: real)
    requires Consistent(p)
    requires var a := UpdateTransform(p, f1); |a.1| == 2
    requires var a := UpdateTransform(p, f1); |UpdateTransform(a.0, f2).1| == 2
    ensures UpdateTransform(p, f1).1[1] != UpdateTransform(UpdateTransform(p, f1).0, f2).1[1]
  {
  }

  /** The change of fraction for a finger movement: moving up (a positive distance) opens the panel when `fullTop < previewTop`. */
  function DragDelta(distanceY: real, fullTop: real, previewTop: real): (d: real)
    requires fullTop != previewTop
    ensures d * (fullTop - previewTop) == -distanceY
  {
    -distanceY / (fullTop - previewTop)
  }

  /**
   * `onScroll`: a drag step of `distanceY` pixels over the track from the
   * mini player's top (`previewTop`) to the full player's (`fullTop`). A
   * step that would leave `[0, 1]` is dropped, and so is every step on a
   * zero-length track (its float quotient is infinite or NaN).
   */
  function OnScroll(p: Panel, distanceY: real, fullTop: real, previewTop: real, y: real, time: int): (r: (Panel, seq<Notification>))
    ensures r.0.isDragging && r.0.animation.None?
    ensures InRange(p) ==> InRange(r.0)
    ensures Consistent(p) ==> Consistent(r.0)
    ensures fullTop == previewTop ==> r.0 == p.(isDragging := true, animation := None) && r.1 == []
    ensures fullTop != previewTop && 0.0 <= p.fraction + DragDelta(distanceY, fullTop, previewTop) <= 1.0 ==>
      r.0.fraction == p.fraction + DragDelta(distanceY, fullTop, previewTop)
      && r.0.motion == Motion(p.motion.lastY, p.motion.lastTime, y, time)
  {
    var q := p.(isDragging := true, animation := None);
    if fullTop == previewTop then (q, [])
    else
      var deltaY := DragDelta(distanceY, fullTop, previewTop);
      if !(0.0 <= q.fraction + deltaY <= 1.0) then (q, [])
      else
        var u := UpdateTransform(q, q.fraction + deltaY);
        (u.0.(motion := Motion(q.motion.lastY, q.motion.lastTime, y, time)), u.1)
  }

  /** One drag step, as the gesture detector reports it. */
  datatype Drag = Drag(distanceY: real, y: real, time: int)

  function Scrolls(p: Panel, fullTop: real, previewTop: real, ds: seq<Drag>): Panel
    decreases |ds|
  {
    if ds == [] then p
    else Scrolls(OnScroll(p, ds[0].distanceY, fullTop, previewTop, ds[0].y, ds[0].time).0, fullTop, previewTop, ds[1..])
  }

  /** However far the finger travels, a drag keeps the panel between collapsed and expanded, with a matching status. */
  lemma {:induction false} DragKeepsRange(p: Panel, fullTop: real, previewTop: real, ds: seq<Drag>)
    requires InRange(p) && Consistent(p)
    ensures InRange(Scrolls(p, fullTop, previewTop, ds)) && Consistent(Scrolls(p, fullTop, previewTop, ds))
    decreases |ds|
  {
    if ds != [] {
      var q := OnScroll(p, ds[0].distanceY, fullTop, previewTop, ds[0].y, ds[0].time).0;
      DragKeepsRange(q, fullTop, previewTop, ds[1..]);
    }
  }

  /**
   * The fling duration: the travel time at the finger's last speed, as
   * `Float.toLong()` gives it (passed in as `travelMillis`), made
   * non-negative with `absoluteValue` and clamped into `[220, 320]` ms.
   * `Long.MIN_VALUE` stays negative under `absoluteValue` and so clamps to 220.
   */
  function FlingDuration(travelMillis: int): (d: int)
    requires IsLong(travelMillis)
    ensures MINIMUM_ANIMATION_TIME <= d <= MAXIMUM_ANIMATION_TIME
    ensures travelMillis != LONG_MIN && MINIMUM_ANIMATION_TIME <= AbsLong(travelMillis) <= MAXIMUM_ANIMATION_TIME ==>
      d == AbsLong(travelMillis)
    ensures travelMillis == LONG_MIN ==> d == MINIMUM_ANIMATION_TIME
  {
    CoerceIn(AbsLong(travelMillis), MINIMUM_ANIMATION_TIME, MAXIMUM_ANIMATION_TIME)
  }

  /** Whether the finger was last moving up the screen. */
  predicate MovingUp(m: Motion) { m.penultimateY - m.lastY > 0.0 }

  /**
   * `onFling`: ends the drag; only a panel caught mid-slide is animated, to
   * expanded when the finger last moved up and to collapsed otherwise.
   */
  function OnFling(p: Panel, travelMillis: int): (r: Panel)
    requires IsLong(travelMillis)
    ensures !r.isDragging && r.fraction == p.fraction && r.status == p.status
    ensures p.status != SLIDING ==> r.animation == p.animation
    ensures p.status == SLIDING ==>
      r.animation.Some?
      && r.animation.value.from == p.fraction
      && (r.animation.value.to == 1.0 <==> MovingUp(p.motion))
      && (r.animation.value.to == 0.0 <==> !MovingUp(p.motion))
      && MINIMUM_ANIMATION_TIME <= r.animation.value.duration <= MAXIMUM_ANIMATION_TIME
  {
    var q := p.(isDragging := false);
    if p.status == SLIDING then
      q.(animation := Some(Animation(p.fraction, if MovingUp(p.motion) then 1.0 else 0.0, FlingDuration(travelMillis))))
    else q
  }

  /** `onSingleTapUp`: a tap on the collapsed panel opens it. */
  function OnSingleTapUp(p: Panel): (r: Panel)
    ensures p.status != COLLAPSED ==> r == p
    ensures p.status == COLLAPSED ==> r.animation == Some(Animation(p.fraction, 1.0, SETTLE_DURATION))
    ensures r.fraction == p.fraction && r.isDragging == p.isDragging
  {
    if p.status == COLLAPSED then p.(animation := Some(Animation(p.fraction, 1.0, SETTLE_DURATION))) else p
  }

  /** `onUp`: a drag that ends without a fling settles by the last direction; the drag is over either way. */
  function OnUp(p: Panel): (r: Panel)
    ensures !r.isDragging && r.fraction == p.fraction
    ensures !p.isDragging ==> r.animation == p.animation
    ensures p.isDragging ==>
      r.animation == Some(Animation(p.fraction, if MovingUp(p.motion) then 1.0 else 0.0, SETTLE_DURATION))
  {
    var q := if p.isDragging then p.(animation := Some(Animation(p.fraction, if MovingUp(p.motion) then 1.0 else 0.0, SETTLE_DURATION))) else p;
    q.(isDragging := false)
  }

  /** Every animation the gestures start ends at one of the two resting states. */
  lemma AnimationsEndAtRest(p: Panel, travelMillis: int)
    requires IsLong(travelMillis)
    ensures var a := OnFling(p, travelMillis).animation;
      a != p.animation ==> a.Some? && StatusOf(a.value.to) != SLIDING
    ensures var a := OnSingleTapUp(p).animation;
      a != p.animation ==> a.Some? && StatusOf(a.value.to) == EXPANDED
    ensures var a := OnUp(p).animation;
      a != p.animation ==> a.Some? && StatusOf(a.value.to) != SLIDING
  {
  }

  /** The panel's current outline, inclusive on every edge. */
  datatype Bounds = Bounds(left: real, top: real, right: real, bottom: real)

  predicate IsInsideBoundingBox(b: Bounds, x: real, y: real) {
    b.left <= x <= b.right && b.top <= y <= b.bottom
  }

  /** How `onTouchEvent` disposes of one event. */
  datatype Route =
    | DismissPopup    // the popup is closed and the event consumed
    | Swallowed       // consumed while the popup animates
    | Gesture         // consumed by the gesture detector
    | Release         // an unconsumed UP: `onUp`, consumed
    | Default         // handed to the view's own handler
    | Ignored         // not handled

  /**
   * `onTouchEvent`: an open popup is dismissed by any touch outside it; a
   * popup in motion swallows everything; otherwise the panel takes touches
   * inside its bounds, or anywhere while a drag is in progress.
   */
  function RouteTouch(popupFraction: real, insidePopup: bool, panel: Bounds, x: real, y: real,
                      isDragging: bool, detectorConsumed: bool, isUp: bool): (r: Route)
    ensures popupFraction == 1.0 && !insidePopup ==> r == DismissPopup
    ensures popupFraction != 0.0 && !(popupFraction == 1.0 && !insidePopup) ==> r == Swallowed
    ensures popupFraction == 0.0 ==>
      (r != Ignored <==> IsInsideBoundingBox(panel, x, y) || isDragging)
    ensures popupFraction == 0.0 && r != Ignored ==>
      (r == Gesture <==> detectorConsumed) && (r == Release <==> !detectorConsumed && isUp)
  {
    if popupFraction == 1.0 && !insidePopup then DismissPopup
    else if popupFraction != 0.0 then Swallowed
    else if IsInsideBoundingBox(panel, x, y) || isDragging then
      if detectorConsumed then Gesture else if isUp then Release else Default
    else Ignored
  }

  /** `onInterceptTouchEvent`: the panel takes every touch from its children while the popup is fully open. */
  function InterceptTouch(popupFraction: real): (r: bool)
    ensures r <==> popupFraction == 1.0
  {
    popupFraction == 1.0
  }

  /** With the popup fully open, the panel's children see no touch and every touch outside the popup closes it. */
  lemma OpenPopupOwnsTouches(insidePopup: bool, panel: Bounds, x: real, y: real, isDragging: bool, consumed: bool, isUp: bool)
    ensures InterceptTouch(1.0)
    ensures RouteTouch(1.0, insidePopup, panel, x, y, isDragging, consumed, isUp) in {DismissPopup, Swallowed}
  {
  }
}

=== FILE: full_player.dfy ===
/**
 * The control rules of the full-screen player: the repeat button, the
 * duration it trusts, the elapsed/remaining texts and progress slider, the
 * device volume slider and the periodic position refresh.
 */
module FullPlayer {
  import opened Wrappers
  import opened Numbers

  /** Media3 `Player.REPEAT_MODE_*` and `C.TIME_UNSET`. */
  const REPEAT_MODE_OFF: int := 0
  const REPEAT_MODE_ONE: int := 1
  const REPEAT_MODE_ALL: int := 2
  const TIME_UNSET: int := LONG_MIN + 1
  const POSITION_UPDATE_INTERVAL_MS: int := 500

  predicate IsRepeatMode(m: int) {
    m == REPEAT_MODE_OFF || m == REPEAT_MODE_ONE || m == REPEAT_MODE_ALL
  }

  // ---------------------------------------------------------------------
  // Repeat button
  // ---------------------------------------------------------------------

  /** A press on the repeat button: off, then all, then one, then off again; anything unknown goes to off. */
  function NextRepeatMode(mode: int): (r: int)
    ensures IsRepeatMode(r)
    ensures mode == REPEAT_MODE_OFF ==> r == REPEAT_MODE_ALL
    ensures mode == REPEAT_MODE_ALL ==> r == REPEAT_MODE_ONE
    ensures mode == REPEAT_MODE_ONE ==> r == REPEAT_MODE_OFF
    ensures !IsRepeatMode(mode) ==> r == REPEAT_MODE_OFF
  {
    if mode == REPEAT_MODE_OFF then REPEAT_MODE_ALL
    else if mode == REPEAT_MODE_ALL then REPEAT_MODE_ONE
    else REPEAT_MODE_OFF
  }

  /** Three presses from a known mode come back to it, and no fewer do: the cycle has length three. */
  lemma RepeatCycle(mode: int)
    requires IsRepeatMode(mode)
    ensures NextRepeatMode(NextRepeatMode(NextRepeatMode(mode))) == mode
    ensures NextRepeatMode(mode) != mode
    ensures NextRepeatMode(NextRepeatMode(mode)) != mode
  {
  }

  /** An unknown mode joins the cycle at off after one press. */
  lemma UnknownModeJoinsCycle(mode: int)
    requires !IsRepeatMode(mode)
    ensures NextRepeatMode(NextRepeatMode(NextRepeatMode(NextRepeatMode(mode)))) == REPEAT_MODE_OFF
  {
  }

  /** How `updateRepeatButton` shows a mode. */
  datatype RepeatButton = RepeatButton(checked: bool, repeatOneIcon: bool)

  function ShowRepeatMode(mode: int): (b: RepeatButton)
    ensures b.checked <==> mode != REPEAT_MODE_OFF
    ensures b.repeatOneIcon <==> mode == REPEAT_MODE_ONE
  {
    RepeatButton(mode != REPEAT_MODE_OFF, mode == REPEAT_MODE_ONE)
  }

  /** Each of the three known modes looks different on the button. */
  lemma RepeatButtonDistinguishesModes(m1: int, m2: int)
    requires IsRepeatMode(m1) && IsRepeatMode(m2)
    requires ShowRepeatMode(m1) == ShowRepeatMode(m2)
    ensures m1 == m2
  {
  }

  // ---------------------------------------------------------------------
  // Duration and progress
  // ---------------------------------------------------------------------

  /**
   * `resolveDurationMs`: the controller's content duration unless it is
   * unset, otherwise the item's tagged duration when positive. Without a
   * controller both inputs are `None`.
   */
  function ResolveDurationMs(contentDuration: Option<int>, metadataDuration: Option<int>): (r: Option<int>)
    ensures contentDuration.Some? && contentDuration.value != TIME_UNSET ==> r == contentDuration
    ensures (contentDuration.None? || contentDuration.value == TIME_UNSET) ==>
      (r.Some? <==> metadataDuration.Some? && metadataDuration.value > 0)
      && (r.Some? ==> r == metadataDuration)
    ensures r.Some? ==> r.value != TIME_UNSET
  {
    if contentDuration.Some? && contentDuration.value != TIME_UNSET then contentDuration
    else if metadataDuration.Some? && metadataDuration.value > 0 then metadataDuration
    else None
  }

  /** The two timestamp texts: a placeholder, or elapsed and remaining milliseconds. */
  datatype Timestamps = Placeholder | Times(elapsed: int, remaining: int)

  /**
   * `updateProgressTexts`: the duration is taken as at least 1 ms, the
   * position is clamped into it, and the remaining time is the rest.
   */
  function ProgressTexts(positionMs: int, durationMs: int): (t: Timestamps)
    ensures t.Times?
    ensures 0 <= t.elapsed && 0 <= t.remaining
    ensures t.elapsed + t.remaining == if durationMs < 1 then 1 else durationMs
    ensures 0 <= positionMs <= durationMs ==> t.elapsed == positionMs
    ensures positionMs < 0 ==> t.elapsed == 0
    ensures var safe := if durationMs < 1 then 1 else durationMs;
      && (0 <= positionMs <= safe ==> t.elapsed == positionMs && t.remaining == safe - positionMs)
      && (positionMs >= safe ==> t.elapsed == safe && t.remaining == 0)
      && (positionMs <= 0 ==> t.elapsed == 0 && t.remaining == safe)
  {
    var safeDuration := if durationMs < 1 then 1 else durationMs;
    var bounded := CoerceIn(positionMs, 0, safeDuration);
    var remaining := safeDuration - bounded;
    Times(bounded, if remaining < 0 then 0 else remaining)
  }

  /** What the progress area shows: the texts and the slider. */
  datatype ProgressView = ProgressView(texts: Timestamps, sliderValue: real, sliderTo: real)

  /**
   * `updateProgressDisplay`. With no duration, or a controller with an empty
   * queue, both texts show the placeholder and the slider rests at 0 of 1.
   * While the user scrubs nothing changes. Otherwise the slider and the
   * texts show the same clamped position.
   */
  function UpdateProgressDisplay(v: ProgressView, mediaDuration: Option<int>, currentPosition: int,
                                 mediaItemCount: Option<int>, isUserScrubbing: bool): (r: ProgressView)
    ensures mediaDuration.None? || mediaItemCount == Some(0) ==>
      r == ProgressView(Placeholder, 0.0, 1.0)
    ensures mediaDuration.Some? && mediaItemCount != Some(0) && isUserScrubbing ==> r == v
    ensures mediaDuration.Some? && mediaItemCount != Some(0) && !isUserScrubbing ==>
      && r.texts.Times?
      && 0.0 <= r.sliderValue <= r.sliderTo
      && 1.0 <= r.sliderTo
      && r.sliderValue == r.texts.elapsed as real
      && r.sliderTo - r.sliderValue == r.texts.remaining as real
      && (0 <= currentPosition <= mediaDuration.value ==> r.texts.elapsed == currentPosition)
  {
    if mediaDuration.None? || mediaItemCount == Some(0) then ProgressView(Placeholder, 0.0, 1.0)
    else if isUserScrubbing then v
    else
      var safeDuration := if mediaDuration.value < 1 then 1 else mediaDuration.value;
      var bounded := CoerceIn(currentPosition, 0, safeDuration);
      ProgressView(ProgressTexts(bounded, safeDuration), bounded as real, safeDuration as real)
  }

  /** Where a finished scrub seeks: nowhere without a duration, or the clamped slider position. */
  datatype Seek = NoSeek | SeekTo(position: int) | IllegalRange

  /**
   * The seek of `onStopTracking`. `Float.toLong` truncates toward zero (and
   * saturates, which the clamp into a `Long` duration makes invisible);
   * `coerceIn(0, duration)` throws for a negative duration.
   */
  function ScrubSeek(duration: Option<int>, sliderValue: real): (s: Seek)
    ensures duration.None? <==> s.NoSeek?
    ensures duration.Some? && duration.value < 0 <==> s.IllegalRange?
    ensures s.SeekTo? ==> 0 <= s.position <= duration.value
    ensures s.SeekTo? && 0.0 <= sliderValue ==> s.position as real <= sliderValue
    ensures duration.Some? && 0.0 <= sliderValue <= duration.value as real ==>
      s.SeekTo? && s.position == Truncate(sliderValue)
  {
    if duration.None? then NoSeek
    else if duration.value < 0 then IllegalRange
    else SeekTo(CoerceIn(Truncate(sliderValue), 0, duration.value))
  }

  // ---------------------------------------------------------------------
  // Scrubbing and the position refresh loop
  // ---------------------------------------------------------------------

  /**
   * The refresh loop: whether it should keep going, and how many refresh
   * callbacks are queued on the view.
   */
  datatype Ticker = Ticker(running: bool, posted: nat, isUserScrubbing: bool)

  /** At most one refresh is queued, and exactly when the loop is running. */
  predicate TickerOk(t: Ticker) {
    t.posted <= 1 && (t.running <==> t.posted == 1)
  }

  /** `startPositionUpdates`: does nothing when already running; otherwise drops any queued refresh and queues one. */
  function StartPositionUpdates(t: Ticker): (r: Ticker)
    ensures t.running ==> r == t
    ensures r.running && r.isUserScrubbing == t.isUserScrubbing
    ensures !t.running ==> r.posted == 1
  {
    if t.running then t else t.(running := true, posted := 1)
  }

  /** `stopPositionUpdates`: clears the flag and every queued refresh. */
  function StopPositionUpdates(t: Ticker): (r: Ticker)
    ensures !r.running && r.posted == 0 && r.isUserScrubbing == t.isUserScrubbing
  {
    t.(running := false, posted := 0)
  }

  /** One queued refresh runs: it re-queues itself only while the loop is running. */
  function Tick(t: Ticker): (r: Ticker)
    requires t.posted > 0
    ensures r.running == t.running && r.isUserScrubbing == t.isUserScrubbing
    ensures r.posted == if t.running then t.posted else t.posted - 1
  {
    if t.running then t else t.(posted := t.posted - 1)
  }

  /** Starting twice is starting once. */
  lemma StartIdempotent(t: Ticker)
    ensures StartPositionUpdates(StartPositionUpdates(t)) == StartPositionUpdates(t)
  {
  }

  /** The scrub listener's `onStartTracking`: the user owns the slider, the loop stops. */
  function OnStartTracking(t: Ticker): (r: Ticker)
    ensures r.isUserScrubbing && !r.running && r.posted == 0
  {
    StopPositionUpdates(t).(isUserScrubbing := true)
  }

  /** `onStopTracking`: the user lets go; a playing player resumes the loop. */
  function OnStopTracking(t: Ticker, isPlaying: bool): (r: Ticker)
    ensures !r.isUserScrubbing
    ensures isPlaying ==> r.running
    ensures !isPlaying ==> r == t.(isUserScrubbing := false)
  {
    var u := t.(isUserScrubbing := false);
    if isPlaying then StartPositionUpdates(u) else u
  }

  /** What a redraw reads from the player: the duration, the position and the queue length. */
  datatype Reading = Reading(duration: Option<int>, position: int, itemCount: Option<int>)

  /**
   * The events around the refresh loop. `Start` and `Stop` are the loop's
   * own calls, made among others by `onPlaybackStateChanged` (playing or
   * not); `Run` is a queued refresh coming due; `Redraw` is a direct
   * `updateProgressDisplay` call outside the loop, as the not-playing branch
   * of `onPlaybackStateChanged` makes; the scrub events are the progress
   * slider's tracking callbacks.
   */
  datatype TickerEvent =
    | Start
    | Stop
    | Run(reading: Reading)
    | Redraw(reading: Reading)
    | ScrubStart
    | ScrubStop(isPlaying: bool)

  function StepTicker(t: Ticker, e: TickerEvent): Ticker {
    match e
    case Start => StartPositionUpdates(t)
    case Stop => StopPositionUpdates(t)
    case Run(_) => if t.posted > 0 then Tick(t) else t
    case Redraw(_) => t
    case ScrubStart => OnStartTracking(t)
    case ScrubStop(isPlaying) => OnStopTracking(t, isPlaying)
  }

  function RunTicker(t: Ticker, es: seq<TickerEvent>): Ticker
    decreases |es|
  {
    if es == [] then t else RunTicker(StepTicker(t, es[0]), es[1..])
  }

  /** However the events interleave, there is never more than one refresh loop. */
  lemma {:induction false} TickerStaysSingle(t: Ticker, es: seq<TickerEvent>)
    requires TickerOk(t)
    ensures TickerOk(RunTicker(t, es))
    decreases |es|
  {
    if es != [] {
      assert TickerOk(StepTicker(t, es[0]));
      TickerStaysSingle(StepTicker(t, es[0]), es[1..]);
    }
  }

  /**
   * A scrub during which the player does not start playing queues no
   * refresh: with only refreshes, redraws, stops and further grabs, nothing
   * is queued until the user lets go. A `Start` from `onPlaybackStateChanged`
   * does queue one mid-scrub (`StartDuringScrubQueues`); what keeps the
   * slider still then is the guard in the refresh itself
   * (`ScrubbingFreezesSlider`).
   */
  lemma {:induction false} ScrubbingSilencesRefresh(t: Ticker, es: seq<TickerEvent>)
    requires TickerOk(t) && t.isUserScrubbing && !t.running
    requires forall i :: 0 <= i < |es| ==> es[i].Run? || es[i].Redraw? || es[i].Stop? || es[i].ScrubStart?
    ensures RunTicker(t, es).posted == 0 && RunTicker(t, es).isUserScrubbing
    decreases |es|
  {
    if es != [] {
      var u := StepTicker(t, es[0]);
      assert TickerOk(u) && u.isUserScrubbing && !u.running;
      ScrubbingSilencesRefresh(u, es[1..]);
    }
  }

  /** Playback starting mid-scrub restarts the loop: one refresh is queued while the user still holds the slider. */
  lemma StartDuringScrubQueues(t: Ticker)
    ensures var u := RunTicker(t, [ScrubStart, Start]);
      u.isUserScrubbing && u.running && u.posted == 1
  {
  }

  /** What one event writes to the progress view: a refresh that comes due, or a direct redraw, runs `updateProgressDisplay`. */
  function Redrawn(t: Ticker, v: ProgressView, e: TickerEvent): ProgressView {
    match e
    case Run(rd) =>
      if t.posted > 0 then UpdateProgressDisplay(v, rd.duration, rd.position, rd.itemCount, t.isUserScrubbing) else v
    case Redraw(rd) => UpdateProgressDisplay(v, rd.duration, rd.position, rd.itemCount, t.isUserScrubbing)
    case _ => v
  }

  /** The progress view after a run of events, as the refreshes and redraws among them leave it. */
  function RunView(t: Ticker, v: ProgressView, es: seq<TickerEvent>): ProgressView
    decreases |es|
  {
    if es == [] then v else RunView(StepTicker(t, es[0]), Redrawn(t, v, es[0]), es[1..])
  }

  /** A redraw that finds a duration and a non-empty queue. */
  predicate HasMedia(e: TickerEvent) {
    (e.Run? || e.Redraw?) ==> e.reading.duration.Some? && e.reading.itemCount != Some(0)
  }

  /**
   * From the start of a scrub until it is let go, whatever starts, stops,
   * refreshes and redraws happen, the scrub flag stays set and no redraw
   * moves the slider or the texts: the only write is the placeholder reset
   * for a player without a duration or with an empty queue, and while the
   * player has media nothing is written at all.
   */
  lemma {:induction false} ScrubbingFreezesSlider(t: Ticker, v: ProgressView, es: seq<TickerEvent>)
    requires t.isUserScrubbing
    requires forall i :: 0 <= i < |es| ==> !es[i].ScrubStop?
    ensures RunTicker(t, es).isUserScrubbing
    ensures RunView(t, v, es) == v || RunView(t, v, es) == ProgressView(Placeholder, 0.0, 1.0)
    ensures (forall i :: 0 <= i < |es| ==> HasMedia(es[i])) ==> RunView(t, v, es) == v
    decreases |es|
  {
    if es != [] {
      var u := StepTicker(t, es[0]);
      var w := Redrawn(t, v, es[0]);
      assert u.isUserScrubbing;
      assert forall i :: 0 <= i < |es[1..]| ==> !es[1..][i].ScrubStop? by {
        forall i | 0 <= i < |es[1..]| ensures !es[1..][i].ScrubStop? { assert es[1..][i] == es[i + 1]; }
      }
      ScrubbingFreezesSlider(u, w, es[1..]);
      if forall i :: 0 <= i < |es| ==> HasMedia(es[i]) {
        assert HasMedia(es[0]);
        assert w == v;
        assert forall i :: 0 <= i < |es[1..]| ==> HasMedia(es[1..][i]) by {
          forall i | 0 <= i < |es[1..]| ensures HasMedia(es[1..][i]) { assert es[1..][i] == es[i + 1]; }
        }
      }
    }
  }

  // ---------------------------------------------------------------------
  // Volume
  // ---------------------------------------------------------------------

  /** `resolveMaxDeviceVolume`: a positive cached maximum is kept, otherwise the system is asked again. */
  function ResolveMaxDeviceVolume(cached: int, queried: int): (r: int)
    ensures cached > 0 ==> r == cached
    ensures cached <= 0 ==> r == queried
  {
    if cached <= 0 then queried else cached
  }

  /** `setDeviceVolume`: nothing without a positive maximum, otherwise the volume clamped into `[0, max]`. */
  function SetDeviceVolume(maxVolume: int, volume: int): (r: Option<int>)
    ensures maxVolume <= 0 <==> r.None?
    ensures r.Some? ==> 0 <= r.value <= maxVolume
    ensures r.Some? && 0 <= volume <= maxVolume ==> r.value == volume
  {
    if maxVolume <= 0 then None else Some(CoerceIn(volume, 0, maxVolume))
  }

  /**
   * `updateVolumeSlider`: the slider target, or nothing while the user drags
   * the volume slider or when there is no positive maximum.
   */
  function VolumeSliderTarget(isUserVolumeScrubbing: bool, maxVolume: int, volume: int): (r: Option<int>)
    ensures isUserVolumeScrubbing ==> r.None?
    ensures !isUserVolumeScrubbing ==> r == SetDeviceVolume(maxVolume, volume)
  {
    if isUserVolumeScrubbing then None else SetDeviceVolume(maxVolume, volume)
  }

  /** Setting a volume and reading it back onto the slider agree, and re-clamping changes nothing. */
  lemma VolumeClampIdempotent(maxVolume: int, volume: int)
    requires maxVolume > 0
    ensures var v := SetDeviceVolume(maxVolume, volume).value;
      SetDeviceVolume(maxVolume, v) == Some(v)
      && VolumeSliderTarget(false, maxVolume, v) == Some(v)
  {
  }
}

=== FILE: item_offsets.dfy ===
/**
 * Grid and list spacing of the Albums and Artists screens: the album grid
 * has two columns, the control row spans both, and item decorations give
 * dp-based offsets converted to pixels by truncation.
 */
module ItemOffsets {
  import opened Numbers
  import opened Media
  import opened AlbumAdapter

  const SPAN_COUNT: int := 2
  const NO_POSITION: int := -1

  /** Album grid offsets, in dp. */
  const OUTER_DP: int := 22
  const INNER_DP: int := 8
  const TOP_DP: int := 12
  const BOTTOM_DP: int := 4

  /** Artist list left padding, in dp. */
  const SIDE_DP: int := 24

  datatype Rect = Rect(left: int, top: int, right: int, bottom: int)

  /** `(dp * density).toInt()`. */
  function DpToPx(dp: int, density: real): (px: int)
    ensures density >= 0.0 && dp >= 0 ==> 0 <= px && px as real <= dp as real * density < px as real + 1.0
  {
    Truncate(dp as real * density)
  }

  /** A larger dp value never converts to fewer pixels. */
  lemma DpToPxMonotone(a: int, b: int, density: real)
    requires 0 <= a <= b && density >= 0.0
    ensures DpToPx(a, density) <= DpToPx(b, density)
  {
    var x, y := a as real * density, b as real * density;
    assert y - x == (b - a) as real * density;
    assert (b - a) as real * density >= 0.0;
    assert DpToPx(a, density) as real <= x <= y < DpToPx(b, density) as real + 1.0;
  }

  /** `getSpanSize`: the control row takes the whole row, an album one column. */
  function SpanSize(viewType: int): (span: int)
    ensures 1 <= span <= SPAN_COUNT
    ensures span == SPAN_COUNT <==> viewType == VIEW_TYPE_CONTROL
  {
    if viewType == VIEW_TYPE_CONTROL then 2 else 1
  }

  /** In the list the album adapter shows, only the first row spans both columns. */
  lemma SubmittedSpans(songs: seq<MediaItem>, i: nat)
    requires i < |SubmitFromSongs(songs)|
    ensures SpanSize(ViewType(SubmitFromSongs(songs)[i])) == if i == 0 then SPAN_COUNT else 1
  {
  }

  /**
   * The album grid decoration. A detached view (`NO_POSITION`) keeps the
   * rectangle it came with; the control row gets no offsets; an album in
   * column 0 gets the outer gap on the left and the inner gap on the right,
   * any other column the mirror image.
   */
  function AlbumOffsets(position: int, viewType: int, column: int, density: real, current: Rect): (r: Rect)
    ensures position == NO_POSITION ==> r == current
    ensures position != NO_POSITION && viewType == VIEW_TYPE_CONTROL ==> r == Rect(0, 0, 0, 0)
    ensures position != NO_POSITION && viewType != VIEW_TYPE_CONTROL ==>
      r.top == DpToPx(TOP_DP, density) && r.bottom == DpToPx(BOTTOM_DP, density)
      && r.left + r.right == DpToPx(OUTER_DP, density) + DpToPx(INNER_DP, density)
  {
    if position == NO_POSITION then current
    else if viewType == VIEW_TYPE_CONTROL then Rect(0, 0, 0, 0)
    else
      var outer := DpToPx(OUTER_DP, density);
      var inner := DpToPx(INNER_DP, density);
      Rect(if column == 0 then outer else inner, DpToPx(TOP_DP, density),
           if column == 0 then inner else outer, DpToPx(BOTTOM_DP, density))
  }

  /**
   * The two columns mirror each other, the outer edge is never narrower
   * than the inner one, and the gap between the columns is twice the inner offset.
   */
  lemma AlbumColumnsMirror(position: int, viewType: int, density: real, c0: Rect, c1: Rect)
    requires position != NO_POSITION && viewType != VIEW_TYPE_CONTROL && density >= 0.0
    ensures AlbumOffsets(position, viewType, 0, density, c0).left == AlbumOffsets(position, viewType, 1, density, c1).right
    ensures AlbumOffsets(position, viewType, 0, density, c0).right == AlbumOffsets(position, viewType, 1, density, c1).left
    ensures AlbumOffsets(position, viewType, 0, density, c0).left >= AlbumOffsets(position, viewType, 0, density, c0).right
    ensures AlbumOffsets(position, viewType, 0, density, c0).right + AlbumOffsets(position, viewType, 1, density, c1).left
      == 2 * DpToPx(INNER_DP, density)
  {
    DpToPxMonotone(INNER_DP, OUTER_DP, density);
  }

  /** The artist list decoration: a left padding only; top and bottom are left as they were. */
  function ArtistOffsets(position: int, density: real, current: Rect): (r: Rect)
    ensures position == NO_POSITION ==> r == current
    ensures position != NO_POSITION ==>
      r.left == DpToPx(SIDE_DP, density) && r.right == 0
      && r.top == current.top && r.bottom == current.bottom
  {
    if position == NO_POSITION then current
    else current.(left := DpToPx(SIDE_DP, density), right := 0)
  }
}

=== FILE: library_search.dfy ===
/**
 * The search boxes of the Songs, Albums and Artists screens: the query is
 * trimmed; a blank query shows the whole library, otherwise a song stays
 * when one of the screen's fields contains the query, ignoring case.
 */
module LibrarySearch {
  import opened Wrappers
  import opened Text
  import opened Seqs
  import opened Media

  /** A field the song search looks at; a missing one reads as "". */
  datatype Field = Title | Artist | Album

  function FieldText(song: MediaItem, f: Field): string {
    match f
    case Title => OrEmpty(song.title)
    case Artist => OrEmpty(song.artist)
    case Album => OrEmpty(song.albumTitle)
  }

  /** The song has a field, among `fields`, that contains `query` ignoring case. */
  predicate AnyFieldContains(song: MediaItem, fields: seq<Field>, query: string) {
    exists i :: 0 <= i < |fields| && ContainsIgnoreCase(FieldText(song, fields[i]), query)
  }

  /** The fields each screen searches, in the order the screen tests them. */
  const SONG_FIELDS: seq<Field> := [Title, Artist, Album]
  const ALBUM_FIELDS: seq<Field> := [Album, Artist, Title]
  const ARTIST_FIELDS: seq<Field> := [Artist, Title]

  predicate Matches(song: MediaItem, search: (seq<Field>, string)) {
    AnyFieldContains(song, search.0, search.1)
  }

  /** The shared shape of the three `performSearch` functions. */
  function Search(songs: seq<MediaItem>, fields: seq<Field>, query: string): (r: seq<MediaItem>)
    ensures Trim(query) == [] ==> r == songs
    ensures Trim(query) != [] ==> IsSubsequence(r, songs)
    ensures Trim(query) != [] ==>
      forall x :: x in r <==> x in songs && AnyFieldContains(x, fields, Trim(query))
    ensures Trim(query) != [] ==>
      forall x :: multiset(r)[x] == if AnyFieldContains(x, fields, Trim(query)) then multiset(songs)[x] else 0
  {
    var q := Trim(query);
    FilterByCounts(songs, Matches, (fields, q));
    if q == [] then songs else FilterBy(songs, Matches, (fields, q))
  }

  /** What each screen's filter lambda tests, written out field by field. */
  predicate SongMatches(x: MediaItem, q: string) {
    ContainsIgnoreCase(OrEmpty(x.title), q)
    || ContainsIgnoreCase(OrEmpty(x.artist), q)
    || ContainsIgnoreCase(OrEmpty(x.albumTitle), q)
  }

  predicate AlbumMatches(x: MediaItem, q: string) {
    ContainsIgnoreCase(OrEmpty(x.albumTitle), q)
    || ContainsIgnoreCase(OrEmpty(x.artist), q)
    || ContainsIgnoreCase(OrEmpty(x.title), q)
  }

  predicate ArtistMatches(x: MediaItem, q: string) {
    ContainsIgnoreCase(OrEmpty(x.artist), q)
    || ContainsIgnoreCase(OrEmpty(x.title), q)
  }

  lemma SongFieldsMatch(x: MediaItem, q: string)
    ensures AnyFieldContains(x, SONG_FIELDS, q) <==> SongMatches(x, q)
  {
    assert FieldText(x, SONG_FIELDS[0]) == OrEmpty(x.title);
    assert FieldText(x, SONG_FIELDS[1]) == OrEmpty(x.artist);
    assert FieldText(x, SONG_FIELDS[2]) == OrEmpty(x.albumTitle);
  }

  lemma AlbumFieldsMatch(x: MediaItem, q: string)
    ensures AnyFieldContains(x, ALBUM_FIELDS, q) <==> AlbumMatches(x, q)
  {
    assert FieldText(x, ALBUM_FIELDS[0]) == OrEmpty(x.albumTitle);
    assert FieldText(x, ALBUM_FIELDS[1]) == OrEmpty(x.artist);
    assert FieldText(x, ALBUM_FIELDS[2]) == OrEmpty(x.title);
  }

  lemma ArtistFieldsMatch(x: MediaItem, q: string)
    ensures AnyFieldContains(x, ARTIST_FIELDS, q) <==> ArtistMatches(x, q)
  {
    assert FieldText(x, ARTIST_FIELDS[0]) == OrEmpty(x.artist);
    assert FieldText(x, ARTIST_FIELDS[1]) == OrEmpty(x.title);
  }

  /** SongFragment: title, artist or album. */
  function SongSearch(songs: seq<MediaItem>, query: string): (r: seq<MediaItem>)
    ensures IsBlank(query) ==> r == songs
    ensures !IsBlank(query) ==> IsSubsequence(r, songs)
    ensures !IsBlank(query) ==> forall x :: x in r <==> x in songs && SongMatches(x, Trim(query))
    ensures !IsBlank(query) ==>
      forall x :: multiset(r)[x] == if SongMatches(x, Trim(query)) then multiset(songs)[x] else 0
  {
    TrimEmptyIffBlank(query);
    assert forall x :: AnyFieldContains(x, SONG_FIELDS, Trim(query)) <==> SongMatches(x, Trim(query)) by {
      forall x ensures AnyFieldContains(x, SONG_FIELDS, Trim(query)) <==> SongMatches(x, Trim(query)) {
        SongFieldsMatch(x, Trim(query));
      }
    }
    Search(songs, SONG_FIELDS, query)
  }

  /** AlbumsFragment: album, artist or title; its result then feeds the album grid. */
  function AlbumSearch(songs: seq<MediaItem>, query: string): (r: seq<MediaItem>)
    ensures IsBlank(query) ==> r == songs
    ensures !IsBlank(query) ==> IsSubsequence(r, songs)
    ensures !IsBlank(query) ==> forall x :: x in r <==> x in songs && AlbumMatches(x, Trim(query))
    ensures !IsBlank(query) ==>
      forall x :: multiset(r)[x] == if AlbumMatches(x, Trim(query)) then multiset(songs)[x] else 0
  {
    TrimEmptyIffBlank(query);
    assert forall x :: AnyFieldContains(x, ALBUM_FIELDS, Trim(query)) <==> AlbumMatches(x, Trim(query)) by {
      forall x ensures AnyFieldContains(x, ALBUM_FIELDS, Trim(query)) <==> AlbumMatches(x, Trim(query)) {
        AlbumFieldsMatch(x, Trim(query));
      }
    }
    Search(songs, ALBUM_FIELDS, query)
  }

  /** ArtistsFragment: artist or title only; the album is never searched. */
  function ArtistSearch(songs: seq<MediaItem>, query: string): (r: seq<MediaItem>)
    ensures IsBlank(query) ==> r == songs
    ensures !IsBlank(query) ==> IsSubsequence(r, songs)
    ensures !IsBlank(query) ==> forall x :: x in r <==> x in songs && ArtistMatches(x, Trim(query))
    ensures !IsBlank(query) ==>
      forall x :: multiset(r)[x] == if ArtistMatches(x, Trim(query)) then multiset(songs)[x] else 0
  {
    TrimEmptyIffBlank(query);
    assert forall x :: AnyFieldContains(x, ARTIST_FIELDS, Trim(query)) <==> ArtistMatches(x, Trim(query)) by {
      forall x ensures AnyFieldContains(x, ARTIST_FIELDS, Trim(query)) <==> ArtistMatches(x, Trim(query)) {
        ArtistFieldsMatch(x, Trim(query));
      }
    }
    Search(songs, ARTIST_FIELDS, query)
  }

  /** Blank characters around the query never change what a search shows. */
  lemma SearchIgnoresPadding(songs: seq<MediaItem>, fields: seq<Field>, a: string, query: string, b: string)
    requires IsBlank(a) && IsBlank(b)
    ensures Search(songs, fields, a + query + b) == Search(songs, fields, query)
  {
    TrimIgnoresPadding(a, query, b);
  }

  /**
   * The Songs and Albums screens test the same three fields in a different
   * order, so they keep exactly the same songs.
   */
  lemma SongAndAlbumSearchAgree(songs: seq<MediaItem>, query: string)
    ensures SongSearch(songs, query) == AlbumSearch(songs, query)
  {
    var q := Trim(query);
    if q != [] {
      forall x | x in songs ensures Matches(x, (SONG_FIELDS, q)) <==> Matches(x, (ALBUM_FIELDS, q)) {
        SongFieldsMatch(x, q);
        AlbumFieldsMatch(x, q);
      }
      FilterByCongruent(songs, Matches, (SONG_FIELDS, q), Matches, (ALBUM_FIELDS, q));
    }
  }

  /** The Artists screen searches fewer fields, so it never shows more than the Songs screen. */
  lemma ArtistSearchWithinSongSearch(songs: seq<MediaItem>, query: string)
    ensures forall x :: x in ArtistSearch(songs, query) ==> x in SongSearch(songs, query)
  {
  }
}

=== FILE: listenable_scroll.dfy ===
/**
 * The scroll view that reports what the user is doing to it: touches and
 * flings become `UserAction`s in a state flow, and a collector turns runs of
 * actions into one "started" and one "ended" callback.
 *
 * The flow is a `StateFlow`: emitting the value it already holds is not
 * delivered. Time is abstract: the 100 ms polling of a fling is modelled by
 * the sampled `scrollY` values it reads, or by a `ScrollStopped` event.
 */
module ListenableScroll {
  import opened Wrappers

  /** `UserAction`; its `None` is `NoAction` here, to keep it apart from an absent value. */
  datatype UserAction = NoAction | Drag | Fling

  datatype TouchAction = Down | Move | Up | Cancel | OtherAction

  /** `onInterceptTouchEvent`: the new remembered y, and what is emitted. */
  function InterceptTouch(lastTouchY: real, action: TouchAction, y: real): (r: (real, Option<UserAction>))
    ensures action == Down ==> r == (y, Some(NoAction))
    ensures action == Move ==> r.0 == lastTouchY && (r.1 == Some(Drag) <==> y != lastTouchY) && (r.1.None? <==> y == lastTouchY)
    ensures action == Up || action == Cancel ==> r == (lastTouchY, Some(NoAction))
    ensures action == OtherAction ==> r == (lastTouchY, None)
  {
    match action
    case Down => (y, Some(NoAction))
    case Move => (lastTouchY, if y - lastTouchY != 0.0 then Some(Drag) else None)
    case Up => (lastTouchY, Some(NoAction))
    case Cancel => (lastTouchY, Some(NoAction))
    case OtherAction => (lastTouchY, None)
  }

  /** `fling`: always emits `Fling`. */
  function OnFling(): (a: UserAction)
    ensures a == Fling
  {
    Fling
  }

  /** `StateFlow.tryEmit`: the value becomes `a`; the collector hears it only if it changed. */
  function Emit(value: UserAction, a: UserAction): (r: (UserAction, Option<UserAction>))
    ensures r.0 == a
    ensures r.1 == if a == value then None else Some(a)
  {
    (a, if a == value then None else Some(a))
  }

  datatype Callback = ActionStart | ActionEnd

  /**
   * The collector's handling of one delivered value: `Drag` and `Fling` start
   * an action unless one is under way; `NoAction` always ends the action and
   * re-arms the start, even if nothing had started.
   */
  function Collect(isStarted: bool, a: UserAction): (r: (bool, seq<Callback>))
    ensures a == NoAction ==> r == (false, [ActionEnd])
    ensures a != NoAction && isStarted ==> r == (true, [])
    ensures a != NoAction && !isStarted ==> r == (true, [ActionStart])
  {
    if a == NoAction then (false, [ActionEnd])
    else if isStarted then (true, [])
    else (true, [ActionStart])
  }

  /** The scroll positions sampled after a fling: the one before the first sample is `startY`. */
  function Previous(startY: int, samples: seq<int>, i: int): int
    requires 0 <= i < |samples|
  {
    if i == 0 then startY else samples[i - 1]
  }

  /** The polling loop after a fling stops at the first sample equal to the one before it. */
  predicate StopsAt(startY: int, samples: seq<int>, i: int)
    requires 0 <= i < |samples|
  {
    samples[i] == Previous(startY, samples, i)
  }

  /**
   * The polling loop of a fling: the number of samples read before the
   * scroll is found to have stopped, or nothing if it is still moving at the
   * last sample.
   */
  method WaitForScrollEnd(startY: int, samples: seq<int>) returns (k: Option<nat>)
    ensures k.Some? ==> 1 <= k.value <= |samples| && StopsAt(startY, samples, k.value - 1)
    ensures k.Some? ==> forall i :: 0 <= i < k.value - 1 ==> !StopsAt(startY, samples, i)
    ensures k.None? ==> forall i :: 0 <= i < |samples| ==> !StopsAt(startY, samples, i)
  {
    var lastY := startY;
    var n := 0;
    while n < |samples|
      invariant 0 <= n <= |samples|
      invariant lastY == if n == 0 then startY else samples[n - 1]
      invariant forall i :: 0 <= i < n ==> !StopsAt(startY, samples, i)
    {
      var newY := samples[n];
      var isScrollEnd := lastY == newY;
      lastY := newY;
      n := n + 1;
      if isScrollEnd {
        return Some(n);
      }
    }
    return None;
  }

  // ---------------------------------------------------------------------
  // The whole view: touches, flings and the collector together
  // ---------------------------------------------------------------------

  datatype Sys = Sys(value: UserAction, lastTouchY: real, isStarted: bool)

  datatype Event =
    | Touch(action: TouchAction, y: real)
    | FlingCalled
    | ScrollStopped   // the fling's polling found two equal samples

  /** Delivers an emission, if any, to the collector. */
  function Offer(s: Sys, a: Option<UserAction>): (r: (Sys, seq<Callback>))
    ensures a.Some? ==> r.0.value == a.value
    ensures a.None? ==> r == (s, [])
    ensures |r.1| <= 1
  {
    if a.None? then (s, [])
    else
      var e := Emit(s.value, a.value);
      if e.1.None? then (s.(value := e.0), [])
      else
        var c := Collect(s.isStarted, e.1.value);
        (s.(value := e.0, isStarted := c.0), c.1)
  }

  /**
   * One event. A stopped fling emits `NoAction` only while `Fling` is still the
   * latest value: any newer value has cancelled the polling (`collectLatest`).
   */
  function Step(s: Sys, e: Event): (r: (Sys, seq<Callback>))
    ensures |r.1| <= 1
  {
    match e
    case Touch(action, y) =>
      var t := InterceptTouch(s.lastTouchY, action, y);
      Offer(s.(lastTouchY := t.0), t.1)
    case FlingCalled => Offer(s, Some(OnFling()))
    case ScrollStopped => if s.value == Fling then Offer(s, Some(NoAction)) else (s, [])
  }

  function Run(s: Sys, es: seq<Event>): (r: (Sys, seq<Callback>))
    decreases |es|
  {
    if es == [] then (s, [])
    else
      var a := Step(s, es[0]);
      var b := Run(a.0, es[1..]);
      (b.0, a.1 + b.1)
  }

  /** No two starts without an end between them, given whether an action is under way at the outset. */
  predicate StartsAlternate(started: bool, cbs: seq<Callback>)
    decreases |cbs|
  {
    if cbs == [] then true
    else (cbs[0] == ActionStart ==> !started) && StartsAlternate(cbs[0] == ActionStart, cbs[1..])
  }

  /** The collector's flag tracks the callbacks: it is set exactly while the last callback was a start. */
  predicate Tracks(s: Sys) {
    s.isStarted <==> s.value != NoAction
  }

  lemma StepTracks(s: Sys, e: Event)
    requires Tracks(s)
    ensures Tracks(Step(s, e).0)
    ensures StartsAlternate(s.isStarted, Step(s, e).1)
    ensures Step(s, e).1 == [] ==> Step(s, e).0.isStarted == s.isStarted
    ensures Step(s, e).1 != [] ==> Step(s, e).0.isStarted == (Step(s, e).1[0] == ActionStart)
  {
  }

  /** `onActionStart` fires at most once per run of drags and flings, from a collector in step with its flow. */
  lemma {:induction false} StartsNeverRepeat(s: Sys, es: seq<Event>)
    requires Tracks(s)
    ensures StartsAlternate(s.isStarted, Run(s, es).1)
    decreases |es|
  {
    if es != [] {
      var a := Step(s, es[0]);
      StepTracks(s, es[0]);
      StartsNeverRepeat(a.0, es[1..]);
      var b := Run(a.0, es[1..]);
      assert Run(s, es).1 == a.1 + b.1;
      if a.1 != [] {
        assert |a.1| == 1;
        assert (a.1 + b.1)[0] == a.1[0];
        assert (a.1 + b.1)[1..] == b.1;
      } else {
        assert a.1 + b.1 == b.1;
      }
    }
  }

  /** The flow starts at `NoAction`, which the collector hears first: it ends an action that never started. */
  function StartCollecting(): (r: (Sys, seq<Callback>))
    ensures r.1 == [ActionEnd] && Tracks(r.0) && !r.0.isStarted
  {
    (Sys(NoAction, 0.0, false), Collect(false, NoAction).1)
  }

  /** A touch that lands and lifts without moving ends an action each time it reaches the collector, and never starts one. */
  lemma TapNeverStarts(s: Sys, y: real)
    requires Tracks(s)
    ensures var r := Run(s, [Touch(Down, y), Touch(Move, y), Touch(Up, y)]);
      ActionStart !in r.1
  {
    var es := [Touch(Down, y), Touch(Move, y), Touch(Up, y)];
    var a := Step(s, es[0]);
    var b := Step(a.0, es[1]);
    var c := Step(b.0, es[2]);
    assert es[1..][1..][1..] == [];
    assert Run(b.0, es[1..][1..]).1 == c.1;
    assert Run(a.0, es[1..]).1 == b.1 + c.1;
    assert Run(s, es).1 == a.1 + (b.1 + c.1);
    assert ActionStart !in a.1 && b.1 == [] && ActionStart !in c.1;
  }
}

=== FILE: lyrics.dfy ===
/**
 * The lyrics screen's lookup of the line being sung: the last line whose
 * timestamp is at or before the playback position, and the first line when
 * none is. Timestamps and positions are milliseconds.
 */
module Lyrics {

  datatype LyricsLine = LyricsLine(timestamp: int, text: string)

  datatype Lyrics = Lyrics(lines: seq<LyricsLine>)

  /** The built-in sample: twelve lines five seconds apart, from 0 ms. */
  const SAMPLE_LYRICS: Lyrics := Lyrics([
    LyricsLine(0, "For the puppets on TV"),
    LyricsLine(5_000, "There is comfort in the strings"),
    LyricsLine(10_000, "If you're gonna control me"),
    LyricsLine(15_000, "At least make it interesting theatrically"),
    LyricsLine(20_000, "How does it feel to be free?"),
    LyricsLine(25_000, "Why don't you ask yourself?"),
    LyricsLine(30_000, "The gate opened for me"),
    LyricsLine(35_000, "So I leaped"),
    LyricsLine(40_000, "Run and through this forest"),
    LyricsLine(45_000, "With an arrow from the brother sun"),
    LyricsLine(50_000, "Trees, weeds, leaves, and flowers"),
    LyricsLine(55_000, "Feel we the breathe of the four season")
  ])

  /** Line `i` has been reached at `position`. */
  predicate Reached(lines: seq<LyricsLine>, i: int, position: int)
    requires 0 <= i < |lines|
  {
    lines[i].timestamp <= position
  }

  /**
   * `indexOfLast` over the first `n` lines: the last index below `n` of a
   * reached line, or -1 when there is none.
   */
  function LastReached(lines: seq<LyricsLine>, position: int, n: int): (r: int)
    requires 0 <= n <= |lines|
    ensures -1 <= r < n
    ensures r >= 0 ==> Reached(lines, r, position)
    ensures forall i :: r < i < n ==> !Reached(lines, i, position)
    ensures r == -1 <==> forall i :: 0 <= i < n ==> !Reached(lines, i, position)
    decreases n
  {
    if n == 0 then -1
    else if Reached(lines, n - 1, position) then n - 1
    else LastReached(lines, position, n - 1)
  }

  /** `getCurrentLyricsLineIndex`: the last reached line, or 0 when no line is reached (empty lyrics included). */
  function CurrentLyricsLineIndex(l: Lyrics, position: int): (r: int)
    ensures 0 <= r && (l.lines != [] ==> r < |l.lines|)
    ensures (exists i :: 0 <= i < |l.lines| && Reached(l.lines, i, position)) ==>
      Reached(l.lines, r, position) && forall i :: r < i < |l.lines| ==> !Reached(l.lines, i, position)
    ensures (forall i :: 0 <= i < |l.lines| ==> !Reached(l.lines, i, position)) ==> r == 0
  {
    var line := LastReached(l.lines, position, |l.lines|);
    if line != -1 then line else 0
  }

  /**
   * The same lookup as `indexOfLast` performs it: a scan from the last line
   * towards the first, stopping at the first reached line it meets.
   */
  method FindCurrentLine(l: Lyrics, position: int) returns (r: int)
    ensures r == CurrentLyricsLineIndex(l, position)
  {
    var i := |l.lines|;
    while i > 0
      invariant 0 <= i <= |l.lines|
      invariant forall k :: i <= k < |l.lines| ==> !Reached(l.lines, k, position)
    {
      if l.lines[i - 1].timestamp <= position {
        LastIsUnique(l.lines, position, i - 1);
        return i - 1;
      }
      i := i - 1;
    }
    LastIsUnique(l.lines, position, -1);
    return 0;
  }

  /** The last reached line is determined by its two defining facts. */
  lemma LastIsUnique(lines: seq<LyricsLine>, position: int, j: int)
    requires -1 <= j < |lines|
    requires j >= 0 ==> Reached(lines, j, position)
    requires forall i :: j < i < |lines| ==> !Reached(lines, i, position)
    ensures LastReached(lines, position, |lines|) == j
  {
  }

  /** A later position never moves the current line back, whatever order the timestamps are in. */
  lemma CurrentIndexMonotone(l: Lyrics, p1: int, p2: int)
    requires p1 <= p2
    ensures CurrentLyricsLineIndex(l, p1) <= CurrentLyricsLineIndex(l, p2)
  {
    var r1 := CurrentLyricsLineIndex(l, p1);
    if exists i :: 0 <= i < |l.lines| && Reached(l.lines, i, p1) {
      assert Reached(l.lines, r1, p2);
    }
  }

  /** Every line of the sample starts 5000 ms after the one before it. */
  lemma SampleTimestamps(i: int)
    requires 0 <= i < |SAMPLE_LYRICS.lines|
    ensures |SAMPLE_LYRICS.lines| == 12
    ensures SAMPLE_LYRICS.lines[i].timestamp == 5000 * i
  {
  }

  /** On the sample, the current line is the position's five-second slot, held at the last line once the lyrics run out. */
  lemma SampleCurrentLine(position: int)
    ensures position < 0 ==> CurrentLyricsLineIndex(SAMPLE_LYRICS, position) == 0
    ensures position >= 0 ==>
      CurrentLyricsLineIndex(SAMPLE_LYRICS, position) == if position / 5000 < 11 then position / 5000 else 11
  {
    var lines := SAMPLE_LYRICS.lines;
    var r := CurrentLyricsLineIndex(SAMPLE_LYRICS, position);
    SampleTimestamps(0);
    if position < 0 {
      forall i | 0 <= i < |lines|
        ensures !Reached(lines, i, position)
      {
        SampleTimestamps(i);
      }
    } else {
      var k := if position / 5000 < 11 then position / 5000 else 11;
      SampleTimestamps(k);
      assert Reached(lines, k, position);
      forall i | k < i < |lines|
        ensures !Reached(lines, i, position)
      {
        SampleTimestamps(i);
      }
      SampleTimestamps(r);
      assert r <= k;
    }
  }
}

=== FILE: media.dfy ===
/**
 * The parts of a Media3 `MediaItem` that the browsing screens read, and the
 * "safe" album/artist names every screen groups and filters by.
 */
module Media {
  import opened Wrappers
  import opened Text

  /**
   * `mediaId`, `localConfiguration?.uri`, the `mediaMetadata` fields in use,
   * whether the `userRating` is a set `HeartRating`, and `hashCode()`.
   */
  datatype MediaItem = MediaItem(
    mediaId: string,
    localUri: Option<string>,
    title: Option<string>,
    artist: Option<string>,
    albumTitle: Option<string>,
    trackNumber: Option<int>,
    addDate: Option<int>,
    genre: Option<string>,
    releaseYear: Option<int>,
    description: Option<string>,
    artworkUri: Option<string>,
    isHeart: bool,
    hashCode: int)

  /** Which kind of library playlist: a stored one, or one of the two dynamic ones. */
  datatype PlaylistKind = Stored | Favorite | RecentlyAdded

  /** A library playlist: its MediaStore id, title, songs and backing file path, each as the library reports it. */
  datatype Playlist = Playlist(kind: PlaylistKind, id: Option<int>, title: Option<string>, songs: seq<MediaItem>, path: Option<string>)

  const UNKNOWN_ALBUM: string := "(Unknown Album)"
  const UNKNOWN_ARTIST: string := "(Unknown Artist)"

  /** `field?.toString()?.trim().orEmpty()` */
  function TrimmedOrEmpty(v: Option<string>): string {
    if v.Some? then Trim(v.value) else []
  }

  /** `field?.toString().orEmpty()` */
  function OrEmpty(v: Option<string>): string {
    v.GetOr([])
  }

  /** The trimmed name, or `fallback` when it is missing or blank. */
  function SafeName(v: Option<string>, fallback: string): (r: string)
    requires fallback != []
    ensures r != []
    ensures v.Some? && !IsBlank(v.value) ==> r == Trim(v.value)
    ensures v.None? || IsBlank(v.value) ==> r == fallback
  {
    var t := TrimmedOrEmpty(v);
    assert v.Some? ==> (t == [] <==> IsBlank(v.value)) by {
      if v.Some? { TrimEmptyIffBlank(v.value); }
    }
    if t == [] then fallback else t
  }

  /** The album name a song is shown under: trimmed, or "(Unknown Album)". */
  function SafeAlbum(song: MediaItem): (r: string)
    ensures r != []
  {
    SafeName(song.albumTitle, UNKNOWN_ALBUM)
  }

  /** The artist name a song is shown under: trimmed, or "(Unknown Artist)". */
  function SafeArtist(song: MediaItem): (r: string)
    ensures r != []
  {
    SafeName(song.artist, UNKNOWN_ARTIST)
  }

  /** Surrounding whitespace in a tag never moves a song to another album or artist. */
  lemma SafeNameIgnoresPadding(a: string, v: string, b: string, fallback: string)
    requires fallback != [] && IsBlank(a) && IsBlank(b)
    ensures SafeName(Some(a + v + b), fallback) == SafeName(Some(v), fallback)
  {
    TrimIgnoresPadding(a, v, b);
    TrimEmptyIffBlank(a + v + b);
    TrimEmptyIffBlank(v);
  }
}

=== FILE: navigation_bar.dfy ===
/**
 * The large-title navigation bar: how tall it measures, how it collapses as
 * the list under it scrolls, and the press tracking of its return button.
 */
module NavigationBar {
  import opened Wrappers
  import opened Numbers

  // ---------------------------------------------------------------------
  // Measuring and layout
  // ---------------------------------------------------------------------

  /** `View.MeasureSpec` modes. */
  datatype MeasureMode = EXACTLY | AT_MOST | UNSPECIFIED

  /** `onMeasure`'s height: the offered size, at most it, or what the bar wants. */
  function MeasuredHeight(mode: MeasureMode, size: int, desired: int): (h: int)
    ensures mode == EXACTLY ==> h == size
    ensures mode == AT_MOST ==> h <= size && h <= desired && (h == size || h == desired)
    ensures mode == UNSPECIFIED ==> h == desired
  {
    match mode
    case EXACTLY => size
    case AT_MOST => if desired > size then size else desired
    case UNSPECIFIED => desired
  }

  /** Where the single child is placed. */
  datatype ChildRect = ChildRect(left: int, top: int, right: int, bottom: int)

  /**
   * `onLayout`: with exactly one child, the child spans the width inside
   * padding and margins and starts `headerHeight` plus its top margin below
   * the top; with any other number of children nothing is laid out.
   * `headerHeight` is the sum of everything else the source adds to the top
   * margin, in pixels: the top padding, the expanded title area with its
   * padding and return-button row (truncated to whole pixels), and the
   * collapsed child's top padding.
   */
  function OnLayout(childCount: int, width: int, paddingLeft: int, paddingRight: int,
                    marginStart: int, marginEnd: int, marginTop: int,
                    headerHeight: int, childHeight: int): (r: Option<ChildRect>)
    ensures childCount != 1 <==> r.None?
    ensures r.Some? ==>
      r.value.left == paddingLeft + marginStart && r.value.right == width - paddingRight - marginEnd
      && r.value.top == headerHeight + marginTop && r.value.bottom - r.value.top == childHeight
  {
    if childCount != 1 then None
    else Some(ChildRect(paddingLeft + marginStart, headerHeight + marginTop, width - paddingRight - marginEnd,
                   headerHeight + marginTop + childHeight))
  }

  // ---------------------------------------------------------------------
  // Collapsing with the list
  // ---------------------------------------------------------------------

  /** What the scroll listener keeps. */
  datatype Collapse = Collapse(scrollOffset: int, translationY: real, collapseProgress: real, renderShowProgress: real)

  predicate Clamped(c: Collapse) {
    c.scrollOffset >= 0 && 0.0 <= c.collapseProgress <= 1.0 && 0.0 <= c.renderShowProgress <= 1.0
  }

  /** `coerceIn(0f, 1f)`. */
  function Unit(x: real): (r: real)
    ensures 0.0 <= r <= 1.0
    ensures 0.0 <= x <= 1.0 ==> r == x
  {
    CoerceInReal(x, 0.0, 1.0)
  }

  /**
   * `onScrolled` for a vertical step `dy`. The offset accumulates in an `Int`
   * (wrapping) and never goes below 0. The bar moves up with the offset but
   * no further than `maxOffset`; when it actually moves, the collapse
   * progress becomes `offset / maxOffset` clamped, or 0 when `maxOffset`
   * is not positive. The second-stage progress (`secondStage`, an inverse
   * interpolation computed elsewhere) is stored clamped to `[0, 1]`.
   */
  function OnScrolled(c: Collapse, dy: int, maxOffset: real, secondStage: real): (r: Collapse)
    requires IsInt(c.scrollOffset) && IsInt(dy)
    ensures r.scrollOffset >= 0 && IsInt(r.scrollOffset)
    ensures IsInt(c.scrollOffset + dy) ==> r.scrollOffset == if c.scrollOffset + dy < 0 then 0 else c.scrollOffset + dy
    ensures r.translationY == if -(r.scrollOffset as real) < -maxOffset then -maxOffset else -(r.scrollOffset as real)
    ensures r.translationY == c.translationY ==> r.collapseProgress == c.collapseProgress
    ensures r.translationY != c.translationY && maxOffset <= 0.0 ==> r.collapseProgress == 0.0
    ensures r.translationY != c.translationY && maxOffset > 0.0 ==>
      r.collapseProgress == Unit(r.scrollOffset as real / maxOffset)
    ensures r.renderShowProgress == Unit(secondStage)
    ensures Clamped(c) ==> Clamped(r)
  {
    var sum := WrapInt(c.scrollOffset + dy);
    var offset := if sum < 0 then 0 else sum;
    var dst := if -(offset as real) < -maxOffset then -maxOffset else -(offset as real);
    var progress :=
      if dst == c.translationY then c.collapseProgress
      else if maxOffset > 0.0 then Unit(offset as real / maxOffset)
      else 0.0;
    Collapse(offset, dst, progress, Unit(secondStage))
  }

  /** The bar never moves by more than the collapsible height, nor ever downwards. */
  lemma TranslationBounded(c: Collapse, dy: int, maxOffset: real, secondStage: real)
    requires IsInt(c.scrollOffset) && IsInt(dy) && maxOffset >= 0.0
    ensures var r := OnScrolled(c, dy, maxOffset, secondStage);
      -maxOffset <= r.translationY <= 0.0
  {
  }

  /** A scroll step: the list's `dy`, with the two geometry inputs of that moment. */
  datatype Step = Step(dy: int, maxOffset: real, secondStage: real)

  predicate IntSteps(ss: seq<Step>) { forall i :: 0 <= i < |ss| ==> IsInt(ss[i].dy) }

  function Scroll(c: Collapse, ss: seq<Step>): Collapse
    requires IsInt(c.scrollOffset) && IntSteps(ss)
    decreases |ss|
  {
    if ss == [] then c
    else
      assert IsInt(ss[0].dy);
      Scroll(OnScrolled(c, ss[0].dy, ss[0].maxOffset, ss[0].secondStage), ss[1..])
  }

  /** However the list scrolls, the offset stays non-negative and both progresses stay in `[0, 1]`. */
  lemma {:induction false} ScrollKeepsClamped(c: Collapse, ss: seq<Step>)
    requires IsInt(c.scrollOffset) && IntSteps(ss) && Clamped(c)
    ensures Clamped(Scroll(c, ss))
    decreases |ss|
  {
    if ss != [] {
      assert IsInt(ss[0].dy);
      var d := OnScrolled(c, ss[0].dy, ss[0].maxOffset, ss[0].secondStage);
      assert Clamped(d) && IsInt(d.scrollOffset);
      ScrollKeepsClamped(d, ss[1..]);
    }
  }

  // ---------------------------------------------------------------------
  // The return button
  // ---------------------------------------------------------------------

  /** A `RectF`. */
  datatype Rect = Rect(left: real, top: real, right: real, bottom: real)

  /** `RectF.contains`: a non-empty rectangle, left and top edges included, right and bottom excluded. */
  predicate Contains(r: Rect, x: real, y: real) {
    r.left < r.right && r.top < r.bottom && r.left <= x < r.right && r.top <= y < r.bottom
  }

  /**
   * `updateReturnButtonBounds`: the chevron and its text padded by
   * `hitPadding` on every side, cut to the bar's own `[0, width] × [0, height]`.
   */
  function ReturnButtonBounds(chevronLeft: real, chevronTop: real, chevronHeight: real, textRight: real,
                              hitPadding: real, width: real, height: real): (r: Rect)
    ensures r.left >= 0.0 && r.top >= 0.0 && r.right <= width && r.bottom <= height
    ensures chevronLeft - hitPadding >= 0.0 ==> r.left == chevronLeft - hitPadding
    ensures textRight + hitPadding <= width ==> r.right == textRight + hitPadding
    ensures chevronLeft - hitPadding < 0.0 ==> r.left == 0.0
    ensures textRight + hitPadding > width ==> r.right == width
    ensures chevronTop - hitPadding >= 0.0 ==> r.top == chevronTop - hitPadding
    ensures chevronTop - hitPadding < 0.0 ==> r.top == 0.0
    ensures chevronTop + chevronHeight + hitPadding <= height ==> r.bottom == chevronTop + chevronHeight + hitPadding
    ensures chevronTop + chevronHeight + hitPadding > height ==> r.bottom == height
  {
    Rect(if chevronLeft - hitPadding < 0.0 then 0.0 else chevronLeft - hitPadding,
         if chevronTop - hitPadding < 0.0 then 0.0 else chevronTop - hitPadding,
         if textRight + hitPadding > width then width else textRight + hitPadding,
         if chevronTop + chevronHeight + hitPadding > height then height else chevronTop + chevronHeight + hitPadding)
  }

  /** Every point that hits the return button lies on the bar. */
  lemma HitsLieOnBar(chevronLeft: real, chevronTop: real, chevronHeight: real, textRight: real,
                     hitPadding: real, width: real, height: real, x: real, y: real)
    requires Contains(ReturnButtonBounds(chevronLeft, chevronTop, chevronHeight, textRight, hitPadding, width, height), x, y)
    ensures 0.0 <= x < width && 0.0 <= y < height
  {
  }

  datatype TouchAction = Down | Up | Cancel | Move

  /** How a touch was answered: a value of our own, or the view's default handling. */
  datatype Answer = Handled(value: bool) | Default

  /** The result of one touch: whether the button is now pressed, the answer, and whether the click fired. */
  datatype Press = Press(pressed: bool, answer: Answer, clicked: bool)

  /**
   * `onTouchEvent` with the return button drawn: DOWN presses iff inside,
   * UP clicks iff pressed and still inside and always releases, CANCEL
   * releases. Without a return button everything is default handling.
   */
  function OnTouchEvent(hasReturnButton: bool, pressed: bool, action: TouchAction, inside: bool): (r: Press)
    ensures !hasReturnButton ==> r == Press(pressed, Default, false)
    ensures hasReturnButton && action == Down ==> r == Press(inside, Handled(inside), false)
    ensures hasReturnButton && action == Up ==> !r.pressed && r.answer == Handled(true) && (r.clicked <==> pressed && inside)
    ensures hasReturnButton && action == Cancel ==> r == Press(false, Handled(false), false)
    ensures action == Move ==> r == Press(pressed, Default, false)
  {
    if !hasReturnButton then Press(pressed, Default, false)
    else match action
      case Down => Press(inside, Handled(inside), false)
      case Up => Press(false, Handled(true), pressed && inside)
      case Cancel => Press(false, Handled(false), false)
      case Move => Press(pressed, Default, false)
  }

  /** `onInterceptTouchEvent`: a DOWN on the button is taken from the child and presses it. */
  function OnInterceptTouchEvent(hasReturnButton: bool, pressed: bool, action: TouchAction, inside: bool): (r: Press)
    ensures hasReturnButton && action == Down && inside ==> r == Press(true, Handled(true), false)
    ensures !(hasReturnButton && action == Down && inside) ==> r == Press(pressed, Default, false)
  {
    if hasReturnButton && action == Down && inside then Press(true, Handled(true), false)
    else Press(pressed, Default, false)
  }

  /** One touch reaching the bar, with whether it falls on the button. */
  datatype Touch = Touch(action: TouchAction, inside: bool)

  function Clicks(hasReturnButton: bool, pressed: bool, ts: seq<Touch>): nat
    decreases |ts|
  {
    if ts == [] then 0
    else
      var r := OnTouchEvent(hasReturnButton, pressed, ts[0].action, ts[0].inside);
      (if r.clicked then 1 else 0) + Clicks(hasReturnButton, r.pressed, ts[1..])
  }

  /** Each click needs its own press: a gesture has no more clicks than DOWNs that landed on the button. */
  function InsideDowns(ts: seq<Touch>): nat
    decreases |ts|
  {
    if ts == [] then 0 else (if ts[0].action == Down && ts[0].inside then 1 else 0) + InsideDowns(ts[1..])
  }

  lemma {:induction false} ClicksNeedPresses(hasReturnButton: bool, pressed: bool, ts: seq<Touch>)
    ensures Clicks(hasReturnButton, pressed, ts) + (if pressed then 0 else 1) <= InsideDowns(ts) + 1
    decreases |ts|
  {
    if ts != [] {
      var r := OnTouchEvent(hasReturnButton, pressed, ts[0].action, ts[0].inside);
      ClicksNeedPresses(hasReturnButton, r.pressed, ts[1..]);
    }
  }
}

=== FILE: numbers.dfy ===
/**
 * The fixed-width integers of the JVM (Kotlin `Int` and `Long`) on top of
 * Dafny's unbounded `int`, with their decimal printing (`toString()`) and
 * Kotlin's `String.toLongOrNull()`.
 */
module Numbers {
  import opened Wrappers

  const INT_MIN: int := -0x8000_0000
  const INT_MAX: int := 0x7FFF_FFFF
  const LONG_MIN: int := -0x8000_0000_0000_0000
  const LONG_MAX: int := 0x7FFF_FFFF_FFFF_FFFF
  const LONG_MODULUS: int := 0x1_0000_0000_0000_0000
  const INT_MODULUS: int := 0x1_0000_0000

  predicate IsInt(n: int) { INT_MIN <= n <= INT_MAX }
  predicate IsLong(n: int) { LONG_MIN <= n <= LONG_MAX }

  /** Two's-complement wrap-around of a mathematical result into a `Long`. */
  function WrapLong(n: int): (r: int)
    ensures IsLong(r)
    ensures (r - n) % LONG_MODULUS == 0
    ensures IsLong(n) ==> r == n
  {
    var m := n % LONG_MODULUS;
    if m > LONG_MAX then m - LONG_MODULUS else m
  }

  /** Two's-complement wrap-around of a mathematical result into an `Int`. */
  function WrapInt(n: int): (r: int)
    ensures IsInt(r)
    ensures (r - n) % INT_MODULUS == 0
    ensures IsInt(n) ==> r == n
  {
    var m := n % INT_MODULUS;
    if m > INT_MAX then m - INT_MODULUS else m
  }

  /** `Long.absoluteValue` (`Math.abs`): the negation of `Long.MIN_VALUE` overflows back to itself. */
  function AbsLong(n: int): (r: int)
    requires IsLong(n)
    ensures IsLong(r)
    ensures n != LONG_MIN ==> r >= 0 && (r == n || r == -n)
    ensures n == LONG_MIN ==> r < 0
  {
    WrapLong(if n < 0 then -n else n)
  }

  /**
   * Kotlin's `coerceIn(lo, hi)`. Kotlin throws when `lo > hi`, so callers
   * must establish `lo <= hi` themselves.
   */
  function CoerceIn(v: int, lo: int, hi: int): (r: int)
    requires lo <= hi
    ensures lo <= r <= hi
    ensures lo <= v <= hi ==> r == v
    ensures v < lo ==> r == lo
    ensures v > hi ==> r == hi
  {
    if v < lo then lo else if v > hi then hi else v
  }

  /** `coerceIn` on `Float` values, modelled on reals. */
  function CoerceInReal(v: real, lo: real, hi: real): (r: real)
    requires lo <= hi
    ensures lo <= r <= hi
    ensures lo <= v <= hi ==> r == v
    ensures v < lo ==> r == lo
    ensures v > hi ==> r == hi
  {
    if v < lo then lo else if v > hi then hi else v
  }

  /** Kotlin's `Float.toInt()`/`toLong()` on a finite value: truncation toward zero. */
  function Truncate(x: real): (r: int)
    ensures x >= 0.0 ==> r as real <= x < r as real + 1.0
    ensures x < 0.0 ==> r as real - 1.0 < x <= r as real
  {
    if x >= 0.0 then x.Floor else -((-x).Floor)
  }

  // ---------------------------------------------------------------------
  // Decimal text
  // ---------------------------------------------------------------------

  predicate IsDigit(c: char) { '0' <= c <= '9' }

  predicate AllDigits(s: string) { forall i :: 0 <= i < |s| ==> IsDigit(s[i]) }

  function DigitChar(d: nat): (c: char)
    requires d < 10
    ensures IsDigit(c)
  {
    (48 + d) as char
  }

  function DigitValue(c: char): (d: nat)
    requires IsDigit(c)
    ensures d < 10
  {
    c as int - 48
  }

  /** Decimal digits of a natural number, most significant first, no leading zeros. */
  function NatDigits(n: nat): (s: string)
    ensures |s| >= 1 && AllDigits(s)
    decreases n
  {
    if n < 10 then [DigitChar(n)] else NatDigits(n / 10) + [DigitChar(n % 10)]
  }

  /** The number a non-empty run of decimal digits denotes. */
  function DigitsValue(s: string): (n: nat)
    requires AllDigits(s)
    decreases |s|
  {
    if |s| == 0 then 0 else DigitsValue(s[..|s| - 1]) * 10 + DigitValue(s[|s| - 1])
  }

  /** `Int.toString()` / `Long.toString()`: an optional minus sign, then the digits. */
  function IntToString(n: int): (s: string)
    ensures |s| >= 1
  {
    if n < 0 then ['-'] + NatDigits(-n) else NatDigits(n)
  }

  /** An optional `+` or `-` followed by at least one decimal digit. */
  predicate SignedDigits(s: string) {
    |s| >= 1 && if s[0] == '-' || s[0] == '+' then |s| >= 2 && AllDigits(s[1..]) else AllDigits(s)
  }

  /** The number signed decimal text denotes. */
  function SignedValue(s: string): int
    requires SignedDigits(s)
  {
    if s[0] == '-' then -(DigitsValue(s[1..]) as int)
    else if s[0] == '+' then DigitsValue(s[1..])
    else DigitsValue(s)
  }

  /** Text that `toLongOrNull` accepts: signed decimal digits whose value is a `Long`. */
  predicate LongText(s: string) {
    SignedDigits(s) && IsLong(SignedValue(s))
  }

  /**
   * Kotlin's `String.toLongOrNull()` (radix 10): an optional `+` or `-`, at
   * least one digit, and a value that fits in a `Long`; anything else is null.
   * Digits are the ASCII ones only.
   */
  function ParseLong(s: string): (r: Option<int>)
    ensures r.Some? <==> LongText(s)
    ensures r.Some? ==> r.value == SignedValue(s)
    ensures r.Some? ==> IsLong(r.value) && |s| >= 1
    ensures r.Some? && r.value < 0 ==> s[0] == '-'
  {
    if |s| == 0 then None
    else if s[0] < '0' then
      if |s| == 1 then None
      else if s[0] == '-' then
        if AllDigits(s[1..]) && -(DigitsValue(s[1..]) as int) >= LONG_MIN then Some(-(DigitsValue(s[1..]) as int)) else None
      else if s[0] == '+' then
        if AllDigits(s[1..]) && DigitsValue(s[1..]) <= LONG_MAX then Some(DigitsValue(s[1..])) else None
      else None
    else if AllDigits(s) && DigitsValue(s) <= LONG_MAX then Some(DigitsValue(s))
    else None
  }

  /** Reading back the digits of `n` gives `n`. */
  lemma {:induction false} DigitsRoundTrip(n: nat)
    ensures DigitsValue(NatDigits(n)) == n
    decreases n
  {
    if n >= 10 {
      var s := NatDigits(n);
      assert s[..|s| - 1] == NatDigits(n / 10);
      DigitsRoundTrip(n / 10);
    }
  }

  /** `toLongOrNull` inverts `toString` on every `Long`. */
  lemma ParseLongRoundTrip(n: int)
    requires IsLong(n)
    ensures ParseLong(IntToString(n)) == Some(n)
  {
    var s := IntToString(n);
    if n < 0 {
      var d := NatDigits(-n);
      DigitsRoundTrip(-n);
      assert s[0] == '-' && s[1..] == d && |s| > 1;
    } else {
      DigitsRoundTrip(n);
      assert IsDigit(s[0]) && AllDigits(s);
    }
  }

  /** Distinct numbers print differently. */
  lemma IntToStringInjective(a: int, b: int)
    requires IntToString(a) == IntToString(b)
    ensures a == b
  {
    var s := IntToString(a);
    assert a < 0 <==> s[0] == '-' by {
      if a >= 0 { assert IsDigit(NatDigits(a)[0]); }
    }
    assert b < 0 <==> s[0] == '-' by {
      if b >= 0 { assert IsDigit(NatDigits(b)[0]); }
    }
    if a < 0 {
      assert s[1..] == NatDigits(-a) == NatDigits(-b);
      DigitsRoundTrip(-a);
      DigitsRoundTrip(-b);
    } else {
      DigitsRoundTrip(a);
      DigitsRoundTrip(b);
    }
  }
}

=== FILE: playback.dfy ===
/**
 * The commands the browsing screens send to the Media3 controller, and the
 * randomness of `shuffled(Random(…))`, modelled as an arbitrary permutation.
 */
module Playback {
  import opened Wrappers
  import opened Media

  datatype Command =
    | SetMediaItems(items: seq<MediaItem>, startIndex: int)
    | AddMediaItems(items: seq<MediaItem>)

  /**
   * `setMediaItems(tracks, 0, …)` after the guards every play button has:
   * a connected controller and something to play.
   */
  function PlayAll(hasController: bool, tracks: seq<MediaItem>): (r: Option<Command>)
    ensures r.Some? <==> hasController && tracks != []
    ensures r.Some? ==> r.value.SetMediaItems? && r.value.items == tracks && r.value.startIndex == 0
  {
    if !hasController || tracks == [] then None else Some(SetMediaItems(tracks, 0))
  }

  /** A track row's click: play the whole list starting at the clicked row. */
  function PlayFrom(hasController: bool, items: seq<MediaItem>, position: nat): (r: Option<Command>)
    requires position < |items| || items == []
    ensures r.Some? <==> hasController && items != []
    ensures r.Some? ==> r.value == SetMediaItems(items, position) && items[r.value.startIndex] == items[position]
  {
    if !hasController || items == [] then None else Some(SetMediaItems(items, position))
  }

  /** `shuffled(random)`: some reordering of the tracks, chosen by the caller's randomness. */
  method Shuffled(tracks: seq<MediaItem>) returns (r: seq<MediaItem>)
    ensures multiset(r) == multiset(tracks)
    ensures |r| == |tracks|
  {
    r :| multiset(r) == multiset(tracks);
    assert |r| == |multiset(r)| == |multiset(tracks)| == |tracks|;
  }

  /** The shuffle button: play a permutation of the tracks from its first entry. */
  method ShuffleAll(hasController: bool, tracks: seq<MediaItem>) returns (r: Option<Command>)
    ensures r.Some? <==> hasController && tracks != []
    ensures r.Some? ==>
      r.value.SetMediaItems? && r.value.startIndex == 0 && multiset(r.value.items) == multiset(tracks)
  {
    if !hasController || tracks == [] {
      return None;
    }
    var shuffled := Shuffled(tracks);
    return Some(SetMediaItems(shuffled, 0));
  }
}

=== FILE: playlist_adapter.dfy ===
/**
 * The rows of the Playlists screen: one favourites row first, then one row
 * per stored playlist in library order, each with a diff key, a display
 * title, and either a placeholder icon or artwork.
 */
module PlaylistAdapter {
  import opened Wrappers
  import opened Numbers
  import opened Text
  import opened Seqs
  import opened Media

  const PREFS_NAME: string := "playlist_covers"
  const COVER_KEY_PREFIX: string := "playlist_cover_"
  const FAVORITE_PLAYLIST_TITLE: string := "Favourite Songs"
  const RECENTLY_ADDED_TITLE: string := "New"
  const UNTITLED_PLAYLIST_TITLE: string := "(Untitled Playlist)"
  const FAVORITE_KEY: string := "favorite"
  const RECENT_KEY: string := "recent"
  const ID_KEY_PREFIX: string := "id:"
  const TITLE_KEY_PREFIX: string := "title:"

  datatype Icon = StarFilled | PlaylistIcon
  datatype Tint = AccentColor | InactiveColor

  datatype PlaylistRow = PlaylistRow(
    key: string,
    title: string,
    artworkUri: Option<string>,
    icon: Option<Icon>,
    tint: Tint,
    playlistId: Option<int>,
    isFavorite: bool,
    isRecentlyAdded: bool,
    songs: seq<MediaItem>)

  /** The "playlist_covers" preferences: cover key to cover URI. */
  type CoverPrefs = map<string, string>

  /** The preference key a playlist's custom cover is stored under. */
  function CoverKey(name: string): (k: string)
    ensures |k| == |COVER_KEY_PREFIX| + |name|
    ensures k[..|COVER_KEY_PREFIX|] == COVER_KEY_PREFIX && k[|COVER_KEY_PREFIX|..] == name
  {
    COVER_KEY_PREFIX + name
  }

  /** Different names never share a cover. */
  lemma CoverKeyInjective(a: string, b: string)
    requires CoverKey(a) == CoverKey(b)
    ensures a == b
  {
    assert a == CoverKey(a)[|COVER_KEY_PREFIX|..];
  }

  predicate IsFavoritePlaylist(p: Playlist, u: ()) { p.kind == Favorite }
  predicate IsHeartSong(x: MediaItem, u: ()) { x.isHeart }
  predicate IsBasePlaylist(p: Playlist, u: ()) { p.kind == Stored }

  /** `firstOrNull { it is Favorite }` */
  function FirstFavorite(playlists: seq<Playlist>): Option<Playlist> {
    FirstBy(playlists, IsFavoritePlaylist, ())
  }

  /** The favourites: the Favorite playlist's songs if it exists, else the heart-rated library songs. */
  function FavoriteSongs(playlists: seq<Playlist>, songs: seq<MediaItem>): (r: seq<MediaItem>)
    ensures FirstFavorite(playlists).Some? ==> r == FirstFavorite(playlists).value.songs
    ensures FirstFavorite(playlists).None? ==>
      IsSubsequence(r, songs) && forall x :: x in r <==> x in songs && x.isHeart
  {
    var fav := FirstFavorite(playlists);
    if fav.Some? then fav.value.songs else FilterBy(songs, IsHeartSong, ())
  }

  /** The row that always comes first. */
  function FavoriteRow(playlists: seq<Playlist>, songs: seq<MediaItem>): PlaylistRow {
    var fav := FirstFavorite(playlists);
    PlaylistRow(FAVORITE_KEY, FAVORITE_PLAYLIST_TITLE, None, Some(StarFilled), AccentColor,
                if fav.Some? then fav.value.id else None, true, false, FavoriteSongs(playlists, songs))
  }

  /** A custom cover is looked up only for a playlist with a non-blank title. */
  function StoredCover(p: Playlist, prefs: CoverPrefs): (r: Option<string>)
    ensures r.Some? <==> p.title.Some? && !IsBlank(p.title.value) && CoverKey(p.title.value) in prefs
    ensures r.Some? ==> r.value == prefs[CoverKey(p.title.value)]
  {
    if p.title.Some? && !IsBlank(p.title.value) && CoverKey(p.title.value) in prefs
    then Some(prefs[CoverKey(p.title.value)]) else None
  }

  function RowTitle(p: Playlist): (t: string)
    ensures p.kind == Stored && p.title.Some? && !IsBlank(p.title.value) ==> t == p.title.value
    ensures p.kind == Stored && (p.title.None? || IsBlank(p.title.value)) ==> t == UNTITLED_PLAYLIST_TITLE
    ensures !IsBlank(t)
  {
    if p.kind == Favorite then assert !IsWhitespace(FAVORITE_PLAYLIST_TITLE[0]); FAVORITE_PLAYLIST_TITLE
    else if p.kind == RecentlyAdded then assert !IsWhitespace(RECENTLY_ADDED_TITLE[0]); RECENTLY_ADDED_TITLE
    else if p.title.Some? && !IsBlank(p.title.value) then p.title.value
    else assert !IsWhitespace(UNTITLED_PLAYLIST_TITLE[0]); UNTITLED_PLAYLIST_TITLE
  }

  function RowIcon(p: Playlist, hasCustomCover: bool): Option<Icon> {
    if p.kind == Favorite then Some(StarFilled)
    else if p.kind == RecentlyAdded then Some(PlaylistIcon)
    else if p.songs == [] && !hasCustomCover then Some(PlaylistIcon)
    else None
  }

  function RowArtwork(p: Playlist, storedCover: Option<string>, icon: Option<Icon>): Option<string> {
    if storedCover.Some? then storedCover
    else if icon.None? then (if p.songs == [] then None else p.songs[0].artworkUri)
    else None
  }

  /** `buildKey`: the id when there is one, else a fixed key for the dynamic playlists, else the title. */
  function BuildKey(p: Playlist, isFavorite: bool, isRecentlyAdded: bool, title: string): string {
    if p.id.Some? then ID_KEY_PREFIX + IntToString(p.id.value)
    else if isFavorite then FAVORITE_KEY
    else if isRecentlyAdded then RECENT_KEY
    else TITLE_KEY_PREFIX + title
  }

  /** The row the `map` builds for one playlist. */
  function ToRow(p: Playlist, prefs: CoverPrefs): (row: PlaylistRow)
    ensures row.isFavorite <==> p.kind == Favorite
    ensures row.isRecentlyAdded <==> p.kind == RecentlyAdded
  {
    var isFavorite := p.kind == Favorite;
    var isRecentlyAdded := p.kind == RecentlyAdded;
    var cover := StoredCover(p, prefs);
    var title := RowTitle(p);
    var icon := RowIcon(p, cover.Some?);
    PlaylistRow(BuildKey(p, isFavorite, isRecentlyAdded, title), title, RowArtwork(p, cover, icon), icon,
                if isFavorite then AccentColor else InactiveColor, p.id, isFavorite, isRecentlyAdded, p.songs)
  }

  predicate IsRegularRow(r: PlaylistRow, u: ()) { !r.isFavorite && !r.isRecentlyAdded }

  function MapRows(ps: seq<Playlist>, prefs: CoverPrefs): (rows: seq<PlaylistRow>)
    ensures |rows| == |ps|
    ensures forall i :: 0 <= i < |ps| ==> rows[i] == ToRow(ps[i], prefs)
  {
    seq(|ps|, i requires 0 <= i < |ps| => ToRow(ps[i], prefs))
  }

  /** The stored playlists, in library order. */
  function BasePlaylists(playlists: seq<Playlist>): (r: seq<Playlist>)
    ensures IsSubsequence(r, playlists)
    ensures forall p :: p in r <==> p in playlists && p.kind == Stored
  {
    FilterBy(playlists, IsBasePlaylist, ())
  }

  /** `submitPlaylists`: the favourites row, then the regular rows. */
  function SubmitPlaylists(playlists: seq<Playlist>, songs: seq<MediaItem>, prefs: CoverPrefs): (rows: seq<PlaylistRow>)
    ensures |rows| >= 1 && rows[0] == FavoriteRow(playlists, songs)
    ensures forall i :: 1 <= i < |rows| ==> !rows[i].isFavorite && !rows[i].isRecentlyAdded
  {
    var items := MapRows(BasePlaylists(playlists), prefs);
    var regular := FilterBy(items, IsRegularRow, ());
    FilterByPasses(items, IsRegularRow, ());
    [FavoriteRow(playlists, songs)] + regular
  }

  /** `areItemsTheSame` */
  predicate AreItemsTheSame(a: PlaylistRow, b: PlaylistRow) {
    a.key == b.key
  }

  /** Rows of stored playlists all pass the regular-row filter. */
  lemma {:induction false} StoredRowsAreRegular(base: seq<Playlist>, prefs: CoverPrefs)
    requires forall p :: p in base ==> p.kind == Stored
    ensures FilterBy(MapRows(base, prefs), IsRegularRow, ()) == MapRows(base, prefs)
  {
    var items := MapRows(base, prefs);
    forall r | r in items ensures IsRegularRow(r, ()) {
      var i :| 0 <= i < |items| && items[i] == r;
      assert base[i] in base;
    }
    FilterByAll(items, IsRegularRow, ());
  }

  /** The regular rows are exactly the stored playlists' rows, one per playlist, in library order. */
  lemma RegularRowsFollowLibrary(playlists: seq<Playlist>, songs: seq<MediaItem>, prefs: CoverPrefs)
    ensures SubmitPlaylists(playlists, songs, prefs)
      == [FavoriteRow(playlists, songs)] + MapRows(BasePlaylists(playlists), prefs)
  {
    StoredRowsAreRegular(BasePlaylists(playlists), prefs);
  }

  /** What a regular row shows for a stored playlist. */
  lemma StoredRowShape(p: Playlist, prefs: CoverPrefs)
    requires p.kind == Stored
    ensures var row := ToRow(p, prefs);
      && (p.id.Some? ==> row.key == ID_KEY_PREFIX + IntToString(p.id.value))
      && (p.id.None? ==> row.key == TITLE_KEY_PREFIX + row.title)
      && (row.icon.Some? <==> p.songs == [] && StoredCover(p, prefs).None?)
      && (StoredCover(p, prefs).Some? ==> row.artworkUri == StoredCover(p, prefs))
      && (StoredCover(p, prefs).None? && p.songs != [] ==> row.artworkUri == p.songs[0].artworkUri)
      && (row.icon.Some? ==> row.artworkUri.None?)
      && row.playlistId == p.id && row.songs == p.songs
  {
  }

  /** A stored playlist's key: "id:" and the id's digits, or "title:" and the display title. */
  lemma StoredKey(p: Playlist, prefs: CoverPrefs)
    requires p.kind == Stored
    ensures var k := ToRow(p, prefs).key;
      && (p.id.Some? ==> |k| >= |ID_KEY_PREFIX| && k[0] == 'i' && k[|ID_KEY_PREFIX|..] == IntToString(p.id.value))
      && (p.id.None? ==> |k| >= |TITLE_KEY_PREFIX| && k[0] == 't' && k[|TITLE_KEY_PREFIX|..] == RowTitle(p))
  {
  }

  /** The row at position `i` of the list, for `i >= 1`, is the row of the `i`-th stored playlist. */
  lemma RowAt(playlists: seq<Playlist>, songs: seq<MediaItem>, prefs: CoverPrefs, i: nat) returns (p: Playlist)
    requires 1 <= i < |SubmitPlaylists(playlists, songs, prefs)|
    ensures p in BasePlaylists(playlists) && p.kind == Stored && p == BasePlaylists(playlists)[i - 1]
    ensures SubmitPlaylists(playlists, songs, prefs)[i] == ToRow(p, prefs)
  {
    var base := BasePlaylists(playlists);
    var m := MapRows(base, prefs);
    RegularRowsFollowLibrary(playlists, songs, prefs);
    ConsIndex(FavoriteRow(playlists, songs), m, i);
    p := base[i - 1];
    assert p in base;
  }

  /** No regular row can take the favourites row's key. */
  lemma FavoriteKeyUnique(playlists: seq<Playlist>, songs: seq<MediaItem>, prefs: CoverPrefs, i: nat)
    requires 1 <= i < |SubmitPlaylists(playlists, songs, prefs)|
    ensures SubmitPlaylists(playlists, songs, prefs)[i].key != FAVORITE_KEY
    ensures !AreItemsTheSame(SubmitPlaylists(playlists, songs, prefs)[0], SubmitPlaylists(playlists, songs, prefs)[i])
  {
    var p := RowAt(playlists, songs, prefs, i);
    StoredKey(p, prefs);
  }

  /**
   * Regular rows have distinct keys when the stored playlists with an id
   * have distinct ids and those without one have distinct display titles.
   */
  lemma RegularKeysDistinct(playlists: seq<Playlist>, songs: seq<MediaItem>, prefs: CoverPrefs, i: nat, j: nat)
    requires var base := BasePlaylists(playlists);
      forall a, b :: 0 <= a < b < |base| ==>
        (base[a].id.Some? && base[b].id.Some? ==> base[a].id != base[b].id)
        && (base[a].id.None? && base[b].id.None? ==> RowTitle(base[a]) != RowTitle(base[b]))
    requires 1 <= i < j < |SubmitPlaylists(playlists, songs, prefs)|
    ensures !AreItemsTheSame(SubmitPlaylists(playlists, songs, prefs)[i], SubmitPlaylists(playlists, songs, prefs)[j])
  {
    var p := RowAt(playlists, songs, prefs, i);
    var q := RowAt(playlists, songs, prefs, j);
    var base := BasePlaylists(playlists);
    assert p == base[i - 1] && q == base[j - 1] by {
      RegularRowsFollowLibrary(playlists, songs, prefs);
    }
    StoredKey(p, prefs);
    StoredKey(q, prefs);
    var kp, kq := ToRow(p, prefs).key, ToRow(q, prefs).key;
    if p.id.Some? && q.id.Some? && kp == kq {
      IntToStringInjective(p.id.value, q.id.value);
    }
  }

  /** Two untitled stored playlists without ids get the same key, so the diff cannot tell them apart. */
  lemma UntitledRowsShareKey(p: Playlist, q: Playlist, prefs: CoverPrefs)
    requires p.kind == Stored && q.kind == Stored && p.id.None? && q.id.None?
    requires p.title.None? || IsBlank(p.title.value)
    requires q.title.None? || IsBlank(q.title.value)
    ensures AreItemsTheSame(ToRow(p, prefs), ToRow(q, prefs))
  {
  }
}

=== FILE: playlist_detail.dfy ===
/**
 * The playlist page: the songs of one playlist, identified by a song key,
 * and a short list of suggested library songs that are not in it yet.
 */
module PlaylistDetail {
  import opened Wrappers
  import opened Numbers
  import opened Text
  import opened Seqs
  import opened Media
  import opened Playback
  import PlaylistAdapter

  const MEDIA_STORE_PREFIX: string := "MediaStore:"
  const NO_ID: int := -1
  const SUGGESTED_COUNT: nat := 5

  // ---------------------------------------------------------------------
  // Song identity
  // ---------------------------------------------------------------------

  /**
   * `buildSongKey`: the media id when it is not blank, else the local URI,
   * else the decimal text of the item's hash code.
   */
  function SongKey(item: MediaItem): (k: string)
    ensures !IsBlank(item.mediaId) ==> k == item.mediaId
    ensures IsBlank(item.mediaId) && item.localUri.Some? ==> k == item.localUri.value
    ensures IsBlank(item.mediaId) && item.localUri.None? && IsLong(item.hashCode) ==>
      ParseLong(k) == Some(item.hashCode)
  {
    if !IsBlank(item.mediaId) then item.mediaId
    else if item.localUri.Some? then item.localUri.value
    else
      assert IsLong(item.hashCode) ==> ParseLong(IntToString(item.hashCode)) == Some(item.hashCode) by {
        if IsLong(item.hashCode) { ParseLongRoundTrip(item.hashCode); }
      }
      IntToString(item.hashCode)
  }

  /** The set of keys of a list of songs. */
  function Keys(s: seq<MediaItem>): (ks: set<string>)
    ensures forall x :: x in s ==> SongKey(x) in ks
    ensures forall k :: k in ks ==> exists x :: x in s && SongKey(x) == k
  {
    set x | x in s :: SongKey(x)
  }

  lemma KeysAppend(s: seq<MediaItem>, x: MediaItem)
    ensures Keys(s + [x]) == Keys(s) + {SongKey(x)}
  {
    assert forall y :: y in s + [x] <==> y in s || y == x;
  }

  /** No two songs of the list share a key. */
  predicate KeysDistinct(s: seq<MediaItem>) {
    forall j, k :: 0 <= j < k < |s| ==> SongKey(s[j]) != SongKey(s[k])
  }

  predicate NotInKeys(x: MediaItem, keys: set<string>) { SongKey(x) !in keys }
  predicate KeyDiffers(x: MediaItem, key: string) { SongKey(x) != key }

  /**
   * `parseMediaStoreId`: the number after "MediaStore:", read as Kotlin's
   * `toLongOrNull` reads it; null for any other id.
   */
  function ParseMediaStoreId(item: MediaItem): (r: Option<int>)
    ensures r.Some? ==>
      IsLong(r.value) && |item.mediaId| > |MEDIA_STORE_PREFIX|
      && item.mediaId[..|MEDIA_STORE_PREFIX|] == MEDIA_STORE_PREFIX
    ensures !(|item.mediaId| >= |MEDIA_STORE_PREFIX| && item.mediaId[..|MEDIA_STORE_PREFIX|] == MEDIA_STORE_PREFIX) ==>
      r.None?
    ensures r.Some? <==>
      |item.mediaId| >= |MEDIA_STORE_PREFIX| && item.mediaId[..|MEDIA_STORE_PREFIX|] == MEDIA_STORE_PREFIX
      && LongText(item.mediaId[|MEDIA_STORE_PREFIX|..])
    ensures r.Some? ==> r.value == SignedValue(item.mediaId[|MEDIA_STORE_PREFIX|..])
  {
    var id := item.mediaId;
    if |id| >= |MEDIA_STORE_PREFIX| && id[..|MEDIA_STORE_PREFIX|] == MEDIA_STORE_PREFIX
    then ParseLong(id[|MEDIA_STORE_PREFIX|..])
    else None
  }

  /** An id written as "MediaStore:" and a `Long` in decimal reads back as that number. */
  lemma MediaStoreIdRoundTrip(item: MediaItem, n: int)
    requires IsLong(n) && item.mediaId == MEDIA_STORE_PREFIX + IntToString(n)
    ensures ParseMediaStoreId(item) == Some(n)
  {
    assert item.mediaId[..|MEDIA_STORE_PREFIX|] == MEDIA_STORE_PREFIX;
    assert item.mediaId[|MEDIA_STORE_PREFIX|..] == IntToString(n);
    ParseLongRoundTrip(n);
  }

  // ---------------------------------------------------------------------
  // Merging library and playlist songs
  // ---------------------------------------------------------------------

  lemma KeysConcat(s: seq<MediaItem>, t: seq<MediaItem>)
    ensures Keys(s + t) == Keys(s) + Keys(t)
  {
    assert forall y :: y in s + t <==> y in s || y in t;
  }

  /**
   * What the merge appends after the library's list: songs taken in order
   * from the songs already seen, none sharing a key with the library or
   * with each other.
   */
  predicate TailOk(fromLibrary: seq<MediaItem>, tail: seq<MediaItem>, seen: seq<MediaItem>) {
    && IsSubsequence(tail, seen)
    && (forall x :: x in tail ==> SongKey(x) !in Keys(fromLibrary))
    && KeysDistinct(tail)
  }

  lemma TailAppend(fromLibrary: seq<MediaItem>, tail: seq<MediaItem>, seen: seq<MediaItem>, song: MediaItem)
    requires TailOk(fromLibrary, tail, seen)
    requires SongKey(song) !in Keys(fromLibrary) + Keys(tail)
    ensures TailOk(fromLibrary, tail + [song], seen + [song])
  {
    SubsequenceExtend(tail, seen, song);
    forall j, k | 0 <= j < k < |tail + [song]| ensures SongKey((tail + [song])[j]) != SongKey((tail + [song])[k]) {
      if k == |tail| {
        assert (tail + [song])[j] == tail[j] && tail[j] in tail;
      } else {
        assert (tail + [song])[j] == tail[j] && (tail + [song])[k] == tail[k];
      }
    }
  }

  lemma TailSkip(fromLibrary: seq<MediaItem>, tail: seq<MediaItem>, seen: seq<MediaItem>, song: MediaItem)
    requires TailOk(fromLibrary, tail, seen)
    ensures TailOk(fromLibrary, tail, seen + [song])
  {
    SubsequenceExtend(tail, seen, song);
  }

  /** A song of the merge loop whose key is new: it is appended and its key joins the merged keys. */
  lemma MergeAppendStep(fromLibrary: seq<MediaItem>, tail: seq<MediaItem>, seen: seq<MediaItem>, song: MediaItem)
    requires TailOk(fromLibrary, tail, seen)
    requires Keys(fromLibrary) + Keys(tail) == Keys(fromLibrary) + Keys(seen)
    requires SongKey(song) !in Keys(fromLibrary) + Keys(tail)
    ensures TailOk(fromLibrary, tail + [song], seen + [song])
    ensures Keys(fromLibrary) + Keys(tail + [song]) == Keys(fromLibrary) + Keys(tail) + {SongKey(song)}
    ensures Keys(fromLibrary) + Keys(tail + [song]) == Keys(fromLibrary) + Keys(seen + [song])
  {
    TailAppend(fromLibrary, tail, seen, song);
    KeysAppend(tail, song);
    KeysAppend(seen, song);
  }

  /** A song of the merge loop whose key is already merged: it is skipped and the merged keys stay as they are. */
  lemma MergeSkipStep(fromLibrary: seq<MediaItem>, tail: seq<MediaItem>, seen: seq<MediaItem>, song: MediaItem)
    requires TailOk(fromLibrary, tail, seen)
    requires Keys(fromLibrary) + Keys(tail) == Keys(fromLibrary) + Keys(seen)
    requires SongKey(song) in Keys(fromLibrary) + Keys(tail)
    ensures TailOk(fromLibrary, tail, seen + [song])
    ensures Keys(fromLibrary) + Keys(tail) == Keys(fromLibrary) + Keys(seen + [song])
  {
    TailSkip(fromLibrary, tail, seen, song);
    KeysAppend(seen, song);
  }

  /** The earliest song of `s` whose key is `k`, if any. */
  function FirstWithKey(s: seq<MediaItem>, k: string): (r: Option<MediaItem>)
    ensures r.Some? ==> r.value in s && SongKey(r.value) == k
    decreases |s|
  {
    if |s| == 0 then None
    else if SongKey(s[0]) == k then Some(s[0])
    else FirstWithKey(s[1..], k)
  }

  /** A song exists with key `k` exactly when there is a first one. */
  lemma {:induction false} FirstWithKeyExists(s: seq<MediaItem>, k: string)
    ensures FirstWithKey(s, k).Some? <==> k in Keys(s)
    decreases |s|
  {
    if |s| > 0 {
      FirstWithKeyExists(s[1..], k);
      KeysCons(s, k);
    }
  }

  lemma KeysCons(s: seq<MediaItem>, k: string)
    requires |s| > 0
    ensures k in Keys(s) <==> SongKey(s[0]) == k || k in Keys(s[1..])
  {
    assert s == [s[0]] + s[1..];
    KeysConcat([s[0]], s[1..]);
    assert Keys([s[0]]) == {SongKey(s[0])};
  }

  /** Appending a song only decides the first song of a key no earlier song had. */
  lemma {:induction false} FirstWithKeyAppend(s: seq<MediaItem>, y: MediaItem, k: string)
    ensures FirstWithKey(s + [y], k)
      == if FirstWithKey(s, k).Some? then FirstWithKey(s, k)
         else if SongKey(y) == k then Some(y) else None
    decreases |s|
  {
    if |s| > 0 {
      assert (s + [y])[0] == s[0];
      assert (s + [y])[1..] == s[1..] + [y];
      FirstWithKeyAppend(s[1..], y, k);
    } else {
      assert s + [y] == [y];
    }
  }

  /** Every song of `tail` is the first song of `seen` with its key. */
  predicate TailFirsts(tail: seq<MediaItem>, seen: seq<MediaItem>) {
    forall x :: x in tail ==> FirstWithKey(seen, SongKey(x)) == Some(x)
  }

  /** A later song never displaces the first song of a key. */
  lemma FirstsSkip(tail: seq<MediaItem>, seen: seq<MediaItem>, song: MediaItem)
    requires TailFirsts(tail, seen)
    ensures TailFirsts(tail, seen + [song])
  {
    forall x | x in tail ensures FirstWithKey(seen + [song], SongKey(x)) == Some(x) {
      FirstWithKeyAppend(seen, song, SongKey(x));
    }
  }

  /** A song whose key no earlier song has is the first of its key. */
  lemma FirstsAppend(tail: seq<MediaItem>, seen: seq<MediaItem>, song: MediaItem)
    requires TailFirsts(tail, seen)
    requires SongKey(song) !in Keys(seen)
    ensures TailFirsts(tail + [song], seen + [song])
  {
    FirstsSkip(tail, seen, song);
    FirstWithKeyExists(seen, SongKey(song));
    FirstWithKeyAppend(seen, song, SongKey(song));
  }

  /** What holds after the merge loop has looked at the songs `seen`. */
  predicate MergeInv(fromLibrary: seq<MediaItem>, tail: seq<MediaItem>, mergedKeys: set<string>, seen: seq<MediaItem>) {
    && mergedKeys == Keys(fromLibrary) + Keys(tail)
    && mergedKeys == Keys(fromLibrary) + Keys(seen)
    && TailOk(fromLibrary, tail, seen)
    && TailFirsts(tail, seen)
  }

  /** One turn of the merge loop keeps `MergeInv`, appending the song exactly when its key is new. */
  lemma MergeStep(fromLibrary: seq<MediaItem>, tail: seq<MediaItem>, mergedKeys: set<string>,
                  seen: seq<MediaItem>, song: MediaItem)
    requires MergeInv(fromLibrary, tail, mergedKeys, seen)
    ensures SongKey(song) !in mergedKeys ==>
      MergeInv(fromLibrary, tail + [song], mergedKeys + {SongKey(song)}, seen + [song])
    ensures SongKey(song) in mergedKeys ==> MergeInv(fromLibrary, tail, mergedKeys, seen + [song])
  {
    if SongKey(song) !in mergedKeys {
      MergeAppendStep(fromLibrary, tail, seen, song);
      FirstsAppend(tail, seen, song);
    } else {
      MergeSkipStep(fromLibrary, tail, seen, song);
      FirstsSkip(tail, seen, song);
    }
  }

  /**
   * `mergePlaylistSongs`: the library's list of the playlist, followed by
   * the songs already on the page whose key the merged list does not have yet.
   */
  method MergePlaylistSongs(fromLibrary: seq<MediaItem>, current: seq<MediaItem>) returns (merged: seq<MediaItem>)
    ensures |merged| >= |fromLibrary| && merged[..|fromLibrary|] == fromLibrary
    ensures TailOk(fromLibrary, merged[|fromLibrary|..], current)
    ensures Keys(merged) == Keys(fromLibrary) + Keys(current)
    ensures forall x :: x in merged[|fromLibrary|..] ==> FirstWithKey(current, SongKey(x)) == Some(x)
  {
    var tail: seq<MediaItem> := [];
    var mergedKeys := Keys(fromLibrary);
    var i := 0;
    assert current[..0] == [];
    while i < |current|
      invariant 0 <= i <= |current|
      invariant MergeInv(fromLibrary, tail, mergedKeys, current[..i])
    {
      var song := current[i];
      var key := SongKey(song);
      TakeSnoc(current, i);
      MergeStep(fromLibrary, tail, mergedKeys, current[..i], song);
      if key !in mergedKeys {
        tail := tail + [song];
        mergedKeys := mergedKeys + {key};
      }
      i := i + 1;
    }
    assert current[..|current|] == current;
    merged := fromLibrary + tail;
    KeysConcat(fromLibrary, tail);
    assert merged[..|fromLibrary|] == fromLibrary && merged[|fromLibrary|..] == tail;
  }

  // ---------------------------------------------------------------------
  // Suggestions
  // ---------------------------------------------------------------------

  /** The page's lists and the "refresh the suggestions" flag. */
  datatype DetailState = DetailState(
    allSongs: seq<MediaItem>,
    playlistSongs: seq<MediaItem>,
    suggested: seq<MediaItem>,
    shouldRefresh: bool)

  /** No suggested song is already in the playlist. */
  predicate SuggestionsDisjoint(st: DetailState) {
    forall x :: x in st.suggested ==> SongKey(x) !in Keys(st.playlistSongs)
  }

  /** Library songs whose key the playlist does not have. */
  function Candidates(st: DetailState): (c: seq<MediaItem>)
    ensures forall x :: x in c <==> x in st.allSongs && SongKey(x) !in Keys(st.playlistSongs)
  {
    FilterBy(st.allSongs, NotInKeys, Keys(st.playlistSongs))
  }

  function Min(a: int, b: int): int { if a <= b then a else b }

  lemma TakeIsSubMultiset(s: seq<MediaItem>, n: nat)
    requires n <= |s|
    ensures multiset(s[..n]) <= multiset(s)
  {
    assert s == s[..n] + s[n..];
  }

  /**
   * `refreshSuggestions`: kept as it is unless forced, flagged or empty;
   * otherwise up to five candidates in a random order.
   */
  method RefreshSuggestions(st: DetailState, force: bool) returns (r: DetailState)
    ensures !force && !st.shouldRefresh && st.suggested != [] ==> r == st
    ensures force || st.shouldRefresh || st.suggested == [] ==>
      r.allSongs == st.allSongs && r.playlistSongs == st.playlistSongs && !r.shouldRefresh
      && (st.allSongs == [] ==> r.suggested == [])
      && |r.suggested| == Min(SUGGESTED_COUNT, |Candidates(st)|)
      && multiset(r.suggested) <= multiset(Candidates(st))
      && SuggestionsDisjoint(r)
  {
    if !force && !st.shouldRefresh && st.suggested != [] {
      return st;
    }
    if st.allSongs == [] {
      return DetailState(st.allSongs, st.playlistSongs, [], false);
    }
    var candidates := Candidates(st);
    var shuffled := Shuffled(candidates);
    var n := Min(SUGGESTED_COUNT, |shuffled|);
    var suggestions := shuffled[..n];
    TakeIsSubMultiset(shuffled, n);
    r := DetailState(st.allSongs, st.playlistSongs, suggestions, false);
    assert forall x :: x in suggestions ==> x in candidates by {
      forall x | x in suggestions ensures x in candidates {
        assert x in multiset(suggestions);
      }
    }
  }

  /**
   * `applyPlaylistSongs`: merge the new songs in, drop suggestions that are
   * now in the playlist, and refresh when nothing is left or a refresh is due.
   */
  method ApplyPlaylistSongs(st: DetailState, songs: seq<MediaItem>) returns (r: DetailState)
    ensures r.allSongs == st.allSongs
    ensures |r.playlistSongs| >= |songs| && r.playlistSongs[..|songs|] == songs
    ensures Keys(r.playlistSongs) == Keys(songs) + Keys(st.playlistSongs)
    ensures SuggestionsDisjoint(r)
    ensures !r.shouldRefresh
  {
    var merged := MergePlaylistSongs(songs, st.playlistSongs);
    var suggested := st.suggested;
    if suggested != [] {
      var filtered := FilterBy(suggested, NotInKeys, Keys(merged));
      if |filtered| != |suggested| {
        suggested := filtered;
      } else {
        FilterByKeepsAll(suggested, NotInKeys, Keys(merged));
      }
    }
    r := DetailState(st.allSongs, merged, suggested, st.shouldRefresh);
    if suggested == [] || st.shouldRefresh {
      r := RefreshSuggestions(r, true);
    }
  }

  /** The playlist part of `updateAfterSuggestionAdded`: append the song unless its key is already there. */
  function AppendIfNew(playlist: seq<MediaItem>, song: MediaItem): (r: seq<MediaItem>)
    ensures SongKey(song) in Keys(playlist) ==> r == playlist
    ensures SongKey(song) !in Keys(playlist) ==> r == playlist + [song]
    ensures Keys(r) == Keys(playlist) + {SongKey(song)}
  {
    KeysAppend(playlist, song);
    if SongKey(song) in Keys(playlist) then playlist else playlist + [song]
  }

  /** A library song whose key is in neither list, chosen at random, if there is one. */
  method PickReplacement(allSongs: seq<MediaItem>, exclude: set<string>) returns (pick: Option<MediaItem>)
    ensures pick.None? <==> forall x :: x in allSongs ==> SongKey(x) in exclude
    ensures pick.Some? ==> pick.value in allSongs && SongKey(pick.value) !in exclude
  {
    var pool := FilterBy(allSongs, NotInKeys, exclude);
    var shuffled := Shuffled(pool);
    if shuffled == [] {
      assert pool == [];
      return None;
    }
    assert shuffled[0] in multiset(pool);
    assert shuffled[0] in pool;
    return Some(shuffled[0]);
  }

  /**
   * The top-up of `updateAfterSuggestionAdded`: below five suggestions, one
   * library song in neither the playlist nor the kept suggestions is
   * appended, if there is one.
   */
  method TopUp(allSongs: seq<MediaItem>, playlist: seq<MediaItem>, kept: seq<MediaItem>) returns (updated: seq<MediaItem>)
    ensures |kept| <= |updated| <= |kept| + 1 && updated[..|kept|] == kept
    ensures |updated| == |kept| + 1 ==>
      |kept| < SUGGESTED_COUNT && updated[|kept|] in allSongs
      && SongKey(updated[|kept|]) !in Keys(playlist) + Keys(kept)
    ensures |updated| == |kept| <==>
      |kept| >= SUGGESTED_COUNT || forall x :: x in allSongs ==> SongKey(x) in Keys(playlist) + Keys(kept)
  {
    updated := kept;
    if |kept| < SUGGESTED_COUNT && allSongs != [] {
      var pick := PickReplacement(allSongs, Keys(playlist) + Keys(kept));
      if pick.Some? {
        updated := kept + [pick.value];
      }
    }
    assert updated[..|kept|] == kept;
  }

  /** A member of a topped-up list is a kept suggestion or the one appended. */
  lemma KeptOrTopUp(kept: seq<MediaItem>, updated: seq<MediaItem>, x: MediaItem)
    requires |kept| <= |updated| <= |kept| + 1 && updated[..|kept|] == kept
    requires x in updated
    ensures x in kept || (|updated| == |kept| + 1 && x == updated[|kept|])
  {
    var j :| 0 <= j < |updated| && updated[j] == x;
    if j < |kept| {
      assert x == kept[j];
    }
  }

  /** Suggestions that avoided the old playlist, minus the added song's key, plus a fresh top-up, avoid the new playlist. */
  lemma TopUpDisjoint(st: DetailState, song: MediaItem, kept: seq<MediaItem>, updated: seq<MediaItem>)
    requires SuggestionsDisjoint(st)
    requires forall x :: x in kept ==> x in st.suggested && SongKey(x) != SongKey(song)
    requires |kept| <= |updated| <= |kept| + 1 && updated[..|kept|] == kept
    requires |updated| == |kept| + 1 ==>
      SongKey(updated[|kept|]) !in Keys(AppendIfNew(st.playlistSongs, song)) + Keys(kept)
    ensures forall x :: x in updated ==> SongKey(x) !in Keys(AppendIfNew(st.playlistSongs, song))
  {
    var playlist := AppendIfNew(st.playlistSongs, song);
    var keys := Keys(playlist);
    assert keys == Keys(st.playlistSongs) + {SongKey(song)};
    forall x | x in updated ensures SongKey(x) !in keys {
      KeptOrTopUp(kept, updated, x);
    }
  }

  /**
   * `updateAfterSuggestionAdded`: append the song unless its key is already
   * there, take it out of the suggestions, and top them up with at most one
   * library song that is in neither list.
   */
  method UpdateAfterSuggestionAdded(st: DetailState, song: MediaItem) returns (r: DetailState)
    ensures r.allSongs == st.allSongs && !r.shouldRefresh
    ensures r.playlistSongs == AppendIfNew(st.playlistSongs, song)
    ensures forall x :: x in r.suggested ==> SongKey(x) != SongKey(song)
    ensures var kept := FilterBy(st.suggested, KeyDiffers, SongKey(song));
      |kept| <= |r.suggested| <= |kept| + 1 && r.suggested[..|kept|] == kept
    ensures var kept := FilterBy(st.suggested, KeyDiffers, SongKey(song));
      |r.suggested| == |kept| + 1 ==>
        |kept| < SUGGESTED_COUNT && r.suggested[|kept|] in st.allSongs
        && SongKey(r.suggested[|kept|]) !in Keys(r.playlistSongs) + Keys(kept)
    ensures SuggestionsDisjoint(st) ==> SuggestionsDisjoint(r)
  {
    var playlist := AppendIfNew(st.playlistSongs, song);
    var kept := FilterBy(st.suggested, KeyDiffers, SongKey(song));
    var updated := TopUp(st.allSongs, playlist, kept);
    r := DetailState(st.allSongs, playlist, updated, false);
    forall x | x in updated ensures SongKey(x) != SongKey(song) {
      KeptOrTopUp(kept, updated, x);
      assert SongKey(song) in Keys(playlist);
    }
    if SuggestionsDisjoint(st) {
      TopUpDisjoint(st, song, kept, updated);
    }
  }

  // ---------------------------------------------------------------------
  // Adding a suggestion
  // ---------------------------------------------------------------------

  /** Where `addSuggestedToPlaylist` sends the song. */
  datatype AddRoute =
    | AlreadyInPlaylist
    | ViaFavorites
    | ViaPlaylist(playlistId: Option<int>, path: Option<string>)
    | NoTarget

  /**
   * The playlist id a suggestion is written under: the page's own playlist's
   * id when it has one, else the id the page was opened with unless that is
   * `NO_ID`; a negative id is dropped.
   */
  function TargetId(current: Option<Playlist>, targetPlaylistId: int): (id: Option<int>)
    ensures id.Some? ==> id.value >= 0
    ensures current.Some? && current.value.id.Some? ==>
      id == if current.value.id.value >= 0 then current.value.id else None
    ensures !(current.Some? && current.value.id.Some?) ==>
      id == if targetPlaylistId >= 0 then Some(targetPlaylistId) else None
  {
    var rawId := if current.Some? && current.value.id.Some? then current.value.id
                 else if targetPlaylistId != NO_ID then Some(targetPlaylistId) else None;
    if rawId.Some? && rawId.value >= 0 then rawId else None
  }

  /**
   * The decision part of `addSuggestedToPlaylist`. `lookedUpPath` stands for
   * what the MediaStore lookup of the playlist's file returns.
   */
  function AddSuggestedRoute(playlistSongs: seq<MediaItem>, song: MediaItem, current: Option<Playlist>,
                             isFavoriteTarget: bool, targetPlaylistId: int, lookedUpPath: Option<string>): (r: AddRoute)
    ensures r == AlreadyInPlaylist <==> SongKey(song) in Keys(playlistSongs)
    ensures r == ViaFavorites <==>
      SongKey(song) !in Keys(playlistSongs) && ((current.Some? && current.value.kind == Favorite) || isFavoriteTarget)
    ensures r.ViaPlaylist? ==> (r.playlistId.Some? || r.path.Some?)
    ensures r.ViaPlaylist? && r.playlistId.Some? ==> r.playlistId.value >= 0
    ensures r.ViaPlaylist? ==> r.playlistId == TargetId(current, targetPlaylistId)
    ensures r.ViaPlaylist? && current.Some? && current.value.path.Some? ==> r.path == current.value.path
    ensures r.ViaPlaylist? && !(current.Some? && current.value.path.Some?) ==>
      r.path == if TargetId(current, targetPlaylistId).Some? then lookedUpPath else None
    ensures r == NoTarget <==>
      && SongKey(song) !in Keys(playlistSongs)
      && !((current.Some? && current.value.kind == Favorite) || isFavoriteTarget)
      && TargetId(current, targetPlaylistId).None?
      && !(current.Some? && current.value.path.Some?)
  {
    var key := SongKey(song);
    if exists x :: x in playlistSongs && SongKey(x) == key then AlreadyInPlaylist
    else if (current.Some? && current.value.kind == Favorite) || isFavoriteTarget then ViaFavorites
    else
      var playlistId := TargetId(current, targetPlaylistId);
      var path := if current.Some? && current.value.path.Some? then current.value.path
                  else if playlistId.Some? then lookedUpPath else None;
      if playlistId.None? && path.None? then NoTarget else ViaPlaylist(playlistId, path)
  }

  /** The page's own playlist path wins: the MediaStore lookup is then never consulted. */
  lemma OwnPathSkipsLookup(playlistSongs: seq<MediaItem>, song: MediaItem, current: Option<Playlist>,
                           isFavoriteTarget: bool, targetPlaylistId: int, p1: Option<string>, p2: Option<string>)
    requires current.Some? && current.value.path.Some?
    ensures AddSuggestedRoute(playlistSongs, song, current, isFavoriteTarget, targetPlaylistId, p1)
      == AddSuggestedRoute(playlistSongs, song, current, isFavoriteTarget, targetPlaylistId, p2)
  {
  }

  /** The page's own playlist id wins over the id it was opened with. */
  lemma OwnIdWins(playlistSongs: seq<MediaItem>, song: MediaItem, current: Option<Playlist>,
                  isFavoriteTarget: bool, t1: int, t2: int, lookedUpPath: Option<string>)
    requires current.Some? && current.value.id.Some?
    ensures AddSuggestedRoute(playlistSongs, song, current, isFavoriteTarget, t1, lookedUpPath)
      == AddSuggestedRoute(playlistSongs, song, current, isFavoriteTarget, t2, lookedUpPath)
  {
  }

  /**
   * A new song for a regular page whose playlist has an id and a path is
   * written through that playlist, whatever the page was opened with.
   */
  lemma RegularPageWritesToItself(playlistSongs: seq<MediaItem>, song: MediaItem, pl: Playlist,
                                  targetPlaylistId: int, lookedUpPath: Option<string>)
    requires SongKey(song) !in Keys(playlistSongs) && pl.kind != Favorite
    requires pl.id.Some? && pl.id.value >= 0 && pl.path.Some?
    ensures AddSuggestedRoute(playlistSongs, song, Some(pl), false, targetPlaylistId, lookedUpPath)
      == ViaPlaylist(pl.id, pl.path)
  {
  }

  /** How `addSongToPlaylist` writes the song, given what the file system reports. */
  datatype WriteRoute =
    | PrivateEntry(mediaId: int)
    | AppendFile
    | InsertMember(playlistId: int, audioId: int)
    | Refused

  function SongWriteRoute(playlistId: Option<int>, fileExists: bool, isPrivate: bool,
                          hasSongFile: bool, song: MediaItem): (r: WriteRoute)
    ensures r.PrivateEntry? ==> fileExists && isPrivate && ParseMediaStoreId(song) == Some(r.mediaId)
    ensures r.AppendFile? ==> fileExists && !isPrivate && hasSongFile
    ensures r.InsertMember? ==>
      !fileExists && playlistId == Some(r.playlistId) && ParseMediaStoreId(song) == Some(r.audioId)
    ensures r.Refused? <==>
      (fileExists && isPrivate && ParseMediaStoreId(song).None?)
      || (fileExists && !isPrivate && !hasSongFile)
      || (!fileExists && (playlistId.None? || ParseMediaStoreId(song).None?))
  {
    if fileExists then
      if isPrivate then
        var id := ParseMediaStoreId(song);
        if id.None? then Refused else PrivateEntry(id.value)
      else if hasSongFile then AppendFile else Refused
    else if playlistId.None? then Refused
    else
      var id := ParseMediaStoreId(song);
      if id.None? then Refused else InsertMember(playlistId.value, id.value)
  }

  /** The entry an app-private playlist file stores for a MediaStore id. */
  function PrivateEntryText(entryPrefix: string, mediaId: int): string {
    entryPrefix + IntToString(mediaId)
  }

  /**
   * `addToPrivatePlaylist` on the file's entries: append the entry unless it
   * is already there.
   */
  function AddToPrivatePlaylist(existing: seq<string>, entryPrefix: string, mediaId: int): (r: seq<string>)
    ensures PrivateEntryText(entryPrefix, mediaId) in r
    ensures |existing| <= |r| <= |existing| + 1 && r[..|existing|] == existing
    ensures PrivateEntryText(entryPrefix, mediaId) in existing ==> r == existing
    ensures forall e :: e != PrivateEntryText(entryPrefix, mediaId) ==> multiset(r)[e] == multiset(existing)[e]
  {
    var entry := PrivateEntryText(entryPrefix, mediaId);
    if entry in existing then existing
    else
      assert (existing + [entry])[..|existing|] == existing;
      existing + [entry]
  }

  /** Adding the same song twice writes it once. */
  lemma AddToPrivatePlaylistIdempotent(existing: seq<string>, entryPrefix: string, mediaId: int)
    ensures var once := AddToPrivatePlaylist(existing, entryPrefix, mediaId);
      AddToPrivatePlaylist(once, entryPrefix, mediaId) == once
  {
  }

  /** A file without repeated entries keeps that property. */
  lemma AddToPrivatePlaylistNoDuplicates(existing: seq<string>, entryPrefix: string, mediaId: int)
    requires NoDuplicates(existing)
    ensures NoDuplicates(AddToPrivatePlaylist(existing, entryPrefix, mediaId))
  {
  }

  /** Entries for different ids differ, so the membership test never confuses two songs. */
  lemma PrivateEntriesDistinct(entryPrefix: string, a: int, b: int)
    requires a != b
    ensures PrivateEntryText(entryPrefix, a) != PrivateEntryText(entryPrefix, b)
  {
    if PrivateEntryText(entryPrefix, a) == PrivateEntryText(entryPrefix, b) {
      assert IntToString(a) == PrivateEntryText(entryPrefix, a)[|entryPrefix|..];
      assert IntToString(b) == PrivateEntryText(entryPrefix, b)[|entryPrefix|..];
      IntToStringInjective(a, b);
    }
  }

  /**
   * `queryNextPlayOrder`: one past the largest play order (an `Int`, so it
   * wraps past `Int.MAX_VALUE`), or the fallback when the playlist has no rows.
   */
  function NextPlayOrder(maxOrder: Option<int>, fallback: int): (r: int)
    requires maxOrder.Some? ==> IsInt(maxOrder.value)
    ensures maxOrder.None? ==> r == fallback
    ensures maxOrder.Some? && maxOrder.value < INT_MAX ==> r == maxOrder.value + 1
    ensures maxOrder.Some? && maxOrder.value == INT_MAX ==> r == INT_MIN
  {
    if maxOrder.Some? then WrapInt(maxOrder.value + 1) else fallback
  }

  // ---------------------------------------------------------------------
  // Opening a playlist
  // ---------------------------------------------------------------------

  /** The fragment arguments. */
  datatype Args = Args(id: int, title: string, count: int)

  /** `newInstance`: a missing id is stored as `NO_ID`. */
  function NewInstance(playlistId: Option<int>, title: string, songCount: int): (a: Args)
    ensures playlistId.None? ==> a.id == NO_ID
    ensures playlistId.Some? ==> a.id == playlistId.value
    ensures a.title == title && a.count == songCount
  {
    Args(playlistId.GetOr(NO_ID), title, songCount)
  }

  /** Favourites mode: no id and the favourites title. */
  predicate WantsFavorite(args: Args) {
    args.id == NO_ID && args.title == PlaylistAdapter.FAVORITE_PLAYLIST_TITLE
  }

  predicate ResolveMatches(p: Playlist, args: Args) {
    (args.id != NO_ID && p.id == Some(args.id))
    || (args.id == NO_ID && p.title == Some(args.title))
    || (WantsFavorite(args) && p.kind == Favorite)
  }

  /** `resolvePlaylist`: the first playlist that matches the arguments. */
  function ResolvePlaylist(playlists: seq<Playlist>, args: Args): (r: Option<Playlist>)
    ensures r.None? <==> forall i :: 0 <= i < |playlists| ==> !ResolveMatches(playlists[i], args)
    ensures r.Some? ==> r.value in playlists && ResolveMatches(r.value, args)
  {
    FirstBy(playlists, ResolveMatches, args)
  }

  /** The header title after an update: the playlist's own title if it is not blank, else the argument. */
  function HeaderTitle(p: Playlist, args: Args): (t: string)
    ensures p.title.Some? && !IsBlank(p.title.value) ==> t == p.title.value
    ensures p.title.None? || IsBlank(p.title.value) ==> t == args.title
  {
    if p.title.Some? && !IsBlank(p.title.value) then p.title.value else args.title
  }

  /** The row for the favourites opens the page in favourites mode when there is no Favorite playlist with an id. */
  lemma FavoriteRowOpensFavorites(playlists: seq<Playlist>, songs: seq<MediaItem>)
    requires PlaylistAdapter.FirstFavorite(playlists).None? || PlaylistAdapter.FirstFavorite(playlists).value.id.None?
    ensures var row := PlaylistAdapter.FavoriteRow(playlists, songs);
      WantsFavorite(NewInstance(row.playlistId, row.title, |row.songs|))
  {
  }

  /** With a Favorite playlist in the library, opening the favourites row always finds a playlist. */
  lemma FavoriteRowResolves(playlists: seq<Playlist>, songs: seq<MediaItem>)
    requires PlaylistAdapter.FirstFavorite(playlists).Some?
    requires forall p :: p in playlists && p.id.Some? ==> p.id.value != NO_ID
    ensures var row := PlaylistAdapter.FavoriteRow(playlists, songs);
      ResolvePlaylist(playlists, NewInstance(row.playlistId, row.title, |row.songs|)).Some?
  {
    var fav := PlaylistAdapter.FirstFavorite(playlists).value;
    var row := PlaylistAdapter.FavoriteRow(playlists, songs);
    var args := NewInstance(row.playlistId, row.title, |row.songs|);
    var i :| 0 <= i < |playlists| && playlists[i] == fav;
    assert ResolveMatches(playlists[i], args);
  }

  /** The row list's stored-playlist row for an untitled playlist without an id. */
  const UNTITLED_NO_ID: Playlist := Playlist(Stored, None, None, [], None)

  /**
   * As written, an untitled playlist without an id cannot be opened: its row
   * passes the display title "(Untitled Playlist)", but the page compares it
   * with the playlist's own (missing) title.
   */
  lemma UntitledRowDoesNotResolve()
    ensures var rows := PlaylistAdapter.SubmitPlaylists([UNTITLED_NO_ID], [], map[]);
      |rows| == 2
      && ResolvePlaylist([UNTITLED_NO_ID], NewInstance(rows[1].playlistId, rows[1].title, |rows[1].songs|)).None?
  {
    var rows := PlaylistAdapter.SubmitPlaylists([UNTITLED_NO_ID], [], map[]);
    PlaylistAdapter.RegularRowsFollowLibrary([UNTITLED_NO_ID], [], map[]);
    assert PlaylistAdapter.BasePlaylists([UNTITLED_NO_ID]) == [UNTITLED_NO_ID] by {
      FilterByAll([UNTITLED_NO_ID], PlaylistAdapter.IsBasePlaylist, ());
    }
    var row := rows[1];
    assert row == PlaylistAdapter.ToRow(UNTITLED_NO_ID, map[]);
    assert row.title == PlaylistAdapter.UNTITLED_PLAYLIST_TITLE;
    assert row.title[0] != PlaylistAdapter.FAVORITE_PLAYLIST_TITLE[0];
  }

  /** The corrected match: an id-less request also matches a stored playlist by the title its row displays. */
  predicate ResolveMatchesDisplayed(p: Playlist, args: Args) {
    ResolveMatches(p, args)
    || (args.id == NO_ID && p.kind == Stored && p.id.None? && PlaylistAdapter.RowTitle(p) == args.title)
  }

  function ResolvePlaylistDisplayed(playlists: seq<Playlist>, args: Args): (r: Option<Playlist>)
    ensures r.None? <==> forall i :: 0 <= i < |playlists| ==> !ResolveMatchesDisplayed(playlists[i], args)
    ensures r.Some? ==> r.value in playlists && ResolveMatchesDisplayed(r.value, args)
  {
    FirstBy(playlists, ResolveMatchesDisplayed, args)
  }

  /**
   * With the corrected match, every regular row opens a playlist: the one
   * with its id, or one whose row shows the same title.
   */
  lemma RegularRowResolves(playlists: seq<Playlist>, songs: seq<MediaItem>, prefs: PlaylistAdapter.CoverPrefs, i: nat)
    requires forall p :: p in playlists && p.id.Some? ==> p.id.value != NO_ID
    requires 1 <= i < |PlaylistAdapter.SubmitPlaylists(playlists, songs, prefs)|
    ensures var row := PlaylistAdapter.SubmitPlaylists(playlists, songs, prefs)[i];
      var r := ResolvePlaylistDisplayed(playlists, NewInstance(row.playlistId, row.title, |row.songs|));
      && r.Some?
      && (row.playlistId.Some? ==> r.value.id == row.playlistId)
  {
    var p := PlaylistAdapter.RowAt(playlists, songs, prefs, i);
    var row := PlaylistAdapter.SubmitPlaylists(playlists, songs, prefs)[i];
    var args := NewInstance(row.playlistId, row.title, |row.songs|);
    assert p in playlists by {
      SubsequenceMembers(PlaylistAdapter.BasePlaylists(playlists), playlists, p);
    }
    var j :| 0 <= j < |playlists| && playlists[j] == p;
    assert ResolveMatchesDisplayed(playlists[j], args);
  }
}

=== FILE: popup_helper.dfy ===
/**
 * The player's popup menu: a column of 48dp menu entries and 10dp spacers,
 * anchored at a point, opened and retracted by a 0→1 / 1→0 animation.
 * Lengths are in dp throughout (one pixel per dp).
 */
module PopupHelper {
  import opened Wrappers

  const MENU_ENTRY_HEIGHT: int := 48
  const SPACER_HEIGHT: int := 10
  const POPUP_WIDTH: int := 270
  /** The popup's corner sits 16dp right of and 12dp above the touch point. */
  const ANCHOR_DX: int := 16
  const ANCHOR_DY: int := 12

  datatype PopupEntry = MenuEntry(text: string, isDestructive: bool) | Spacer

  function HeightOf(e: PopupEntry): (h: int)
    ensures h == if e.Spacer? then SPACER_HEIGHT else MENU_ENTRY_HEIGHT
  {
    match e
    case MenuEntry(_, _) => MENU_ENTRY_HEIGHT
    case Spacer => SPACER_HEIGHT
  }

  /** The summed height of a run of entries. */
  function Stack(es: seq<PopupEntry>): (h: int)
    ensures SPACER_HEIGHT * |es| <= h <= MENU_ENTRY_HEIGHT * |es|
    decreases |es|
  {
    if es == [] then 0 else HeightOf(es[0]) + Stack(es[1..])
  }

  /** Stacking is additive, so a run's height is its prefix's height plus the rest. */
  lemma {:induction false} StackAppend(a: seq<PopupEntry>, b: seq<PopupEntry>)
    ensures Stack(a + b) == Stack(a) + Stack(b)
    decreases |a|
  {
    if a == [] {
      assert a + b == b;
    } else {
      assert (a + b)[0] == a[0];
      assert (a + b)[1..] == a[1..] + b;
      StackAppend(a[1..], b);
    }
  }

  /** `popupHeight`: the sum of the current entries' heights, 0 without entries. */
  function PopupHeight(entries: Option<seq<PopupEntry>>): (h: int)
    ensures entries.None? ==> h == 0
    ensures entries.Some? ==> (h == 0 <==> entries.value == [])
    ensures entries.Some? ==> SPACER_HEIGHT * |entries.value| <= h <= MENU_ENTRY_HEIGHT * |entries.value|
  {
    if entries.None? then 0 else Stack(entries.value)
  }

  /** The `PopupMenuBuilder` calls. */
  function AddMenuEntry(es: seq<PopupEntry>, text: string): (r: seq<PopupEntry>)
    ensures r == es + [MenuEntry(text, false)]
    ensures Stack(r) == Stack(es) + MENU_ENTRY_HEIGHT
  {
    StackAppend(es, [MenuEntry(text, false)]);
    es + [MenuEntry(text, false)]
  }

  function AddDestructiveMenuEntry(es: seq<PopupEntry>, text: string): (r: seq<PopupEntry>)
    ensures r == es + [MenuEntry(text, true)]
    ensures Stack(r) == Stack(es) + MENU_ENTRY_HEIGHT
  {
    StackAppend(es, [MenuEntry(text, true)]);
    es + [MenuEntry(text, true)]
  }

  function AddSpacer(es: seq<PopupEntry>): (r: seq<PopupEntry>)
    ensures r == es + [Spacer]
    ensures Stack(r) == Stack(es) + SPACER_HEIGHT
  {
    StackAppend(es, [Spacer]);
    es + [Spacer]
  }

  /** Where entry `i` starts when the column starts at `base`. */
  function EntryTop(base: int, es: seq<PopupEntry>, i: int): (t: int)
    requires 0 <= i <= |es|
    ensures base <= t <= base + Stack(es)
  {
    StackAppend(es[..i], es[i..]);
    assert es[..i] + es[i..] == es;
    base + Stack(es[..i])
  }

  /** Entries tile the column: each starts where the one before it ends, and the last ends at the bottom. */
  lemma EntriesTile(base: int, es: seq<PopupEntry>, i: int)
    requires 0 <= i < |es|
    ensures EntryTop(base, es, i + 1) == EntryTop(base, es, i) + HeightOf(es[i])
  {
    assert es[..i + 1] == es[..i] + [es[i]];
    StackAppend(es[..i], [es[i]]);
    assert Stack([es[i]]) == HeightOf(es[i]) by {
      assert [es[i]][1..] == [];
    }
  }

  /** The column starts at the base and ends at the base plus the popup height. */
  lemma ColumnEnds(base: int, es: seq<PopupEntry>)
    ensures EntryTop(base, es, 0) == base
    ensures EntryTop(base, es, |es|) == base + Stack(es)
  {
    assert es[..|es|] == es;
    assert es[..0] == [];
  }

  /** So entries never overlap: an earlier entry ends no lower than a later one starts. */
  lemma {:induction false} EntriesDoNotOverlap(base: int, es: seq<PopupEntry>, i: int, j: int)
    requires 0 <= i < j < |es|
    ensures EntryTop(base, es, i) + HeightOf(es[i]) <= EntryTop(base, es, j)
    decreases j - i
  {
    EntriesTile(base, es, i);
    if i + 1 < j {
      EntriesDoNotOverlap(base, es, i + 1, j);
      EntriesTile(base, es, i + 1);
    }
  }

  /** A thin separator goes under a menu entry that is not last and is not followed by a spacer. */
  predicate HasSeparatorBelow(es: seq<PopupEntry>, i: int)
    requires 0 <= i < |es|
  {
    es[i].MenuEntry? && i != |es| - 1 && !es[i + 1].Spacer?
  }

  /** Separators sit exactly between two adjacent menu entries. */
  lemma SeparatorsBetweenMenuEntries(es: seq<PopupEntry>, i: int)
    requires 0 <= i < |es|
    ensures HasSeparatorBelow(es, i) <==> i + 1 < |es| && es[i].MenuEntry? && es[i + 1].MenuEntry?
  {
  }

  // ---------------------------------------------------------------------
  // Opening and retracting
  // ---------------------------------------------------------------------

  /** A running popup animation of the transform fraction. */
  datatype Animation = Animation(from: real, to: real)

  /** The popup state: actions are named by numbers. */
  datatype Popup = Popup(
    fraction: real,
    entries: Option<seq<PopupEntry>>,
    initialX: int,
    initialY: int,
    anchorFromTop: bool,
    background: Option<int>,
    dismissAction: Option<int>,
    animation: Option<Animation>)

  /** The render node's placement: `[left, right] × [top, bottom]`. */
  datatype Box = Box(left: int, top: int, right: int, bottom: int)

  /** What a call did besides the new state: the actions it invoked, and the box it placed the popup in. */
  datatype CallUp = CallUp(popup: Popup, invoked: seq<int>, started: bool, box: Option<Box>)

  /** The render box: downwards from the anchor when anchored from the top, upwards otherwise, `POPUP_WIDTH` wide to its left. */
  function RenderBox(p: Popup): (b: Box)
    ensures b.right - b.left == POPUP_WIDTH && b.right == p.initialX
    ensures b.bottom - b.top == PopupHeight(p.entries)
    ensures p.anchorFromTop ==> b.top == p.initialY
    ensures !p.anchorFromTop ==> b.bottom == p.initialY
  {
    var h := PopupHeight(p.entries);
    if p.anchorFromTop then Box(p.initialX - POPUP_WIDTH, p.initialY, p.initialX, p.initialY + h)
    else Box(p.initialX - POPUP_WIDTH, p.initialY - h, p.initialX, p.initialY)
  }

  /**
   * `callUpPopup`. Mid-animation, the call only runs the dismiss action it was
   * given. Otherwise an open anchors the popup beside the touch point and
   * keeps the background; a retract drops the background and runs the stored
   * dismiss action (the one just given, if any); given entries and a given
   * dismiss action replace the stored ones; and the fraction starts
   * animating towards 1 for an open and towards 0 for a retract.
   */
  function CallUpPopup(p: Popup, isRetract: bool, entryList: Option<seq<PopupEntry>>, locationX: int, locationY: int,
                       anchorFromTop: bool, background: Option<int>, dismissAction: Option<int>): (c: CallUp)
    ensures p.fraction != 0.0 && p.fraction != 1.0 ==>
      c.popup == p && !c.started && c.box.None?
      && c.invoked == (if dismissAction.Some? then [dismissAction.value] else [])
    ensures (p.fraction == 0.0 || p.fraction == 1.0) ==>
      && c.started && c.box == Some(RenderBox(c.popup))
      && c.popup.fraction == p.fraction
      && c.popup.entries == (if entryList.Some? then entryList else p.entries)
      && c.popup.dismissAction == (if dismissAction.Some? then dismissAction else p.dismissAction)
      && (!isRetract ==>
            c.popup.initialX == locationX + ANCHOR_DX && c.popup.initialY == locationY - ANCHOR_DY
            && c.popup.anchorFromTop == anchorFromTop && c.popup.background == background
            && c.invoked == []
            && c.popup.animation == Some(Animation(0.0, 1.0)))
      && (isRetract ==>
            c.popup.initialX == p.initialX && c.popup.initialY == p.initialY
            && c.popup.anchorFromTop == p.anchorFromTop && c.popup.background.None?
            && c.invoked == (if c.popup.dismissAction.Some? then [c.popup.dismissAction.value] else [])
            && c.popup.animation == Some(Animation(1.0, 0.0)))
  {
    if p.fraction != 0.0 && p.fraction != 1.0 then
      CallUp(p, if dismissAction.Some? then [dismissAction.value] else [], false, None)
    else
      var anchored :=
        if !isRetract then p.(initialX := locationX + ANCHOR_DX, initialY := locationY - ANCHOR_DY,
                              anchorFromTop := anchorFromTop, background := background)
        else p.(background := None);
      var withEntries := if entryList.Some? then anchored.(entries := entryList) else anchored;
      var withDismiss := if dismissAction.Some? then withEntries.(dismissAction := dismissAction) else withEntries;
      var invoked := if isRetract && withDismiss.dismissAction.Some? then [withDismiss.dismissAction.value] else [];
      var q := withDismiss.(animation := Some(if isRetract then Animation(1.0, 0.0) else Animation(0.0, 1.0)));
      CallUp(q, invoked, true, Some(RenderBox(q)))
  }

  /** A popup opened and then retracted by the panel (no new entries or action) runs its stored dismiss action exactly once. */
  lemma OpenThenRetractDismissesOnce(p: Popup, entries: seq<PopupEntry>, x: int, y: int, top: bool, bg: Option<int>, action: int)
    requires p.fraction == 0.0
    ensures var o := CallUpPopup(p, false, Some(entries), x, y, top, bg, Some(action));
      o.invoked == []
      && CallUpPopup(o.popup.(fraction := 1.0), true, None, 0, 0, false, None, None).invoked == [action]
  {
  }

  /** `isInsidePopupMenu`: inclusive on all four edges. */
  predicate IsInsidePopupMenu(left: real, top: real, right: real, bottom: real, x: real, y: real) {
    left <= x <= right && top <= y <= bottom
  }

  /** `drawPopup`: the popup is drawn exactly when its fraction is not 0. */
  function DrawsPopup(p: Popup): (r: bool)
    ensures r <==> p.fraction != 0.0
  {
    p.fraction != 0.0
  }

  /**
   * Drawing across a call-up. A call mid-animation leaves the popup as it
   * was, and so still drawn. Any other call leaves the popup drawn exactly
   * when it was fully open; once the animation it starts has reached its end
   * value, the popup is drawn after an open and not drawn after a retract.
   */
  lemma CallUpDrawing(p: Popup, isRetract: bool, entryList: Option<seq<PopupEntry>>, locationX: int, locationY: int,
                      anchorFromTop: bool, background: Option<int>, dismissAction: Option<int>)
    ensures var c := CallUpPopup(p, isRetract, entryList, locationX, locationY, anchorFromTop, background, dismissAction);
      && (!c.started ==> c.popup == p && DrawsPopup(c.popup))
      && (c.started ==> (DrawsPopup(c.popup) <==> p.fraction == 1.0))
      && (c.started ==> c.popup.animation.Some?
                        && (DrawsPopup(c.popup.(fraction := c.popup.animation.value.to)) <==> !isRetract))
  {
  }

  /** The corners of the popup are part of it. */
  lemma CornersAreInside(left: real, top: real, right: real, bottom: real)
    requires left <= right && top <= bottom
    ensures IsInsidePopupMenu(left, top, right, bottom, left, top)
    ensures IsInsidePopupMenu(left, top, right, bottom, right, bottom)
  {
  }
}

=== FILE: queue_preview.dfy ===
/**
 * The queue preview list in the full player: a drag-to-reorder list of queue
 * entries. An update asked for during a drag is dropped; any other update
 * lands later, from a background job, whatever the drag state is then.
 */
module QueuePreview {
  import opened Wrappers
  import opened Media

  /** `RecyclerView.NO_POSITION`. */
  const NO_POSITION: int := -1

  /** `ItemTouchHelper` direction bits and action states. */
  const UP: bv32 := 1
  const DOWN: bv32 := 2
  const ACTION_STATE_IDLE: int := 0
  const ACTION_STATE_SWIPE: int := 1
  const ACTION_STATE_DRAG: int := 2
  /** Bits per action state in a movement-flags word. */
  const DIRECTION_FLAG_BITS: bv32 := 8

  /** A queue entry: an opaque identity (modelled as a number) and its song. */
  datatype QueueItem = QueueItem(uid: int, song: MediaItem)

  /**
   * The adapter's list, its drag flag, and the list carried by the diff job
   * still in flight, if any (`diffJob` before it lands).
   */
  datatype Adapter = Adapter(items: seq<QueueItem>, isDragging: bool, pending: Option<seq<QueueItem>>)

  /** What `onItemMove` did: the new adapter, its return value and the `(from, to)` pair it reported to `onMove`. */
  datatype MoveOutcome = MoveOutcome(adapter: Adapter, moved: bool, reported: Option<(int, int)>)

  /** A position the touch helper can report: `NO_POSITION` or an index of the list. */
  predicate IsAdapterPosition(items: seq<QueueItem>, p: int) {
    p == NO_POSITION || 0 <= p < |items|
  }

  /** `Collections.swap`. */
  function Swap<T>(s: seq<T>, i: int, j: int): (r: seq<T>)
    requires 0 <= i < |s| && 0 <= j < |s|
    ensures |r| == |s|
    ensures r[i] == s[j] && r[j] == s[i]
    ensures forall k :: 0 <= k < |s| && k != i && k != j ==> r[k] == s[k]
    ensures multiset(r) == multiset(s)
  {
    s[i := s[j]][j := s[i]]
  }

  /** Swapping the same pair twice gives the list back. */
  lemma SwapTwice<T>(s: seq<T>, i: int, j: int)
    requires 0 <= i < |s| && 0 <= j < |s|
    ensures Swap(Swap(s, i, j), j, i) == s
    ensures Swap(Swap(s, i, j), i, j) == s
  {
    var t := Swap(s, i, j);
    assert forall k :: 0 <= k < |s| ==> Swap(t, j, i)[k] == s[k];
    assert forall k :: 0 <= k < |s| ==> Swap(t, i, j)[k] == s[k];
  }

  /**
   * `onItemMove`: a move involving `NO_POSITION` is refused; any other swaps
   * the two entries, reports the pair and returns true. Positions other than
   * these make `Collections.swap` throw, so they are not accepted here.
   */
  function OnItemMove(a: Adapter, from: int, to: int): (o: MoveOutcome)
    requires IsAdapterPosition(a.items, from) && IsAdapterPosition(a.items, to)
    ensures (from == NO_POSITION || to == NO_POSITION) <==> !o.moved
    ensures !o.moved ==> o.adapter == a && o.reported.None?
    ensures o.moved ==>
      && o.reported == Some((from, to))
      && o.adapter.isDragging == a.isDragging
      && |o.adapter.items| == |a.items|
      && o.adapter.items[from] == a.items[to] && o.adapter.items[to] == a.items[from]
      && (forall k :: 0 <= k < |a.items| && k != from && k != to ==> o.adapter.items[k] == a.items[k])
      && multiset(o.adapter.items) == multiset(a.items)
  {
    if from == NO_POSITION || to == NO_POSITION then MoveOutcome(a, false, None)
    else MoveOutcome(a.(items := Swap(a.items, from, to)), true, Some((from, to)))
  }

  /** Dragging an entry back to where it came from restores the list. */
  lemma MoveBackRestores(a: Adapter, from: int, to: int)
    requires IsAdapterPosition(a.items, from) && IsAdapterPosition(a.items, to)
    ensures var o := OnItemMove(a, from, to);
      OnItemMove(o.adapter, to, from).adapter == a
  {
    if from != NO_POSITION && to != NO_POSITION {
      SwapTwice(a.items, from, to);
    }
  }

  /**
   * `updateItems`: ignored while dragging; otherwise the job in flight is
   * cancelled and a new one is launched carrying `newItems`. The list itself
   * changes only when that job lands (`Land`).
   */
  function UpdateItems(a: Adapter, newItems: seq<QueueItem>): (r: Adapter)
    ensures a.isDragging ==> r == a
    ensures !a.isDragging ==> r.items == a.items && !r.isDragging && r.pending == Some(newItems)
  {
    if a.isDragging then a else a.(pending := Some(newItems))
  }

  /**
   * The diff job landing on the main thread: the list becomes the job's new
   * items. The drag flag is not looked at again here.
   */
  function Land(a: Adapter): (r: Adapter)
    ensures a.pending.None? ==> r == a
    ensures a.pending.Some? ==> r.items == a.pending.value && r.pending.None? && r.isDragging == a.isDragging
  {
    if a.pending.Some? then a.(items := a.pending.value, pending := None) else a
  }

  /** Outside a drag, an update that lands leaves exactly the new items, and only the latest update lands. */
  lemma UpdateThenLand(a: Adapter, older: seq<QueueItem>, newItems: seq<QueueItem>)
    requires !a.isDragging
    ensures Land(UpdateItems(a, newItems)).items == newItems
    ensures Land(UpdateItems(UpdateItems(a, older), newItems)).items == newItems
  {
  }

  /** `onDragStart` / `onDragEnd`: neither touches the list nor the job in flight. */
  function OnDragStart(a: Adapter): (r: Adapter)
    ensures r.isDragging && r.items == a.items && r.pending == a.pending
  {
    a.(isDragging := true)
  }

  function OnDragEnd(a: Adapter): (r: Adapter)
    ensures !r.isDragging && r.items == a.items && r.pending == a.pending
  {
    a.(isDragging := false)
  }

  /** The touch helper's `onSelectedChanged`: entering the drag state raises the flag, nothing else touches it. */
  function OnSelectedChanged(a: Adapter, actionState: int): (r: Adapter)
    ensures actionState == ACTION_STATE_DRAG ==> r.isDragging
    ensures actionState != ACTION_STATE_DRAG ==> r == a
    ensures r.items == a.items && r.pending == a.pending
  {
    if actionState == ACTION_STATE_DRAG then OnDragStart(a) else a
  }

  /** The touch helper's `clearView`: the drag is over. */
  function ClearView(a: Adapter): (r: Adapter)
    ensures !r.isDragging && r.items == a.items && r.pending == a.pending
  {
    OnDragEnd(a)
  }

  /** What reaches the adapter, in order. */
  datatype QueueEvent =
    | Update(newItems: seq<QueueItem>)
    | Landed
    | Selected(actionState: int)
    | Cleared

  function Apply(a: Adapter, e: QueueEvent): Adapter {
    match e
    case Update(items) => UpdateItems(a, items)
    case Landed => Land(a)
    case Selected(state) => OnSelectedChanged(a, state)
    case Cleared => ClearView(a)
  }

  function Run(a: Adapter, es: seq<QueueEvent>): Adapter
    decreases |es|
  {
    if es == [] then a else Run(Apply(a, es[0]), es[1..])
  }

  /** An event that does not end a drag. */
  predicate KeepsDrag(e: QueueEvent) { !e.Cleared? }

  /**
   * A drag that starts with no diff job in flight is never disturbed: updates
   * asked for before it ends are all dropped, so nothing can land.
   */
  lemma {:induction false} UpdatesDuringDragDropped(a: Adapter, es: seq<QueueEvent>)
    requires a.isDragging && a.pending.None?
    requires forall i :: 0 <= i < |es| ==> KeepsDrag(es[i])
    ensures Run(a, es) == a
    decreases |es|
  {
    if es != [] {
      assert KeepsDrag(es[0]);
      assert Apply(a, es[0]) == a;
      UpdatesDuringDragDropped(a, es[1..]);
    }
  }

  /** After the drag ends, the next update is applied in full once its job lands. */
  lemma UpdateAfterDragApplies(a: Adapter, newItems: seq<QueueItem>)
    requires a.pending.None?
    ensures Run(a, [Selected(ACTION_STATE_DRAG), Update(newItems), Cleared, Update(newItems), Landed]).items == newItems
  {
    var es := [Selected(ACTION_STATE_DRAG), Update(newItems), Cleared, Update(newItems), Landed];
    var b := OnDragStart(a);
    var c := OnDragEnd(b);
    var d := UpdateItems(c, newItems);
    assert Run(a, es) == Run(b, es[1..]);
    assert Run(b, es[1..]) == Run(b, es[2..]);
    assert Run(b, es[2..]) == Run(c, es[3..]);
    assert Run(c, es[3..]) == Run(d, es[4..]);
    assert Run(d, es[4..]) == Run(Land(d), []);
  }

  /**
   * An update asked for just before a drag starts still lands during the
   * drag: the list is replaced while the row is held, since neither the job
   * nor the drag start looks at the other.
   */
  lemma UpdateLandsDuringDrag(a: Adapter, newItems: seq<QueueItem>)
    requires !a.isDragging
    ensures var r := Run(a, [Update(newItems), Selected(ACTION_STATE_DRAG), Landed]);
      r.isDragging && r.items == newItems
  {
    var es := [Update(newItems), Selected(ACTION_STATE_DRAG), Landed];
    var b := UpdateItems(a, newItems);
    var c := OnDragStart(b);
    assert Run(a, es) == Run(b, es[1..]);
    assert Run(b, es[1..]) == Run(c, es[2..]);
    assert Run(c, es[2..]) == Run(Land(c), []);
  }

  /** `ItemTouchHelper.Callback.makeMovementFlags`: idle, swipe and drag directions, one byte each. */
  function MakeMovementFlags(dragFlags: bv32, swipeFlags: bv32): (f: bv32)
    requires dragFlags < 0x100 && swipeFlags < 0x100
    ensures (f >> (2 * DIRECTION_FLAG_BITS)) & 0xFF == dragFlags
    ensures (f >> DIRECTION_FLAG_BITS) & 0xFF == swipeFlags
    ensures f & 0xFF == swipeFlags | dragFlags
  {
    (swipeFlags | dragFlags) | (swipeFlags << DIRECTION_FLAG_BITS) | (dragFlags << (2 * DIRECTION_FLAG_BITS))
  }

  /** The helper's `getMovementFlags`: vertical drags only, no swipe. */
  function MovementFlags(): (f: bv32)
    ensures (f >> (2 * DIRECTION_FLAG_BITS)) & 0xFF == UP | DOWN
    ensures (f >> DIRECTION_FLAG_BITS) & 0xFF == 0
  {
    MakeMovementFlags(UP | DOWN, 0)
  }

  /** Drags start only from the reorder handle, and nothing can be swiped away. */
  const LONG_PRESS_DRAG_ENABLED: bool := false
  const ITEM_VIEW_SWIPE_ENABLED: bool := false

  /** `areItemsTheSame`: same queue identity. */
  predicate SameItem(x: QueueItem, y: QueueItem) { x.uid == y.uid }

  /** `areContentsTheSame`: same title, artist and artwork. */
  predicate SameContents(x: QueueItem, y: QueueItem) {
    x.song.title == y.song.title && x.song.artist == y.song.artist && x.song.artworkUri == y.song.artworkUri
  }

  /** The diff callback at a pair of positions. */
  function AreItemsTheSame(oldList: seq<QueueItem>, newList: seq<QueueItem>, i: int, j: int): (r: bool)
    requires 0 <= i < |oldList| && 0 <= j < |newList|
    ensures r <==> oldList[i].uid == newList[j].uid
  {
    SameItem(oldList[i], newList[j])
  }

  function AreContentsTheSame(oldList: seq<QueueItem>, newList: seq<QueueItem>, i: int, j: int): (r: bool)
    requires 0 <= i < |oldList| && 0 <= j < |newList|
    ensures r <==> (oldList[i].song.title == newList[j].song.title
                    && oldList[i].song.artist == newList[j].song.artist
                    && oldList[i].song.artworkUri == newList[j].song.artworkUri)
  {
    SameContents(oldList[i], newList[j])
  }

  /**
   * Only the three shown fields matter: a song whose album, tags or rating
   * changed is not redrawn, and the same song queued twice is two items.
   */
  lemma ContentsIgnoreOtherFields(x: QueueItem, song: MediaItem, uid: int)
    requires song.title == x.song.title && song.artist == x.song.artist && song.artworkUri == x.song.artworkUri
    ensures SameContents(x, QueueItem(uid, song))
    ensures SameItem(x, QueueItem(uid, song)) <==> uid == x.uid
  {
  }

  /** The two texts of a bound row: title or "Unknown", artist or "Unknown Artist". */
  function RowTexts(item: QueueItem): (r: (string, string))
    ensures item.song.title.Some? ==> r.0 == item.song.title.value
    ensures item.song.title.None? ==> r.0 == "Unknown"
    ensures item.song.artist.Some? ==> r.1 == item.song.artist.value
    ensures item.song.artist.None? ==> r.1 == "Unknown Artist"
  {
    (item.song.title.GetOr("Unknown"), item.song.artist.GetOr("Unknown Artist"))
  }
}

=== FILE: search_fragment.dfy ===
/**
 * The search page: a main page with a search field in the navigation bar
 * that expands into a detailed search view, with two result tabs ("Apple
 * Music" and "Library") under a sliding indicator.
 */
module SearchFragment {
  import opened Wrappers
  import opened Numbers

  datatype Search = Search(
    expanded: bool,
    appleTabSelected: bool,
    navText: string,
    detailText: string,
    titleVisible: bool,
    subtitleVisible: bool)

  /** The page as it opens: collapsed, on the first tab, both indicator texts shown. */
  function Initial(): (s: Search)
    ensures !s.expanded && s.appleTabSelected
  {
    Search(false, true, [], [], true, true)
  }

  /**
   * `enterSearchMode`: does nothing when already expanded. Otherwise it
   * remembers which indicator texts are showing and copies the query from
   * the bar's field into the detail field.
   */
  function EnterSearchMode(s: Search, titleShowing: bool, subtitleShowing: bool): (r: Search)
    ensures s.expanded ==> r == s
    ensures !s.expanded ==>
      r.expanded && r.detailText == s.navText && r.navText == s.navText
      && r.titleVisible == titleShowing && r.subtitleVisible == subtitleShowing
      && r.appleTabSelected == s.appleTabSelected
  {
    if s.expanded then s
    else s.(expanded := true, titleVisible := titleShowing, subtitleVisible := subtitleShowing, detailText := s.navText)
  }

  /** `exitSearchMode`: does nothing when not expanded; otherwise the query goes back into the bar's field. */
  function ExitSearchMode(s: Search): (r: Search)
    ensures !s.expanded ==> r == s
    ensures s.expanded ==> !r.expanded && r.navText == s.detailText && r.detailText == s.detailText
    ensures r.appleTabSelected == s.appleTabSelected
  {
    if !s.expanded then s else s.(expanded := false, navText := s.detailText)
  }

  /** The user types in the detail field. */
  function TypeDetail(s: Search, text: string): (r: Search)
    ensures r.detailText == text && r.expanded == s.expanded
  {
    s.(detailText := text)
  }

  /** The query survives a round trip: whatever is in the detail field when search closes is in the bar's field afterwards. */
  lemma QueryRoundTrip(s: Search, t1: bool, t2: bool, text: string)
    requires !s.expanded
    ensures ExitSearchMode(EnterSearchMode(s, t1, t2)).navText == s.navText
    ensures ExitSearchMode(TypeDetail(EnterSearchMode(s, t1, t2), text)).navText == text
    ensures !ExitSearchMode(EnterSearchMode(s, t1, t2)).expanded
  {
  }

  /** Focusing the bar's field opens search; losing focus does nothing. */
  function OnNavFocusChange(s: Search, hasFocus: bool, titleShowing: bool, subtitleShowing: bool): (r: Search)
    ensures hasFocus ==> r == EnterSearchMode(s, titleShowing, subtitleShowing)
    ensures !hasFocus ==> r == s
  {
    if hasFocus then EnterSearchMode(s, titleShowing, subtitleShowing) else s
  }

  /** What back does: close search, or hand the press to the next handler. */
  datatype BackResult = ClosedSearch | Delegated

  function HandleBack(s: Search): (r: (Search, BackResult))
    ensures s.expanded <==> r.1 == ClosedSearch
    ensures s.expanded ==> r.0 == ExitSearchMode(s) && !r.0.expanded
    ensures !s.expanded ==> r.0 == s
  {
    if s.expanded then (ExitSearchMode(s), ClosedSearch) else (s, Delegated)
  }

  /**
   * Focus, then back. Focusing the bar's field leaves search open whatever
   * state it was in, and losing focus never opens or closes it. The back
   * press that follows a focus closes search instead of leaving the page,
   * and puts whatever was typed into the bar's field; with nothing typed
   * since a focus that opened search, the bar keeps its query.
   */
  lemma FocusThenBack(s: Search, t1: bool, t2: bool, text: string)
    ensures OnNavFocusChange(s, true, t1, t2).expanded
    ensures OnNavFocusChange(s, false, t1, t2) == s
    ensures var b := HandleBack(TypeDetail(OnNavFocusChange(s, true, t1, t2), text));
      b.1 == ClosedSearch && !b.0.expanded && b.0.navText == text
    ensures !s.expanded ==> HandleBack(OnNavFocusChange(s, true, t1, t2)).0.navText == s.navText
  {
  }

  /** Two backs from an open search: the first closes it, the second leaves the page. */
  lemma SecondBackLeaves(s: Search)
    requires s.expanded
    ensures HandleBack(HandleBack(s).0).1 == Delegated
  {
  }

  // ---------------------------------------------------------------------
  // Tabs
  // ---------------------------------------------------------------------

  /** `selectTab`: re-selecting the current tab changes nothing. */
  function SelectTab(s: Search, appleTab: bool): (r: Search)
    ensures r.appleTabSelected == appleTab
    ensures s.appleTabSelected == appleTab ==> r == s
    ensures r.expanded == s.expanded && r.navText == s.navText && r.detailText == s.detailText
  {
    if s.appleTabSelected == appleTab then s else s.(appleTabSelected := appleTab)
  }

  /** `updateTabSelection`: which of the two tab titles gets the selected colour. */
  function TabHighlight(s: Search): (r: (bool, bool))
    ensures r.0 != r.1
    ensures r.0 <==> s.appleTabSelected
  {
    (s.appleTabSelected, !s.appleTabSelected)
  }

  /** After selecting a tab, exactly that tab is highlighted. */
  lemma SelectedTabHighlighted(s: Search, appleTab: bool)
    ensures TabHighlight(SelectTab(s, appleTab)) == (appleTab, !appleTab)
  {
  }

  /** The indicator's width and its horizontal offset. */
  datatype Indicator = Indicator(width: int, translation: int)

  /**
   * `updateTabIndicator`: nothing while the container has no width.
   * Otherwise the indicator is half of the width inside its margins (the
   * float half truncated toward zero), at the left for the first tab and
   * flush right for the second.
   */
  function TabIndicator(containerWidth: int, horizontalMargin: int, appleTab: bool): (r: Option<Indicator>)
    ensures containerWidth == 0 <==> r.None?
    ensures r.Some? && containerWidth - horizontalMargin >= 0 ==> r.value.width == (containerWidth - horizontalMargin) / 2
    ensures r.Some? && appleTab ==> r.value.translation == 0
    ensures r.Some? && !appleTab ==> r.value.translation + r.value.width + horizontalMargin == containerWidth
  {
    if containerWidth == 0 then None
    else
      var w := Truncate((containerWidth - horizontalMargin) as real / 2.0);
      Some(Indicator(w, if appleTab then 0 else containerWidth - w - horizontalMargin))
  }

  /** With room inside the margins, the two indicator positions do not overlap and both fit. */
  lemma IndicatorPositionsFit(containerWidth: int, horizontalMargin: int)
    requires containerWidth > 0 && 0 <= horizontalMargin <= containerWidth
    ensures var a := TabIndicator(containerWidth, horizontalMargin, true).value;
      var b := TabIndicator(containerWidth, horizontalMargin, false).value;
      a.translation + a.width <= b.translation && b.translation + b.width + horizontalMargin == containerWidth
  {
  }

  /** The views that slide away when search opens. */
  datatype MainView = NavigationBarView | ResultList | IndicatorTitle | IndicatorSubtitle

  /** `getMainPageViews`: the bar and the list always, each indicator text only if it was showing. */
  function MainPageViews(s: Search): (vs: seq<MainView>)
    ensures |vs| >= 2 && vs[0] == NavigationBarView && vs[1] == ResultList
    ensures IndicatorTitle in vs <==> s.titleVisible
    ensures IndicatorSubtitle in vs <==> s.subtitleVisible
    ensures forall i, j :: 0 <= i < j < |vs| ==> vs[i] != vs[j]
  {
    [NavigationBarView, ResultList]
      + (if s.titleVisible then [IndicatorTitle] else [])
      + (if s.subtitleVisible then [IndicatorSubtitle] else [])
  }
}

=== FILE: seqs.dfy ===
/**
 * Collection operations of the Kotlin standard library used by the
 * screens: order-preserving `filter`, first-occurrence `distinct`, and
 * grouping into a `LinkedHashMap` (keys in first-insertion order).
 */
module Seqs {
  import opened Wrappers

  /** `a` is `b` with some elements left out, order kept. */
  predicate IsSubsequence<T(==)>(a: seq<T>, b: seq<T>)
    decreases |b|
  {
    |a| == 0 || (|b| > 0 && ((a[0] == b[0] && IsSubsequence(a[1..], b[1..])) || IsSubsequence(a, b[1..])))
  }

  /** Appending one element to the longer sequence keeps `a` a subsequence, with or without appending it to `a` too. */
  lemma {:induction false} SubsequenceExtend<T>(a: seq<T>, b: seq<T>, x: T)
    requires IsSubsequence(a, b)
    ensures IsSubsequence(a, b + [x])
    ensures IsSubsequence(a + [x], b + [x])
    decreases |b|
  {
    if |b| == 0 {
      assert (a + [x])[1..] == [];
    } else {
      assert (b + [x])[1..] == b[1..] + [x];
      if |a| == 0 {
        assert a + [x] == [x];
        SubsequenceExtend(a, b[1..], x);
      } else {
        assert (a + [x])[0] == a[0] && (a + [x])[1..] == a[1..] + [x];
        if a[0] == b[0] && IsSubsequence(a[1..], b[1..]) {
          SubsequenceExtend(a[1..], b[1..], x);
        } else {
          SubsequenceExtend(a, b[1..], x);
        }
      }
    }
  }

  /** A subsequence only holds elements of the sequence it was taken from. */
  lemma {:induction false} SubsequenceMembers<T>(a: seq<T>, b: seq<T>, x: T)
    requires IsSubsequence(a, b) && x in a
    ensures x in b
    decreases |b|
  {
    if a[0] == b[0] && IsSubsequence(a[1..], b[1..]) {
      if x != a[0] {
        assert x in a[1..];
        SubsequenceMembers(a[1..], b[1..], x);
      }
    } else {
      SubsequenceMembers(a, b[1..], x);
    }
  }

  /** Concatenation regroups freely. */
  lemma AppendAssoc<T>(a: seq<T>, b: seq<T>, c: seq<T>)
    ensures a + (b + c) == (a + b) + c
  {
  }

  /** Taking one element more appends that element. */
  lemma TakeSnoc<T>(s: seq<T>, i: nat)
    requires i < |s|
    ensures s[..i + 1] == s[..i] + [s[i]]
  {
  }

  /** Behind a one-element head, index `i` holds the rest's element `i - 1`. */
  lemma ConsIndex<T>(h: T, m: seq<T>, i: nat)
    requires 1 <= i <= |m|
    ensures |[h] + m| == |m| + 1 && ([h] + m)[i] == m[i - 1]
  {
  }

  /** `filter { p(it, arg) }`: the elements satisfying the predicate, in order, duplicates kept. */
  function FilterBy<T(==,!new), A>(s: seq<T>, p: (T, A) -> bool, arg: A): (r: seq<T>)
    ensures |r| <= |s|
    ensures forall x :: x in r <==> x in s && p(x, arg)
    ensures IsSubsequence(r, s)
    decreases |s|
  {
    if |s| == 0 then []
    else
      var rest := FilterBy(s[1..], p, arg);
      assert s == [s[0]] + s[1..];
      if p(s[0], arg) then [s[0]] + rest else rest
  }

  lemma {:induction false} FilterByAppend<T(!new), A>(s: seq<T>, t: seq<T>, p: (T, A) -> bool, arg: A)
    ensures FilterBy(s + t, p, arg) == FilterBy(s, p, arg) + FilterBy(t, p, arg)
    decreases |s|
  {
    if |s| > 0 {
      assert (s + t)[1..] == s[1..] + t;
      assert (s + t)[0] == s[0];
      FilterByAppend(s[1..], t, p, arg);
      var h := if p(s[0], arg) then [s[0]] else [];
      AppendAssoc(h, FilterBy(s[1..], p, arg), FilterBy(t, p, arg));
    } else {
      assert s + t == t;
    }
  }

  /** The filter keeps every copy of a passing element and no copy of any other. */
  lemma {:induction false} FilterByCounts<T(!new), A>(s: seq<T>, p: (T, A) -> bool, arg: A)
    ensures forall x :: multiset(FilterBy(s, p, arg))[x] == if p(x, arg) then multiset(s)[x] else 0
    decreases |s|
  {
    if |s| > 0 {
      FilterByCounts(s[1..], p, arg);
      assert s == [s[0]] + s[1..];
    }
  }

  /** Every element the filter keeps passes the test. */
  lemma FilterByPasses<T(!new), A>(s: seq<T>, p: (T, A) -> bool, arg: A)
    ensures forall i :: 0 <= i < |FilterBy(s, p, arg)| ==> p(FilterBy(s, p, arg)[i], arg)
  {
    var r := FilterBy(s, p, arg);
    forall i | 0 <= i < |r| ensures p(r[i], arg) {
      assert r[i] in r;
    }
  }

  /** Filtering keeps everything exactly when every element passes. */
  lemma {:induction false} FilterByAll<T(!new), A>(s: seq<T>, p: (T, A) -> bool, arg: A)
    requires forall x :: x in s ==> p(x, arg)
    ensures FilterBy(s, p, arg) == s
    decreases |s|
  {
    if |s| > 0 {
      FilterByAll(s[1..], p, arg);
      assert s == [s[0]] + s[1..];
    }
  }

  /** Two filters that agree on every element of `s` keep the same elements of `s`. */
  lemma {:induction false} FilterByCongruent<T(!new), A, B>(s: seq<T>, p: (T, A) -> bool, a: A, q: (T, B) -> bool, b: B)
    requires forall x :: x in s ==> (p(x, a) <==> q(x, b))
    ensures FilterBy(s, p, a) == FilterBy(s, q, b)
    decreases |s|
  {
    if |s| > 0 {
      assert s[0] in s;
      assert forall x :: x in s[1..] ==> x in s;
      FilterByCongruent(s[1..], p, a, q, b);
    }
  }

  /** A filter that drops nothing kept every element. */
  lemma {:induction false} FilterByKeepsAll<T(!new), A>(s: seq<T>, p: (T, A) -> bool, arg: A)
    requires |FilterBy(s, p, arg)| == |s|
    ensures forall x :: x in s ==> p(x, arg)
    decreases |s|
  {
    if |s| > 0 {
      assert |FilterBy(s[1..], p, arg)| <= |s| - 1;
      FilterByKeepsAll(s[1..], p, arg);
      assert s == [s[0]] + s[1..];
    }
  }

  /** The first element passing the test, as `firstOrNull { … }` finds it. */
  function FirstBy<T, A>(s: seq<T>, p: (T, A) -> bool, arg: A): (r: Option<T>)
    ensures r.None? <==> forall i :: 0 <= i < |s| ==> !p(s[i], arg)
    ensures r.Some? ==>
      exists i :: (0 <= i < |s| && s[i] == r.value && p(r.value, arg)
                   && forall j :: 0 <= j < i ==> !p(s[j], arg))
  {
    if |s| == 0 then None
    else if p(s[0], arg) then Some(s[0])
    else
      var r := FirstBy(s[1..], p, arg);
      assert forall i :: 1 <= i < |s| ==> s[i] == s[1..][i - 1];
      assert r.Some? ==>
        exists i :: (0 <= i < |s| && s[i] == r.value && p(r.value, arg)
                     && forall j :: 0 <= j < i ==> !p(s[j], arg))
      by {
        if r.Some? {
          var i :| 0 <= i < |s[1..]| && s[1..][i] == r.value && p(r.value, arg)
            && forall j :: 0 <= j < i ==> !p(s[1..][j], arg);
          assert s[i + 1] == r.value;
          assert forall j :: 1 <= j < i + 1 ==> s[j] == s[1..][j - 1];
        }
      }
      r
  }

  /** The elements whose key is `k`, in order. */
  function FilterKey<T(==,!new), K(==)>(s: seq<T>, key: T -> K, k: K): (r: seq<T>)
    ensures forall x :: x in r <==> x in s && key(x) == k
    ensures |r| <= |s|
    decreases |s|
  {
    if |s| == 0 then []
    else
      var rest := FilterKey(s[..|s| - 1], key, k);
      assert s == s[..|s| - 1] + [s[|s| - 1]];
      if key(s[|s| - 1]) == k then rest + [s[|s| - 1]] else rest
  }

  lemma {:induction false} FilterKeyAppend<T(!new), K>(s: seq<T>, t: seq<T>, key: T -> K, k: K)
    ensures FilterKey(s + t, key, k) == FilterKey(s, key, k) + FilterKey(t, key, k)
    decreases |t|
  {
    if |t| == 0 {
      assert s + t == s;
    } else {
      assert (s + t)[..|s + t| - 1] == s + t[..|t| - 1];
      FilterKeyAppend(s, t[..|t| - 1], key, k);
    }
  }

  lemma FilterKeyNone<T(!new), K>(s: seq<T>, key: T -> K, k: K)
    requires forall x :: x in s ==> key(x) != k
    ensures FilterKey(s, key, k) == []
  {
    if FilterKey(s, key, k) != [] {
      assert FilterKey(s, key, k)[0] in FilterKey(s, key, k);
    }
  }

  /** Filtering by a predicate that agrees with a key test is filtering by that key. */
  lemma {:induction false} FilterByIsFilterKey<T(!new), A, K>(s: seq<T>, p: (T, A) -> bool, arg: A, key: T -> K, k: K)
    requires forall x :: x in s ==> (p(x, arg) <==> key(x) == k)
    ensures FilterBy(s, p, arg) == FilterKey(s, key, k)
    decreases |s|
  {
    if |s| > 0 {
      var init := s[..|s| - 1];
      var x := s[|s| - 1];
      assert s == init + [x];
      FilterByIsFilterKey(init, p, arg, key, k);
      FilterByAppend(init, [x], p, arg);
      assert FilterBy([x], p, arg) == if p(x, arg) then [x] else [];
    }
  }

  /** No element occurs twice. */
  predicate NoDuplicates<T(==)>(s: seq<T>) {
    forall i, j :: 0 <= i < j < |s| ==> s[i] != s[j]
  }

  /** The key of every element, in order. */
  function KeyList<T, K>(s: seq<T>, key: T -> K): (ks: seq<K>)
    ensures |ks| == |s|
    ensures forall i :: 0 <= i < |s| ==> ks[i] == key(s[i])
  {
    seq(|s|, i requires 0 <= i < |s| => key(s[i]))
  }

  /** `distinct()`: the first occurrence of every value, in order. */
  function Distinct<K(==,!new)>(ks: seq<K>): (r: seq<K>)
    ensures forall k :: k in r <==> k in ks
    ensures NoDuplicates(r)
    decreases |ks|
  {
    if |ks| == 0 then []
    else
      var d := Distinct(ks[..|ks| - 1]);
      assert ks == ks[..|ks| - 1] + [ks[|ks| - 1]];
      if ks[|ks| - 1] in d then d else d + [ks[|ks| - 1]]
  }

  // ---------------------------------------------------------------------
  // LinkedHashMap grouping (`getOrPut(key) { mutableListOf() }.add(x)`)
  // ---------------------------------------------------------------------

  datatype Group<K, T> = Group(key: K, items: seq<T>)

  function GroupKeys<K, T>(gs: seq<Group<K, T>>): (ks: seq<K>)
    ensures |ks| == |gs|
    ensures forall i :: 0 <= i < |gs| ==> ks[i] == gs[i].key
  {
    seq(|gs|, i requires 0 <= i < |gs| => gs[i].key)
  }

  /** Appends `x` to the entry for `k`, creating the entry at the end if there is none. */
  function GetOrPutAdd<K(==), T>(gs: seq<Group<K, T>>, k: K, x: T): (r: seq<Group<K, T>>)
    decreases |gs|
  {
    if |gs| == 0 then [Group(k, [x])]
    else if gs[0].key == k then [Group(k, gs[0].items + [x])] + gs[1..]
    else [gs[0]] + GetOrPutAdd(gs[1..], k, x)
  }

  /** The map built by inserting every element of `s` in order. */
  function GroupBy<K(==), T>(s: seq<T>, key: T -> K): seq<Group<K, T>>
    decreases |s|
  {
    if |s| == 0 then []
    else GetOrPutAdd(GroupBy(s[..|s| - 1], key), key(s[|s| - 1]), s[|s| - 1])
  }

  function TotalSize<K, T>(gs: seq<Group<K, T>>): nat
    decreases |gs|
  {
    if |gs| == 0 then 0 else |gs[0].items| + TotalSize(gs[1..])
  }

  lemma {:induction false} GetOrPutAddKeys<K, T>(gs: seq<Group<K, T>>, k: K, x: T)
    ensures GroupKeys(GetOrPutAdd(gs, k, x)) ==
      if k in GroupKeys(gs) then GroupKeys(gs) else GroupKeys(gs) + [k]
    decreases |gs|
  {
    if |gs| > 0 && gs[0].key != k {
      GetOrPutAddKeys(gs[1..], k, x);
      assert GroupKeys(gs) == [gs[0].key] + GroupKeys(gs[1..]);
      assert GroupKeys([gs[0]] + GetOrPutAdd(gs[1..], k, x))
        == [gs[0].key] + GroupKeys(GetOrPutAdd(gs[1..], k, x));
    } else if |gs| > 0 {
      assert GroupKeys(GetOrPutAdd(gs, k, x)) == GroupKeys(gs);
    }
  }

  lemma GetOrPutAddItems<K, T>(gs: seq<Group<K, T>>, k: K, x: T, i: nat)
    requires NoDuplicates(GroupKeys(gs))
    requires i < |GetOrPutAdd(gs, k, x)|
    ensures var g := GetOrPutAdd(gs, k, x)[i];
      if i < |gs| then g.key == gs[i].key && g.items == gs[i].items + (if gs[i].key == k then [x] else [])
      else g == Group(k, [x]) && k !in GroupKeys(gs)
  {
    if i < |gs| {
      GetOrPutAddOld(gs, k, x, i);
    } else {
      GetOrPutAddNew(gs, k, x, i);
    }
  }

  /** An existing entry keeps its key and gains `x` exactly when the key is `k`. */
  lemma {:induction false} GetOrPutAddOld<K, T>(gs: seq<Group<K, T>>, k: K, x: T, i: nat)
    requires NoDuplicates(GroupKeys(gs))
    requires i < |gs|
    ensures i < |GetOrPutAdd(gs, k, x)|
    ensures GetOrPutAdd(gs, k, x)[i] == Group(gs[i].key, gs[i].items + (if gs[i].key == k then [x] else []))
    decreases |gs|
  {
    if i > 0 {
      if gs[0].key == k {
        assert GetOrPutAdd(gs, k, x)[i] == gs[i];
        assert GroupKeys(gs)[0] != GroupKeys(gs)[i];
      } else {
        var rest := GetOrPutAdd(gs[1..], k, x);
        assert GroupKeys(gs[1..]) == GroupKeys(gs)[1..];
        GetOrPutAddOld(gs[1..], k, x, i - 1);
        assert GetOrPutAdd(gs, k, x)[i] == rest[i - 1];
        assert gs[1..][i - 1] == gs[i];
      }
    }
  }

  /** An entry past the old ones is the new entry for `k`, which had none. */
  lemma {:induction false} GetOrPutAddNew<K, T>(gs: seq<Group<K, T>>, k: K, x: T, i: nat)
    requires |gs| <= i < |GetOrPutAdd(gs, k, x)|
    ensures GetOrPutAdd(gs, k, x)[i] == Group(k, [x]) && k !in GroupKeys(gs)
    decreases |gs|
  {
    if |gs| > 0 {
      var rest := GetOrPutAdd(gs[1..], k, x);
      assert GroupKeys(gs) == [gs[0].key] + GroupKeys(gs[1..]);
      GetOrPutAddNew(gs[1..], k, x, i - 1);
      assert GetOrPutAdd(gs, k, x)[i] == rest[i - 1];
    }
  }

  lemma {:induction false} GetOrPutAddSize<K, T>(gs: seq<Group<K, T>>, k: K, x: T)
    ensures TotalSize(GetOrPutAdd(gs, k, x)) == TotalSize(gs) + 1
    decreases |gs|
  {
    if |gs| > 0 {
      if gs[0].key == k {
        assert GetOrPutAdd(gs, k, x)[1..] == gs[1..];
      } else {
        GetOrPutAddSize(gs[1..], k, x);
        assert GetOrPutAdd(gs, k, x)[1..] == GetOrPutAdd(gs[1..], k, x);
      }
    }
  }

  /** A key missing from the key list filters to nothing. */
  lemma UnseenKeyFilter<K(!new), T(!new)>(s: seq<T>, key: T -> K, k: K)
    requires k !in Distinct(KeyList(s, key))
    ensures FilterKey(s, key, k) == []
  {
    forall y | y in s ensures key(y) != k {
      var j :| 0 <= j < |s| && s[j] == y;
      assert KeyList(s, key)[j] == key(y);
    }
    FilterKeyNone(s, key, k);
  }

  /**
   * Grouping keeps the keys in first-appearance order, each once, and the
   * entry for a key holds exactly the elements with that key, in order.
   */
  lemma GroupByCharacterization<K(!new), T(!new)>(s: seq<T>, key: T -> K)
    ensures GroupKeys(GroupBy(s, key)) == Distinct(KeyList(s, key))
    ensures forall i :: 0 <= i < |GroupBy(s, key)| ==>
      GroupBy(s, key)[i].items == FilterKey(s, key, GroupBy(s, key)[i].key)
      && GroupBy(s, key)[i].items != []
  {
    GroupByKeys(s, key);
    GroupByItems(s, key);
  }

  /** The keys of the map, in first-appearance order. */
  lemma {:induction false} GroupByKeys<K(!new), T(!new)>(s: seq<T>, key: T -> K)
    ensures GroupKeys(GroupBy(s, key)) == Distinct(KeyList(s, key))
    decreases |s|
  {
    if |s| > 0 {
      var init := s[..|s| - 1];
      var x := s[|s| - 1];
      GroupByKeys(init, key);
      GetOrPutAddKeys(GroupBy(init, key), key(x), x);
      assert KeyList(init, key) == KeyList(s, key)[..|s| - 1];
    }
  }

  /** Each entry of the map holds exactly the elements with its key, in order. */
  lemma {:induction false} GroupByItems<K(!new), T(!new)>(s: seq<T>, key: T -> K)
    ensures forall i :: 0 <= i < |GroupBy(s, key)| ==>
      GroupBy(s, key)[i].items == FilterKey(s, key, GroupBy(s, key)[i].key)
      && GroupBy(s, key)[i].items != []
    decreases |s|
  {
    if |s| > 0 {
      var init := s[..|s| - 1];
      var gs := GroupBy(init, key);
      GroupByItems(init, key);
      GroupByKeys(init, key);
      var r := GroupBy(s, key);
      forall i | 0 <= i < |r|
        ensures r[i].items == FilterKey(s, key, r[i].key) && r[i].items != []
      {
        GroupByStepItems(s, key, gs, i);
      }
    }
  }

  /** One insertion keeps every entry equal to the filter of its key. */
  lemma GroupByStepItems<K(!new), T(!new)>(s: seq<T>, key: T -> K, gs: seq<Group<K, T>>, i: nat)
    requires |s| > 0
    requires GroupKeys(gs) == Distinct(KeyList(s[..|s| - 1], key))
    requires forall j :: 0 <= j < |gs| ==>
      gs[j].items == FilterKey(s[..|s| - 1], key, gs[j].key) && gs[j].items != []
    requires i < |GetOrPutAdd(gs, key(s[|s| - 1]), s[|s| - 1])|
    ensures var g := GetOrPutAdd(gs, key(s[|s| - 1]), s[|s| - 1])[i];
      g.items == FilterKey(s, key, g.key) && g.items != []
  {
    var x := s[|s| - 1];
    GetOrPutAddItems(gs, key(x), x, i);
    if i >= |gs| {
      UnseenKeyFilter(s[..|s| - 1], key, key(x));
    }
  }

  /** One group per distinct key. */
  lemma GroupByCount<K(!new), T(!new)>(s: seq<T>, key: T -> K)
    ensures |GroupBy(s, key)| == |Distinct(KeyList(s, key))|
  {
    GroupByCharacterization(s, key);
  }

  /** Every element lands in some group: the sizes add up to the input length. */
  lemma {:induction false} GroupBySize<K, T>(s: seq<T>, key: T -> K)
    ensures TotalSize(GroupBy(s, key)) == |s|
    decreases |s|
  {
    if |s| > 0 {
      GroupBySize(s[..|s| - 1], key);
      GetOrPutAddSize(GroupBy(s[..|s| - 1], key), key(s[|s| - 1]), s[|s| - 1]);
    }
  }
}

=== FILE: sorting.dfy ===
/**
 * Kotlin's `sortedBy`/`sortedWith`, which are stable. The model is an
 * insertion sort on a key projection; the lemmas show it sorts, permutes,
 * and keeps elements with equal keys in their original order.
 */
module StableSort {
  import opened Seqs
  import opened Text

  /** `le` is a total order on keys: total, antisymmetric and transitive. */
  ghost predicate TotalOrder<K(!new)>(le: (K, K) -> bool) {
    (forall a, b :: le(a, b) || le(b, a))
    && (forall a, b :: le(a, b) && le(b, a) ==> a == b)
    && (forall a, b, c :: le(a, b) && le(b, c) ==> le(a, c))
  }

  ghost predicate Reflexive<K(!new)>(le: (K, K) -> bool) {
    forall a :: le(a, a)
  }

  /** Every earlier element's key is at most every later element's key. */
  predicate Sorted<T, K>(s: seq<T>, key: T -> K, le: (K, K) -> bool) {
    forall i, j :: 0 <= i < j < |s| ==> le(key(s[i]), key(s[j]))
  }

  /** Inserts `x` after every element whose key is at most its own. */
  function Insert<T, K>(x: T, s: seq<T>, key: T -> K, le: (K, K) -> bool): (r: seq<T>)
    ensures multiset(r) == multiset(s) + multiset{x}
    ensures |r| == |s| + 1
    decreases |s|
  {
    if |s| == 0 then [x]
    else if le(key(s[0]), key(x)) then
      assert s == [s[0]] + s[1..];
      [s[0]] + Insert(x, s[1..], key, le)
    else [x] + s
  }

  /** Insertion sort, consuming the input from left to right. */
  function SortBy<T, K>(s: seq<T>, key: T -> K, le: (K, K) -> bool): (r: seq<T>)
    ensures multiset(r) == multiset(s)
    ensures |r| == |s|
    decreases |s|
  {
    if |s| == 0 then []
    else
      assert s == s[..|s| - 1] + [s[|s| - 1]];
      Insert(s[|s| - 1], SortBy(s[..|s| - 1], key, le), key, le)
  }

  /** Sorting neither adds nor drops an element. */
  lemma SortByMembers<T, K>(s: seq<T>, key: T -> K, le: (K, K) -> bool, x: T)
    ensures x in SortBy(s, key, le) <==> x in s
  {
    assert multiset(SortBy(s, key, le)) == multiset(s);
    assert x in SortBy(s, key, le) <==> x in multiset(SortBy(s, key, le));
  }

  lemma {:induction false} InsertSorted<T, K(!new)>(x: T, s: seq<T>, key: T -> K, le: (K, K) -> bool)
    requires TotalOrder(le) && Sorted(s, key, le)
    ensures Sorted(Insert(x, s, key, le), key, le)
    decreases |s|
  {
    if |s| > 0 && le(key(s[0]), key(x)) {
      InsertSorted(x, s[1..], key, le);
      var r := Insert(x, s, key, le);
      forall j | 0 < j < |r| ensures le(key(r[0]), key(r[j])) {
        assert r[j] in multiset(s[1..]) + multiset{x};
      }
    }
  }

  /** The result is in key order. */
  lemma {:induction false} SortBySorted<T, K(!new)>(s: seq<T>, key: T -> K, le: (K, K) -> bool)
    requires TotalOrder(le)
    ensures Sorted(SortBy(s, key, le), key, le)
    decreases |s|
  {
    if |s| > 0 {
      SortBySorted(s[..|s| - 1], key, le);
      InsertSorted(s[|s| - 1], SortBy(s[..|s| - 1], key, le), key, le);
    }
  }

  lemma InsertFrontFilter<T(!new), K(!new)>(x: T, s: seq<T>, key: T -> K, le: (K, K) -> bool, k: K)
    requires Reflexive(le) && Sorted(s, key, le)
    requires |s| > 0 && !le(key(s[0]), key(x))
    ensures FilterKey([x] + s, key, k) == FilterKey(s, key, k) + (if key(x) == k then [x] else [])
  {
    FilterKeyAppend([x], s, key, k);
    assert [x] == [] + [x];
    if key(x) == k {
      forall y | y in s ensures key(y) != k {
        var j :| 0 <= j < |s| && s[j] == y;
        if j > 0 { assert le(key(s[0]), key(s[j])); }
        else { assert le(key(s[0]), key(s[0])); }
      }
      FilterKeyNone(s, key, k);
    }
  }

  lemma InsertBehind<T, K>(x: T, s: seq<T>, key: T -> K, le: (K, K) -> bool)
    requires |s| > 0 && le(key(s[0]), key(x))
    ensures s == [s[0]] + s[1..]
    ensures Insert(x, s, key, le) == [s[0]] + Insert(x, s[1..], key, le)
  {
  }

  /** Inserting behind the first element adds that element's share in front of the rest's. */
  lemma InsertBehindFilter<T(!new), K>(x: T, s: seq<T>, key: T -> K, le: (K, K) -> bool, k: K, tail: seq<T>)
    requires |s| > 0 && le(key(s[0]), key(x))
    requires FilterKey(Insert(x, s[1..], key, le), key, k) == FilterKey(s[1..], key, k) + tail
    ensures FilterKey(Insert(x, s, key, le), key, k) == FilterKey(s, key, k) + tail
  {
    InsertBehind(x, s, key, le);
    FilterKeyCons(s[0], s[1..], Insert(x, s[1..], key, le), tail, key, k, s, Insert(x, s, key, le));
  }

  /** Putting the same element in front of two lists keeps a suffix relation between their filters. */
  lemma FilterKeyCons<T(!new), K>(y: T, u: seq<T>, v: seq<T>, tail: seq<T>, key: T -> K, k: K, yu: seq<T>, yv: seq<T>)
    requires yu == [y] + u && yv == [y] + v
    requires FilterKey(v, key, k) == FilterKey(u, key, k) + tail
    ensures FilterKey(yv, key, k) == FilterKey(yu, key, k) + tail
  {
    FilterKeyAppend([y], v, key, k);
    FilterKeyAppend([y], u, key, k);
    AppendAssoc(FilterKey([y], key, k), FilterKey(u, key, k), tail);
  }

  lemma {:induction false} InsertStable<T(!new), K(!new)>(x: T, s: seq<T>, key: T -> K, le: (K, K) -> bool, k: K)
    requires Reflexive(le) && Sorted(s, key, le)
    ensures FilterKey(Insert(x, s, key, le), key, k)
      == FilterKey(s, key, k) + (if key(x) == k then [x] else [])
    decreases |s|
  {
    if |s| == 0 {
      assert [x] == [] + [x];
    } else if le(key(s[0]), key(x)) {
      assert Sorted(s[1..], key, le);
      InsertStable(x, s[1..], key, le, k);
      InsertBehindFilter(x, s, key, le, k, if key(x) == k then [x] else []);
    } else {
      InsertFrontFilter(x, s, key, le, k);
    }
  }

  /**
   * Stability: for every key, the elements carrying it appear in the output
   * in the same order as in the input.
   */
  lemma {:induction false} SortByStable<T(!new), K(!new)>(s: seq<T>, key: T -> K, le: (K, K) -> bool, k: K)
    requires TotalOrder(le)
    ensures FilterKey(SortBy(s, key, le), key, k) == FilterKey(s, key, k)
    decreases |s|
  {
    if |s| > 0 {
      var init := s[..|s| - 1];
      SortByStable(init, key, le, k);
      SortBySorted(init, key, le);
      assert Reflexive(le) by {
        forall a: K ensures le(a, a) { assert le(a, a) || le(a, a); }
      }
      InsertStable(s[|s| - 1], SortBy(init, key, le), key, le, k);
    }
  }

  /** A sort of a duplicate-free list is duplicate-free. */
  lemma {:induction false} SortByNoDuplicates<T, K>(s: seq<T>, key: T -> K, le: (K, K) -> bool)
    requires NoDuplicates(s)
    ensures NoDuplicates(SortBy(s, key, le))
    decreases |s|
  {
    if |s| > 0 {
      var init := s[..|s| - 1];
      var x := s[|s| - 1];
      SortByNoDuplicates(init, key, le);
      assert x !in init;
      assert x !in multiset(SortBy(init, key, le));
      InsertNoDuplicates(x, SortBy(init, key, le), key, le);
    }
  }

  lemma {:induction false} InsertNoDuplicates<T, K>(x: T, s: seq<T>, key: T -> K, le: (K, K) -> bool)
    requires NoDuplicates(s) && x !in s
    ensures NoDuplicates(Insert(x, s, key, le))
    decreases |s|
  {
    if |s| > 0 && le(key(s[0]), key(x)) {
      InsertNoDuplicates(x, s[1..], key, le);
      var r := Insert(x, s, key, le);
      assert s[0] !in s[1..];
      assert s[0] !in multiset(r[1..]);
    }
  }

  /** Sorting keeps a list free of two elements with the same image under `f`. */
  lemma SortByKeepsDistinct<T, K, U>(s: seq<T>, key: T -> K, le: (K, K) -> bool, f: T -> U)
    requires forall p, q :: 0 <= p < q < |s| ==> f(s[p]) != f(s[q])
    ensures forall i, j :: 0 <= i < j < |SortBy(s, key, le)| ==> f(SortBy(s, key, le)[i]) != f(SortBy(s, key, le)[j])
  {
    assert NoDuplicates(s);
    SortByNoDuplicates(s, key, le);
    forall i, j | 0 <= i < j < |SortBy(s, key, le)|
      ensures f(SortBy(s, key, le)[i]) != f(SortBy(s, key, le)[j])
    {
      SortedPairDistinct(s, key, le, f, i, j);
    }
  }

  lemma SortedPairDistinct<T, K, U>(s: seq<T>, key: T -> K, le: (K, K) -> bool, f: T -> U, i: nat, j: nat)
    requires forall p, q :: 0 <= p < q < |s| ==> f(s[p]) != f(s[q])
    requires NoDuplicates(SortBy(s, key, le))
    requires i < j < |SortBy(s, key, le)|
    ensures f(SortBy(s, key, le)[i]) != f(SortBy(s, key, le)[j])
  {
    var r := SortBy(s, key, le);
    SortByMembers(s, key, le, r[i]);
    SortByMembers(s, key, le, r[j]);
    var p :| 0 <= p < |s| && s[p] == r[i];
    var q :| 0 <= q < |s| && s[q] == r[j];
    assert p != q;
  }

  /** `String.compareTo` is a total order, so sorting by a string key is well defined. */
  lemma StringOrderIsTotal()
    ensures TotalOrder(LexLe)
  {
    forall a: string, b: string ensures LexLe(a, b) || LexLe(b, a) {
      LexLeTotal(a, b);
    }
    forall a: string, b: string | LexLe(a, b) && LexLe(b, a) ensures a == b {
      LexLeAntisymmetric(a, b);
    }
    forall a: string, b: string, c: string | LexLe(a, b) && LexLe(b, c) ensures LexLe(a, c) {
      LexLeTransitive(a, b, c);
    }
  }
}

=== FILE: text.dfy ===
/**
 * Kotlin string operations the browsing screens rely on: `trim()`,
 * `isBlank()`, `lowercase()`/`uppercase()`, `contains(…, ignoreCase = true)`,
 * `split(…)` and `String.compareTo`.
 */
module Text {

  /**
   * Kotlin's `Char.isWhitespace()`: Java whitespace or a Unicode space
   * separator (which adds the no-break spaces U+00A0, U+2007 and U+202F).
   */
  predicate IsWhitespace(c: char) {
    c == ' ' || c == '\t' || c == '\n' || c == '\U{000B}' || c == '\U{000C}' || c == '\r'
    || ('\U{001C}' <= c <= '\U{001F}')
    || c == '\U{00A0}' || c == '\U{1680}' || ('\U{2000}' <= c <= '\U{200A}')
    || c == '\U{2028}' || c == '\U{2029}' || c == '\U{202F}' || c == '\U{205F}' || c == '\U{3000}'
  }

  /** Kotlin's `isBlank()`: every character is whitespace (the empty string included). */
  predicate IsBlank(s: string) {
    forall i :: 0 <= i < |s| ==> IsWhitespace(s[i])
  }

  /** Drops the longest whitespace prefix. */
  function TrimStart(s: string): (r: string)
    ensures |r| <= |s| && r == s[|s| - |r|..]
    ensures IsBlank(s[..|s| - |r|])
    ensures r == [] || !IsWhitespace(r[0])
    decreases |s|
  {
    if |s| > 0 && IsWhitespace(s[0]) then
      var r := TrimStart(s[1..]);
      assert s[1..][|s| - 1 - |r|..] == s[|s| - |r|..];
      BlankCons(s, |s| - |r|);
      r
    else s
  }

  /** A whitespace character in front of a blank run makes a longer blank run. */
  lemma BlankCons(s: string, n: nat)
    requires 0 < n <= |s| && IsWhitespace(s[0]) && IsBlank(s[1..][..n - 1])
    ensures IsBlank(s[..n])
  {
    var dropped := s[..n];
    var rest := s[1..][..n - 1];
    forall i | 0 <= i < n
      ensures IsWhitespace(dropped[i])
    {
      if i > 0 {
        assert dropped[i] == rest[i - 1];
      }
    }
  }

  /** Drops the longest whitespace suffix. */
  function TrimEnd(s: string): (r: string)
    ensures |r| <= |s| && r == s[..|r|]
    ensures IsBlank(s[|r|..])
    ensures r == [] || !IsWhitespace(r[|r| - 1])
    decreases |s|
  {
    if |s| > 0 && IsWhitespace(s[|s| - 1]) then
      var r := TrimEnd(s[..|s| - 1]);
      assert s[..|s| - 1][..|r|] == s[..|r|];
      BlankSnoc(s, |r|);
      r
    else s
  }

  /** A blank run followed by a whitespace character makes a longer blank run. */
  lemma BlankSnoc(s: string, n: nat)
    requires n < |s| && IsWhitespace(s[|s| - 1]) && IsBlank(s[..|s| - 1][n..])
    ensures IsBlank(s[n..])
  {
    var dropped := s[n..];
    var rest := s[..|s| - 1][n..];
    forall i | 0 <= i < |dropped|
      ensures IsWhitespace(dropped[i])
    {
      if i < |rest| {
        assert dropped[i] == rest[i];
      }
    }
  }

  /** Kotlin's `trim()`. */
  function Trim(s: string): (r: string)
    ensures r == [] || (!IsWhitespace(r[0]) && !IsWhitespace(r[|r| - 1]))
  {
    TrimEnd(TrimStart(s))
  }

  lemma {:induction false} TrimStartOfNonBlank(s: string)
    requires !IsBlank(s)
    ensures TrimStart(s) != []
    decreases |s|
  {
    if IsWhitespace(s[0]) {
      assert !IsBlank(s[1..]) by {
        var i :| 0 <= i < |s| && !IsWhitespace(s[i]);
        assert s[1..][i - 1] == s[i];
      }
      TrimStartOfNonBlank(s[1..]);
    }
  }

  /** A string trims to nothing exactly when it is blank. */
  lemma TrimEmptyIffBlank(s: string)
    ensures Trim(s) == [] <==> IsBlank(s)
  {
    var t := TrimStart(s);
    var r := TrimEnd(t);
    if IsBlank(s) {
      assert IsBlank(t);
    } else {
      TrimStartOfNonBlank(s);
      assert !IsWhitespace(t[0]);
    }
  }

  lemma {:induction false} TrimStartBlankPrefix(a: string, s: string)
    requires IsBlank(a)
    ensures TrimStart(a + s) == TrimStart(s)
    decreases |a|
  {
    if |a| > 0 {
      assert (a + s)[0] == a[0] && IsWhitespace(a[0]);
      assert (a + s)[1..] == a[1..] + s;
      TrimStartBlankPrefix(a[1..], s);
    } else {
      assert a + s == s;
    }
  }

  lemma {:induction false} TrimEndBlankSuffix(s: string, b: string)
    requires IsBlank(b)
    ensures TrimEnd(s + b) == TrimEnd(s)
    decreases |b|
  {
    if |b| > 0 {
      assert (s + b)[..|s + b| - 1] == s + b[..|b| - 1];
      TrimEndBlankSuffix(s, b[..|b| - 1]);
    } else {
      assert s + b == s;
    }
  }

  lemma {:induction false} TrimStartAppend(s: string, b: string)
    requires !IsBlank(s)
    ensures TrimStart(s + b) == TrimStart(s) + b
    decreases |s|
  {
    if IsWhitespace(s[0]) {
      assert (s + b)[1..] == s[1..] + b;
      TrimStartAppend(s[1..], b);
    }
  }

  /** Whitespace around a string never changes what it trims to. */
  lemma TrimIgnoresPadding(a: string, s: string, b: string)
    requires IsBlank(a) && IsBlank(b)
    ensures Trim(a + s + b) == Trim(s)
  {
    assert a + s + b == a + (s + b);
    TrimStartBlankPrefix(a, s + b);
    if IsBlank(s) {
      assert IsBlank(a + s + b);
      TrimEmptyIffBlank(a + s + b);
      TrimEmptyIffBlank(s);
    } else {
      TrimStartAppend(s, b);
      TrimEndBlankSuffix(TrimStart(s), b);
    }
  }

  /** A string that neither starts nor ends with whitespace is its own trim. */
  lemma TrimOfUnpadded(s: string)
    requires s == [] || (!IsWhitespace(s[0]) && !IsWhitespace(s[|s| - 1]))
    ensures Trim(s) == s
  {
  }

  /** Trimming twice is trimming once. */
  lemma TrimIdempotent(s: string)
    ensures Trim(Trim(s)) == Trim(s)
  {
    var r := Trim(s);
    if r != [] {
      assert TrimStart(r) == r;
      assert TrimEnd(r) == r;
    }
  }

  // ---------------------------------------------------------------------
  // Case mapping (ASCII letters only; see README)
  // ---------------------------------------------------------------------

  function LowerChar(c: char): (r: char)
    ensures 'A' <= c <= 'Z' ==> 'a' <= r <= 'z'
    ensures !('A' <= c <= 'Z') ==> r == c
  {
    if 'A' <= c <= 'Z' then (c as int + 32) as char else c
  }

  function UpperChar(c: char): (r: char)
    ensures 'a' <= c <= 'z' ==> 'A' <= r <= 'Z'
    ensures !('a' <= c <= 'z') ==> r == c
  {
    if 'a' <= c <= 'z' then (c as int - 32) as char else c
  }

  /** Kotlin's `lowercase()`, character by character. */
  function Lowercase(s: string): (r: string)
    ensures |r| == |s|
    ensures forall i :: 0 <= i < |s| ==> r[i] == LowerChar(s[i])
  {
    seq(|s|, i requires 0 <= i < |s| => LowerChar(s[i]))
  }

  /** Kotlin's `uppercase()`, character by character. */
  function Uppercase(s: string): (r: string)
    ensures |r| == |s|
    ensures forall i :: 0 <= i < |s| ==> r[i] == UpperChar(s[i])
  {
    seq(|s|, i requires 0 <= i < |s| => UpperChar(s[i]))
  }

  /** Kotlin's `Char.equals(other, ignoreCase = true)`. */
  predicate CharEqualsIgnoreCase(a: char, b: char) {
    a == b || UpperChar(a) == UpperChar(b) || LowerChar(UpperChar(a)) == LowerChar(UpperChar(b))
  }

  /** `needle` occurs in `hay` at offset `i`, ignoring case. */
  predicate MatchesAt(hay: string, needle: string, i: nat)
    requires i + |needle| <= |hay|
  {
    forall j :: 0 <= j < |needle| ==> CharEqualsIgnoreCase(hay[i + j], needle[j])
  }

  /** Kotlin's `hay.contains(needle, ignoreCase = true)`, scanning offsets left to right. */
  function ContainsIgnoreCase(hay: string, needle: string): bool
    decreases |hay|
  {
    if |needle| > |hay| then false
    else if MatchesAt(hay, needle, 0) then true
    else ContainsIgnoreCase(hay[1..], needle)
  }

  /** The scan finds an occurrence exactly when one exists at some offset. */
  lemma {:induction false} ContainsIgnoreCaseSpec(hay: string, needle: string)
    ensures ContainsIgnoreCase(hay, needle) <==>
      exists i: nat :: i + |needle| <= |hay| && MatchesAt(hay, needle, i)
    decreases |hay|
  {
    if |needle| > |hay| {
    } else if MatchesAt(hay, needle, 0) {
    } else {
      ContainsIgnoreCaseSpec(hay[1..], needle);
      if ContainsIgnoreCase(hay, needle) {
        var i: nat :| i + |needle| <= |hay[1..]| && MatchesAt(hay[1..], needle, i);
        assert MatchesAt(hay, needle, i + 1);
      }
      if exists i: nat :: i + |needle| <= |hay| && MatchesAt(hay, needle, i) {
        var i: nat :| i + |needle| <= |hay| && MatchesAt(hay, needle, i);
        assert i != 0;
        assert MatchesAt(hay[1..], needle, i - 1);
      }
    }
  }

  /** Every string contains the empty string. */
  lemma ContainsEmpty(hay: string)
    ensures ContainsIgnoreCase(hay, [])
  {
  }

  // ---------------------------------------------------------------------
  // Splitting on a delimiter character
  // ---------------------------------------------------------------------

  /** Kotlin's `split(d)` with no limit: every part, empty ones included. */
  function Split(s: string, d: char): (parts: seq<string>)
    ensures |parts| >= 1
    decreases |s|
  {
    if |s| == 0 then [[]]
    else
      var rest := Split(s[1..], d);
      if s[0] == d then [[]] + rest else [[s[0]] + rest[0]] + rest[1..]
  }

  /** `joinToString(d)`. */
  function Join(parts: seq<string>, d: char): (s: string)
    requires |parts| >= 1
    decreases |parts|
  {
    if |parts| == 1 then parts[0] else parts[0] + [d] + Join(parts[1..], d)
  }

  /** Splitting and re-joining gives back the original text, and no part holds the delimiter. */
  lemma {:induction false} SplitJoin(s: string, d: char)
    ensures Join(Split(s, d), d) == s
    ensures forall k :: 0 <= k < |Split(s, d)| ==> d !in Split(s, d)[k]
    decreases |s|
  {
    if |s| > 0 {
      SplitJoin(s[1..], d);
      var rest := Split(s[1..], d);
      if s[0] == d {
        assert Split(s, d)[1..] == rest;
        assert s == [d] + s[1..];
      } else {
        var parts := Split(s, d);
        if |rest| == 1 {
          assert s == [s[0]] + s[1..];
        } else {
          assert parts[1..] == rest[1..];
          assert s == [s[0]] + s[1..];
        }
      }
    }
  }

  lemma {:induction false} SplitNoDelimiter(s: string, d: char)
    requires d !in s
    ensures Split(s, d) == [s]
    decreases |s|
  {
    if |s| > 0 {
      SplitNoDelimiter(s[1..], d);
      assert s == [s[0]] + s[1..];
    }
  }

  /** Three parts glued with a delimiter read the same whichever pair is glued first. */
  lemma ThreePartsRegroup(a: string, b: string, c: string, d: char)
    ensures a + [d] + b + [d] + c == a + [d] + (b + [d] + c)
  {
    var k1 := a + [d] + b + [d] + c;
    var k2 := a + [d] + (b + [d] + c);
    var tail := b + [d] + c;
    forall i | 0 <= i < |k1|
      ensures k1[i] == k2[i]
    {
      if i < |a| {
        assert k1[i] == a[i] == k2[i];
      } else if i == |a| {
        assert k1[i] == d == k2[i];
      } else {
        assert k2[i] == tail[i - |a| - 1];
      }
    }
  }

  /** A delimiter-free text followed by the delimiter splits off as the first part. */
  lemma {:induction false} SplitPrefix(a: string, rest: string, d: char)
    requires d !in a
    ensures Split(a + [d] + rest, d) == [a] + Split(rest, d)
    decreases |a|
  {
    if |a| == 0 {
      assert a + [d] + rest == [d] + rest;
      assert ([d] + rest)[1..] == rest;
    } else {
      assert (a + [d] + rest)[1..] == a[1..] + [d] + rest;
      SplitPrefix(a[1..], rest, d);
      assert a == [a[0]] + a[1..];
    }
  }

  /** Two delimiter-free texts glued with the delimiter split back into the same two texts. */
  lemma {:induction false} SplitPair(a: string, b: string, d: char)
    requires d !in a && d !in b
    ensures Split(a + [d] + b, d) == [a, b]
    decreases |a|
  {
    if |a| == 0 {
      assert a + [d] + b == [d] + b;
      assert ([d] + b)[1..] == b;
      SplitNoDelimiter(b, d);
    } else {
      assert (a + [d] + b)[1..] == a[1..] + [d] + b;
      SplitPair(a[1..], b, d);
      assert a == [a[0]] + a[1..];
    }
  }

  // ---------------------------------------------------------------------
  // Lexicographic order (`String.compareTo`)
  // ---------------------------------------------------------------------

  /** `a.compareTo(b) <= 0`: the first differing character decides, a prefix comes first. */
  predicate LexLe(a: string, b: string)
    decreases |a|
  {
    |a| == 0 || (|b| > 0 && (a[0] < b[0] || (a[0] == b[0] && LexLe(a[1..], b[1..]))))
  }

  lemma {:induction false} LexLeTotal(a: string, b: string)
    ensures LexLe(a, b) || LexLe(b, a)
    decreases |a|
  {
    if |a| > 0 && |b| > 0 && a[0] == b[0] {
      LexLeTotal(a[1..], b[1..]);
    }
  }

  lemma {:induction false} LexLeAntisymmetric(a: string, b: string)
    requires LexLe(a, b) && LexLe(b, a)
    ensures a == b
    decreases |a|
  {
    if |a| > 0 {
      LexLeAntisymmetric(a[1..], b[1..]);
      assert a == [a[0]] + a[1..];
      assert b == [b[0]] + b[1..];
    }
  }

  lemma {:induction false} LexLeTransitive(a: string, b: string, c: string)
    requires LexLe(a, b) && LexLe(b, c)
    ensures LexLe(a, c)
    decreases |a|
  {
    if |a| > 0 && a[0] == b[0] && b[0] == c[0] {
      LexLeTransitive(a[1..], b[1..], c[1..]);
    }
  }
}

=== FILE: wrappers.dfy ===
/** Nullable values of the Kotlin sources: `T?` becomes `Option<T>`. */
module Wrappers {

  datatype Option<+T> = None | Some(value: T) {

    /** Kotlin's `?:` elvis operator. */
    function GetOr(default: T): (r: T)
      ensures Some? ==> r == value
      ensures None? ==> r == default
    {
      match this
      case Some(v) => v
      case None => default
    }
  }
}
